=== FILE: README.md ===
# Log ingestion and Sigma detection pipeline

This project models the core of a small SIEM pipeline, and proves properties of that model.

The pipeline has two workers:

- **Ingestion worker.** It receives syslog-style datagrams and hands each line to a parser registry. The registry tries a Windows JSON parser, an nginx access-log parser and a Linux syslog parser in order. A Zeek `conn.log` parser can also be registered. The worker collects the parsed records into a batch, then writes each record as a log entry under a server row.
- **Detection worker.** It polls the stored log entries above a checkpoint and matches each against Sigma rules of its log type. It stores one alert row for each rule that fires.

## Modules

| file | module | what it holds |
|---|---|---|
| `text.dfy` | `Wrappers`, `Text` | `Option`; Python string operations: `strip`, `split`, `in`, `lower`, `int()`, `str()`, and the greedy character runs the regexes use |
| `values.dfy` | `Values` | the values held in a parsed record (`str`, `int`, `None`, nested maps) and `dict.get`, `or`, `int()` on them |
| `datetime.dfy` | `DateTimes` | `strptime` and `strftime` for the two formats the pipeline uses, with a general round-trip proof |
| `base_parser.dfy` | `BaseParser` | the metadata every parser merges into its result |
| `linux_parser.dfy` | `LinuxParser` | the syslog header regex, the SSH regex, `can_parse`, `parse` and `enrich` |
| `nginx_parser.dfy` | `NginxParser` | the combined access-log regex, `can_parse`, `parse` and `enrich` |
| `windows_parser.dfy` | `WindowsParser` | `can_parse`, `parse`, the message flattener and the Sigma renaming of `normalize` |
| `zeek_parser.dfy` | `ZeekConnParser` | the `conn.log` regex, `can_parse` and `parse` |
| `parser_manager.dfy` | `ParserManager` | the registry as a class over a sequence of parser kinds |
| `sigma_engine.dfy` | `SigmaEngine` | `match_log`: condition strings, selections, modifiers, wildcards and alert building |
| `ingestion_worker.dfy` | `Ingestion` | the server and log-entry tables as a store class; the worker class with its batch and counters |
| `sigma_worker.dfy` | `DetectionWorker` | the log and alert tables as a database class; the worker class with its checkpoint and counters |

### Modelling choices

- A Python exception that a caller catches is modelled as `None`, or as a `false` outcome. An exception that escapes several calls is modelled the same way, up to the handler that catches it. The detection worker's poll is one such case. It reads detail columns (`facility`, `channel`, `method`) that the detail tables do not have, so an entry with a detail row raises AttributeError. That exception leaves `_process_batch` and ends `run` through its `except` and `finally`.
- Database calls that may raise are driven by a fault script. The script is a sequence of booleans, and call *k* raises when its *k*-th entry is `true`.
- Some services are parameters, because the model cannot see them:
  - JSON decoding (`ParserManager.Library.decode` for the Windows parser; `SigmaEngine.Services.decode` for the `parsed_data` column);
  - `re.search` for the `re` modifier (`SigmaEngine.Services.search`);
  - the Zeek epoch conversion (`ZeekConnParser.Epoch`, `utcfromtimestamp` followed by `strftime`);
  - `str()` of a whole record (`show`);
  - the alert clock `now`.
- The socket listener is a sequence of ticks. Each tick carries an optional datagram and the clock reading at that tick.
- The detection worker's polling loop is a sequence of rounds. Before each poll, a round adds the entries other processes wrote.

## Model

| member | source | states |
|---|---|---|
| Text.Strip | src/parsers/windows_parser.py:242 | `str.strip()`: the result has no whitespace at either end; it is empty exactly when s is all whitespace; a text with no whitespace at its ends is its own strip |
| Text.StripParts | src/parsers/windows_parser.py:242 | s is its strip with all-whitespace text before and after it, so only whitespace is removed, and only at the ends |
| Text.StripWithin | src/parsers/windows_parser.py:242 | strip only removes characters: every character of the result is in the input |
| Text.Tokens | src/parsers/ngnix_parser.py:164 | `str.split()`: every word is non-empty and free of whitespace |
| Text.TokensOfJoinWords | src/parsers/ngnix_parser.py:164 | `split()` undoes joining whitespace-free words with single spaces |
| Text.TokensOfWeave | src/parsers/ngnix_parser.py:164 | `split()` reads back the words of any text made of whitespace-free words and whitespace gaps, the inner gaps non-empty |
| Text.TokensWoven | src/parsers/ngnix_parser.py:164 | every text is its `split()` words woven between whitespace gaps: the words are exactly its maximal non-whitespace runs, in order |
| Text.SplitOn | src/workers/sigma_rule_engine.py:229 | `str.split(sep)`: joining the parts with sep gives s back; no part holds sep; each cut is at the first occurrence of sep after the previous cut |
| Text.SplitOnUnique | src/workers/sigma_rule_engine.py:229 | any cut of s that joins back to s, cuts at each first occurrence and leaves no sep in the last part is `s.split(sep)` |
| Text.SplitOnJoin | src/workers/sigma_rule_engine.py:238 | splitting names without whitespace, joined by a separator that starts with whitespace, gives the names back |
| Text.ContainsIff | src/workers/sigma_rule_engine.py:339 | `t in s` holds exactly when t occurs at some position of s |
| Text.Find | src/workers/sigma_rule_engine.py:278-279 | the first position at or after i where t occurs, or none when t occurs nowhere from i on |
| Text.AfterLast | src/parsers/windows_parser.py:186-190 | `x.split(sep)[-1]`: a suffix of the text without the separator, preceded by the separator whenever it is shorter than the text |
| Text.AfterLastAbsent | src/parsers/windows_parser.py:186-190 | a text without the separator is its own last segment |
| Text.Lower | src/workers/sigma_rule_engine.py:335-336 | `str.lower()` on ASCII text: same length; letters lowered position by position |
| Text.LowerIdempotent | src/workers/sigma_rule_engine.py:335-336 | lowering twice is lowering once |
| Text.ReplaceChar | src/parsers/windows_parser.py:259 | `s.replace(c, d)`: same length; every c becomes d and nothing else changes |
| Text.RemoveChar | src/parsers/windows_parser.py:256 | `s.replace(c, "")`: the result holds no c; its characters are exactly those of s other than c, each as often as in s |
| Text.RemoveCharConcat | src/parsers/windows_parser.py:256 | removing a character works piece by piece, so the other characters keep their order |
| Text.NatToString | src/workers/sigma_rule_engine.py:373 | `str()` of a natural number: decimal digits without a leading zero, read back as the number |
| Text.Padded | src/parsers/ngnix_parser.py:165 | the zero-padded fields of `strftime`: ASCII digits, at least `width` of them (exactly `width` when the number fits), read back as the number |
| Text.PyInt | src/parsers/zeek_conn_parser.py:72 | `int()` of a string: None (ValueError) exactly when the stripped text is not a numeral with an optional sign; a non-empty string of ASCII digits gives its decimal value |
| Text.PyIntOfString | src/parsers/zeek_conn_parser.py:72 | `int(str(i)) == i` for every integer |
| Text.Run | src/parsers/linux_parser.py:46 | a greedy `\S+`, `\s+`, `\d+` or similar run: the longest prefix of the class, and the next character is outside it |
| Text.RunOf | src/parsers/linux_parser.py:46 | a word of a class followed by a character outside it is read as exactly that word |
| Text.FirstSuffix | src/parsers/linux_parser.py:177 | `re.search`: the first position from which the pattern matches, and no earlier one matches |
| Text.LazyClose | src/parsers/ngnix_parser.py:42 | the lazy `.*?\]`: the first `]` after which the rest of the pattern matches, without crossing a newline |
| Text.LazyCloseNone | src/parsers/ngnix_parser.py:42 | when the lazy scan finds nothing, no `]` on the line closes the group |
| Text.Literal | src/parsers/linux_parser.py:56-59 | a literal word followed by a non-empty whitespace run, or none |
| Values.ToStr | src/workers/sigma_rule_engine.py:304 | `str()` of a value: a string is itself; an integer is its decimal text; True, False and None print as `True`, `False` and `None`; any other value prints as its repr |
| Values.Get | src/workers/sigma_rule_engine.py:285 | `dict.get(k)`: the value, or None when k is absent |
| Values.GetOr | src/workers/sigma_rule_engine.py:298 | `dict.get(k, d)`: the value, or d when k is absent |
| Values.Or | src/workers/ingestion_worker.py:105 | `a or b`: a when a is truthy, else b |
| Values.IntOrNull | src/parsers/linux_parser.py:113-117 | `int(v)` with None on ValueError or TypeError: a string gives None exactly when it is not an optionally signed numeral after stripping, and otherwise what int() reads from it; an integer is kept; a bool gives 0 or 1; None and other values give None |
| Values.IntOfStr | src/parsers/linux_parser.py:113-117 | the string form of an integer converts back to it |
| DateTimes.MonthNumber | src/parsers/ngnix_parser.py:164 | `%b`: a month abbreviation, compared without case, gives that month; any other text gives none |
| DateTimes.Field | src/workers/ingestion_worker.py:122 | a numeric strptime field: between its minimum and maximum width of digits, within its bounds, and greedy |
| DateTimes.ScanOne | src/workers/ingestion_worker.py:122 | one strptime directive reads a literal, a whitespace run, a month or a bounded number |
| DateTimes.ScanFormat | src/workers/ingestion_worker.py:122 | strptime reads one value per value directive, or raises |
| DateTimes.Render | src/parsers/ngnix_parser.py:165 | strftime writes `Width(fmt)` characters, starting with what the first directive writes |
| DateTimes.Checked | src/workers/ingestion_worker.py:122 | the datetime constructor accepts exactly the valid dates and times |
| DateTimes.ScanOfRender | src/parsers/ngnix_parser.py:164-165 | for every well-formed format, strptime reads back the values strftime wrote |
| DateTimes.ParseStoreTime | src/workers/ingestion_worker.py:122 | `strptime(s, "%Y-%m-%d %H:%M:%S")`: a valid datetime, or none where it raises |
| DateTimes.ParseAccessTime | src/parsers/ngnix_parser.py:164 | `strptime(s, "%d/%b/%Y:%H:%M:%S")`: a valid datetime, or none where it raises |
| DateTimes.Format | src/parsers/ngnix_parser.py:165 | `strftime("%Y-%m-%d %H:%M:%S")`: 19 characters |
| DateTimes.AccessStamp | src/parsers/ngnix_parser.py:164 | the nginx `$time_local` stamp without its zone: 20 characters |
| DateTimes.ParseStoreTimeOfFormat | src/workers/ingestion_worker.py:118-122 | the timestamp nginx enrich writes is read back by the ingestion worker as the same time |
| DateTimes.ParseAccessTimeOfStamp | src/parsers/ngnix_parser.py:164 | an nginx stamp is read back as the time it shows |
| DateTimes.MonthLowerInjective | src/parsers/ngnix_parser.py:164 | distinct months have distinct lower-cased abbreviations |
| BaseParser.MetaRecord | src/parsers/parser_manager.py:58-61 | the metadata dict holds exactly recv_time and src_ip |
| BaseParser.WithMetadata | src/parsers/linux_parser.py:109-110 | `parsed.update(metadata)`: the metadata keys are added or overwritten, every other key keeps its value |
| LinuxParser.MatchPid | src/parsers/linux_parser.py:49 | the optional `[pid]`: digits between brackets, or no pid when there is no `[` |
| LinuxParser.MatchColon | src/parsers/linux_parser.py:50-51 | `:\s+` and the message up to the end of the line |
| LinuxParser.MatchNames | src/parsers/linux_parser.py:45-48 | the hostname and application name, each a non-empty maximal run |
| LinuxParser.MatchTail | src/parsers/linux_parser.py:45-51 | the header regex after the timestamp |
| LinuxParser.MatchTailOf | src/parsers/linux_parser.py:45-51 | every tail of the regex's shape is matched back from its text |
| LinuxParser.IsoEnd | src/parsers/linux_parser.py:41 | the ISO timestamp alternative: date, whitespace, time, then fraction and zone runs |
| LinuxParser.ThreeWords | src/parsers/linux_parser.py:42 | the BSD alternative: three words separated by whitespace |
| LinuxParser.OneWord | src/parsers/linux_parser.py:43 | the fallback alternative: one word |
| LinuxParser.MatchHeader | src/parsers/linux_parser.py:39-52 | `header_pattern.match`: the alternatives are tried in order, and each is kept only when the tail matches after it |
| LinuxParser.MatchHeaderOfThree | src/parsers/linux_parser.py:41-42 | when the ISO form fails and the three-word form leaves a matching tail, the header is the three-word one |
| LinuxParser.MatchHeaderOfWords | src/parsers/linux_parser.py:42-51 | a BSD line of the header's shape is matched with its three words as the timestamp |
| LinuxParser.NotIso | src/parsers/linux_parser.py:41 | a line that does not start with a digit has no ISO timestamp |
| LinuxParser.UserFrom | src/parsers/linux_parser.py:59-60 | the user word, `from` and the address word |
| LinuxParser.UserPart | src/parsers/linux_parser.py:58-60 | the optional `invalid user` prefix, tried first, then the user and address |
| LinuxParser.SshAt | src/parsers/linux_parser.py:55-61 | the SSH pattern anchored at one position: the action, the method, the user and the address |
| LinuxParser.SshAtOf | src/parsers/linux_parser.py:55-61 | every SSH event text is matched with its action, user and address; an `invalid user` prefix is never taken into the user |
| LinuxParser.NoPrefix | src/parsers/linux_parser.py:58-59 | a user named `invalid` without the prefix is still the user |
| LinuxParser.SshSearch | src/parsers/linux_parser.py:177 | `ssh_pattern.search`: the first occurrence of the pattern |
| LinuxParser.HeaderRecord | src/parsers/linux_parser.py:106 | the groupdict: exactly timestamp, hostname, app_name, pid and raw_message, each the matched group; pid is None when absent |
| LinuxParser.ConvertPid | src/parsers/linux_parser.py:112-117 | the keys are kept and only pid may change: a pid of ASCII digits becomes its integer value; a falsy pid is left as it is |
| LinuxParser.WithSsh | src/parsers/linux_parser.py:179-180 | `update(ssh_data)`: the three SSH keys are set from the match |
| LinuxParser.Enrich | src/parsers/linux_parser.py:160-182 | SSH fields are added only for sshd with a non-empty message whose search succeeds; otherwise the record is unchanged |
| LinuxParser.PidRecord | src/parsers/linux_parser.py:101-117 | the record before enrich: the groups, the metadata and the pid as an integer |
| LinuxParser.KeysDisjoint | src/parsers/linux_parser.py:172-180 | enrich cannot overwrite a parsed field |
| LinuxParser.Parse | src/parsers/linux_parser.py:90-120 | None exactly when the header does not match the stripped line; otherwise the parsed keys (plus at most the SSH keys) with the header's groups, the pid as an integer (None when absent) and the metadata |
| LinuxParser.ParseSsh | src/parsers/linux_parser.py:172-180 | a parsed sshd line gets the SSH fields of the first SSH match in its message, and no SSH fields otherwise |
| LinuxParser.CanParse | src/parsers/linux_parser.py:67-88 | JSON-looking lines and lines that look like nginx are rejected; any other line is accepted exactly when its stripped form matches the header |
| LinuxParser.AcceptedNonEmpty | src/parsers/linux_parser.py:67-120 | a line `can_parse` accepts is parsed into a non-empty record |
| LinuxParser.SshdLineParsed | src/parsers/linux_parser.py:39-61 | a BSD-form sshd line, with or without the `invalid user` prefix, parses to its timestamp, host, pid, and the action, user and address of its SSH event |
| LinuxParser.ParsedSshAtStart | src/parsers/linux_parser.py:172-180 | a header whose message starts with an SSH event gives that event's fields |
| NginxParser.MatchAddr | src/parsers/ngnix_parser.py:40-41 | `[\d\.]+\s+-\s+` |
| NginxParser.MatchUser | src/parsers/ngnix_parser.py:41-42 | `\S+\s+\[` |
| NginxParser.MatchWords | src/parsers/ngnix_parser.py:43-44 | the request method and URI words |
| NginxParser.MatchProtocol | src/parsers/ngnix_parser.py:45 | `[^"]+"`, backtracking so the protocol ends just before the quote |
| NginxParser.MatchRequest | src/parsers/ngnix_parser.py:43-45 | the quoted request: method, URI and protocol |
| NginxParser.MatchCounts | src/parsers/ngnix_parser.py:46-47 | the status and byte counts, greedy digits |
| NginxParser.MatchAgent | src/parsers/ngnix_parser.py:48 | the optional referer and user-agent group |
| NginxParser.NoAgent | src/parsers/ngnix_parser.py:48 | text that does not start with whitespace leaves the optional group out |
| NginxParser.MatchTail | src/parsers/ngnix_parser.py:42-48 | the pattern after `]`; the optional group is left out only where it does not match |
| NginxParser.MatchTailOf | src/parsers/ngnix_parser.py:42-48 | every tail of the pattern's shape is read back |
| NginxParser.MatchTime | src/parsers/ngnix_parser.py:42 | the lazy `time_local` group ends at the first `]` after which the rest matches |
| NginxParser.MatchAccess | src/parsers/ngnix_parser.py:39-49 | `access_pattern.match`: the fields and the unmatched rest |
| NginxParser.MatchAccessOf | src/parsers/ngnix_parser.py:39-49 | every access line of the pattern's shape is matched with its own fields |
| NginxParser.CanParse | src/parsers/ngnix_parser.py:55-70 | a dotted quad of 1-3 digit groups and whitespace at the start, plus `[`, `]` and `"` somewhere |
| NginxParser.GroupRecord | src/parsers/ngnix_parser.py:88 | the groupdict with its nine keys; referer and agent are None when the optional group is absent |
| NginxParser.ConvertCounts | src/parsers/ngnix_parser.py:95-99 | status and body_bytes_sent become integers; other keys keep their values |
| NginxParser.LocalTimestamp | src/parsers/ngnix_parser.py:159-167 | the first word of time_local read as an nginx stamp and rewritten in the store format; none where it raises |
| NginxParser.StatusCategory | src/parsers/ngnix_parser.py:174-185 | the status band is one of success, redirect, client_error, server_error and unknown |
| NginxParser.StatusCategoryByClass | src/parsers/ngnix_parser.py:174-185 | the band is the hundreds digit: 2xx to 5xx name their class, every other status is `unknown` |
| NginxParser.SetIf | src/parsers/ngnix_parser.py:165 | sets k only when a value is given; nothing else changes |
| NginxParser.EnrichWith | src/parsers/ngnix_parser.py:158-187 | enrich given its timestamp: sets timestamp, hostname when absent and status_category; no other key changes |
| NginxParser.Enrich | src/parsers/ngnix_parser.py:141-187 | the reformatted timestamp, hostname defaulting to remote_addr, and the status band; no other key changes |
| NginxParser.Build | src/parsers/ngnix_parser.py:88-101 | the record from a match: groups, metadata, integer counts and the enrichment |
| NginxParser.EnrichAdded | src/parsers/ngnix_parser.py:170-185 | after enrich: hostname is remote_addr, timestamp is the reformatted stamp or None, and status_category is the band whenever the status is non-zero |
| NginxParser.StampOf | src/parsers/ngnix_parser.py:159-165 | enrich reads the timestamp from time_local |
| NginxParser.Parse | src/parsers/ngnix_parser.py:72-101 | None exactly when the pattern does not match the start of the stripped line; otherwise the record built from the match |
| NginxParser.LocalTimestampOfStamp | src/parsers/ngnix_parser.py:159-165 | a time_local whose first word is an nginx stamp gets that time, in the store format, as its timestamp |
| NginxParser.ParseOfAccess | src/parsers/ngnix_parser.py:83-101 | a line the pattern reads as a match is parsed into the record built from it |
| NginxParser.CombinedLineParsed | src/parsers/ngnix_parser.py:39-187 | a combined-format line parses to its fields, integer counts and derived timestamp |
| NginxParser.ParsedFields | src/parsers/ngnix_parser.py:88-187 | a parsed record holds status and body_bytes_sent as integers, the request URI, the reformatted timestamp, hostname as remote_addr, and None referer and agent when the optional group is absent |
| WindowsParser.Parse | src/parsers/windows_parser.py:76-103 | None exactly when JSON decoding of the stripped line fails; otherwise the decoded object merged with the metadata and the flattened message fields |
| WindowsParser.Enrich | src/parsers/windows_parser.py:143-158 | enrich is a pass-through |
| WindowsParser.CanParseParses | src/parsers/windows_parser.py:56-103 | a line `can_parse` accepts is parsed into a non-empty record |
| WindowsParser.CanParseBrace | src/parsers/windows_parser.py:66-68 | only lines whose stripped form starts with `{` are accepted |
| WindowsParser.Classify | src/parsers/windows_parser.py:242-267 | one message line: skipped exactly when it is blank or has no colon; otherwise split at the first colon of the stripped line into the stripped key and value; an empty value makes a header named by the key without its spaces, any other value a field under the key with spaces turned into underscores |
| WindowsParser.Qualified | src/parsers/windows_parser.py:261-265 | `<section>_<key>` when a section is current, the key alone otherwise; free of spaces when its parts are |
| WindowsParser.Section | src/parsers/windows_parser.py:254-256 | the current section after some lines is free of spaces |
| WindowsParser.SectionNone | src/parsers/windows_parser.py:236-256 | with no header line, no section is current |
| WindowsParser.SectionLast | src/parsers/windows_parser.py:254-256 | the current section is the one of the last header line |
| WindowsParser.BareColonResets | src/parsers/windows_parser.py:254-256 | a bare colon line is a header with an empty name: it ends the current section |
| WindowsParser.PairsClean | src/parsers/windows_parser.py:250-267 | every assigned key is free of spaces; every value is non-empty with no whitespace at either end |
| WindowsParser.Assign | src/parsers/windows_parser.py:267 | a dict filled by assignments: every key comes from an assignment, and every assigned key is present |
| WindowsParser.MessageFields | src/parsers/windows_parser.py:213-269 | the flattened message: keys free of spaces, values non-empty and stripped |
| WindowsParser.ParseMessageField | src/parsers/windows_parser.py:213-269 | `_parse_message_field` equals the flattening of its lines; empty for an empty message |
| WindowsParser.FlattenLines | src/parsers/windows_parser.py:241-267 | the loop, threading the current section, equals the flattening of the lines |
| WindowsParser.LastWins | src/parsers/windows_parser.py:267 | each key keeps the value of its last assignment |
| WindowsParser.PairsPrefix | src/parsers/windows_parser.py:241-267 | the assignments of a prefix of the lines are a prefix of the assignments of all lines |
| WindowsParser.HeaderThenField | src/parsers/windows_parser.py:254-265 | a section header followed by a field gives the field under `<Section>_<Key>` |
| WindowsParser.CanonicalToVendor | src/parsers/windows_parser.py:36-46 | each canonical name maps back to the vendor name it came from |
| WindowsParser.VendorToCanonical | src/parsers/windows_parser.py:36-46 | each vendor name maps back to its canonical name, so the mapping is one-to-one |
| WindowsParser.VendorNotCanonical | src/parsers/windows_parser.py:36-46 | no vendor name is also a canonical name |
| WindowsParser.Renamed | src/parsers/windows_parser.py:173-182 | the columns after the renaming step, renamed all at once |
| WindowsParser.RenameVendor | src/parsers/windows_parser.py:177-182 | a vendor column whose canonical column is absent is renamed to it |
| WindowsParser.NotRenamedTo | src/parsers/windows_parser.py:177-182 | no column is renamed to a vendor name |
| WindowsParser.RenameKeepsCanonical | src/parsers/windows_parser.py:178 | an existing canonical column is never overwritten |
| WindowsParser.RenameKeepsOther | src/parsers/windows_parser.py:177-182 | a column the mapping does not name is unchanged |
| WindowsParser.Basename | src/parsers/windows_parser.py:186-208 | `str.split("\\").list.last()`: the last backslash segment |
| WindowsParser.BasenameFixed | src/parsers/windows_parser.py:201-208 | taking a basename twice is taking it once |
| WindowsParser.NormalizeRules | src/parsers/windows_parser.py:160-210 | after normalize: parent_name and process_name are the basenames of the columns they come from, process_basename equals process_name (or is the basename of an existing process_name), and every other column is unchanged |
| ZeekConnParser.Match | src/parsers/zeek_conn_parser.py:25-45 | `conn_pattern.match`: a match exactly when the line has no whitespace at its ends and its words form a row; the columns are its first nineteen words |
| ZeekConnParser.MatchOfRow | src/parsers/zeek_conn_parser.py:25-45 | a row written out with single spaces is matched with its columns as written |
| ZeekConnParser.CanParse | src/parsers/zeek_conn_parser.py:50-55 | empty and `#` lines are rejected; otherwise the pattern must match |
| ZeekConnParser.NotEpoch | src/parsers/zeek_conn_parser.py:26 | a column that does not start with a digit is not an epoch |
| ZeekConnParser.Convert | src/parsers/zeek_conn_parser.py:70-83 | one numeric column: an integer or None; a string gives None exactly when int() raises on it or, for byte counts, when it is `-`, and otherwise the integer int() reads; an absent group gives None |
| ZeekConnParser.ConvertIdempotent | src/parsers/zeek_conn_parser.py:70-83 | converting twice is converting once |
| ZeekConnParser.ConvertAllGet | src/parsers/zeek_conn_parser.py:70-83 | every listed key is converted once, even when listed twice; other keys keep their values |
| ZeekConnParser.SizeOf | src/parsers/zeek_conn_parser.py:75-83 | a byte count: None exactly for `-` or where int() raises, else the integer int() reads |
| ZeekConnParser.Timestamp | src/parsers/zeek_conn_parser.py:64-69 | the timestamp column: the text the epoch conversion gives, or None where it raises |
| ZeekConnParser.PerformConverts | src/parsers/zeek_conn_parser.py:70-83 | a key written only by one conversion ends up converted once |
| ZeekConnParser.PerformCopies | src/parsers/zeek_conn_parser.py:88 | a key written only by a copy ends up with the source's value, when nothing before the copy wrote the source |
| ZeekConnParser.EpochCarried | src/parsers/zeek_conn_parser.py:64-69 | parse sets ts_epoch and timestamp to the values it computed |
| ZeekConnParser.MetaCarried | src/parsers/zeek_conn_parser.py:85-88 | parse sets recv_time and src_ip from the metadata and hostname to orig_h |
| ZeekConnParser.Parse | src/parsers/zeek_conn_parser.py:57-89 | None exactly when the stripped line does not match |
| ZeekConnParser.ParseParsed | src/parsers/zeek_conn_parser.py:57-89 | a parsed line's record holds the columns as the parse states describe them |
| ZeekConnParser.AcceptedNonEmpty | src/parsers/zeek_conn_parser.py:50-89 | a line `can_parse` accepts is parsed into a non-empty record |
| ZeekConnParser.BuildText | src/parsers/zeek_conn_parser.py:61 | the ten string columns reach the record unchanged |
| ZeekConnParser.BuildNumbers | src/parsers/zeek_conn_parser.py:70-83 | the nine numeric columns reach the record converted |
| ZeekConnParser.RowParsed | src/parsers/zeek_conn_parser.py:25-89 | a conn.log row written with single spaces is accepted and parses to its nineteen columns as Parsed describes them |
| ParserManager.Winner | src/parsers/parser_manager.py:56-69 | the first parser whose turn succeeds; every earlier one fails; none when all fail |
| ParserManager.Search | src/parsers/parser_manager.py:50-73 | an empty line gives None; otherwise the winner's map stamped with log_type and raw_line, or None |
| ParserManager.InsertPosition | src/parsers/parser_manager.py:91 | `list.insert`'s index: clamped to the ends, negative counting from the end |
| ParserManager.Position | src/parsers/parser_manager.py:90-93 | at the priority, or at the end when there is none |
| ParserManager.Registered | src/parsers/parser_manager.py:90-93 | the new list is the old one with p inserted at that position |
| ParserManager.Listing | src/parsers/parser_manager.py:99 | one type per parser, in order |
| ParserManager.Scan | src/parsers/parser_manager.py:56-73 | the loop over the parsers returns what Search describes |
| ParserManager.SearchAt | src/parsers/parser_manager.py:56-69 | the search stops at the first parser whose turn succeeds |
| ParserManager.SearchNone | src/parsers/parser_manager.py:71-73 | no successful turn gives None |
| ParserManager.Registry.constructor | src/parsers/parser_manager.py:31-35 | the default registry: Windows, then Nginx, then Linux |
| ParserManager.Registry.Parse | src/parsers/parser_manager.py:40-73 | `parse` equals the search over the registry's parsers |
| ParserManager.Registry.GetParserByType | src/parsers/parser_manager.py:75-80 | a registered parser of that type, or none when no parser has it |
| ParserManager.Registry.RegisterParser | src/parsers/parser_manager.py:82-93 | the registry becomes the old list with the parser inserted |
| ParserManager.Registry.ListParsers | src/parsers/parser_manager.py:97-99 | the types in registry order |
| ParserManager.LogTypeInjective | src/parsers/parser_manager.py:67 | distinct parser classes report distinct types |
| ParserManager.RegisteredKeepsOrder | src/parsers/parser_manager.py:90-93 | registration keeps the other parsers in order and adds exactly one; appends without a priority |
| ParserManager.ListingRegistered | src/parsers/parser_manager.py:90-99 | the listing after registering is the old listing with the new type at the same place |
| ParserManager.AcceptedParses | src/parsers/parser_manager.py:57-65 | for the Windows, Linux and Zeek parsers, acceptance means a non-empty parse, so the search stops there |
| ParserManager.DefaultBraceLine | src/parsers/parser_manager.py:31-73 | with the defaults, a line whose stripped form starts with `{` is typed windows when it decodes as JSON, and is not parsed otherwise |
| ParserManager.NoZeekUnlessRegistered | src/parsers/parser_manager.py:56-69 | no line is typed zeek_conn by a registry without a Zeek parser |
| SigmaEngine.FitsLiteral | src/workers/sigma_rule_engine.py:351-358 | a pattern without `*` fits exactly itself |
| SigmaEngine.StarFits | src/workers/sigma_rule_engine.py:352 | a lone `*` fits exactly the texts without a newline |
| SigmaEngine.FitsStar | src/workers/sigma_rule_engine.py:352-354 | a leading `*` skips any newline-free prefix, and nothing else |
| SigmaEngine.FitsTrailingStar | src/workers/sigma_rule_engine.py:352-354 | a literal followed by `*` fits exactly the texts with that prefix and no later newline |
| SigmaEngine.WildcardContains | src/workers/sigma_rule_engine.py:352-354 | on newline-free text, `*w*` with a literal w is the substring test |
| SigmaEngine.CaseInsensitive | src/workers/sigma_rule_engine.py:335-336 | matching depends only on the lower-cased texts, whatever the modifier |
| SigmaEngine.LoweredInputs | src/workers/sigma_rule_engine.py:335-336 | lowering the inputs first changes nothing |
| SigmaEngine.EmptyRuleValue | src/workers/sigma_rule_engine.py:338-343 | contains, startswith and endswith all hold for an empty rule value |
| SigmaEngine.PlainIsEquality | src/workers/sigma_rule_engine.py:357-358 | without a modifier or `*`, only the text equal ignoring case matches |
| SigmaEngine.StarredIsContains | src/workers/sigma_rule_engine.py:338-354 | `*w*` without modifier agrees with `contains w` on newline-free text |
| SigmaEngine.SplitKey | src/workers/sigma_rule_engine.py:277-279 | `field.split('\|', 1)`: the field before the first bar and the modifier after it |
| SigmaEngine.SplitKeyOf | src/workers/sigma_rule_engine.py:277-279 | `field\|modifier` splits back into its parts, even when the modifier holds a bar |
| SigmaEngine.LookUp | src/workers/sigma_rule_engine.py:284-298 | the record's own value, else parsed_data's, else raw_line (default "") |
| SigmaEngine.RawLineFallback | src/workers/sigma_rule_engine.py:297-301 | a field neither the record nor parsed_data holds is compared with raw_line, and fails when raw_line is None |
| SigmaEngine.ListSelection | src/workers/sigma_rule_engine.py:263-267 | a list selection matches exactly when one of its map elements matches |
| SigmaEngine.AnyNamedIff | src/workers/sigma_rule_engine.py:229-234 | the or-loop holds exactly when some named selection matches |
| SigmaEngine.AllNamedIff | src/workers/sigma_rule_engine.py:238-243 | the and-loop holds exactly when every named selection matches |
| SigmaEngine.OrBranch | src/workers/sigma_rule_engine.py:227-234 | a string condition that reaches the `or` branch holds exactly when one of its stripped names matches |
| SigmaEngine.AndBranch | src/workers/sigma_rule_engine.py:236-243 | a string condition that reaches the `and` branch holds exactly when every one of its stripped names matches |
| SigmaEngine.AndNotCondition | src/workers/sigma_rule_engine.py:211-225 | `a and not b` holds exactly when a matches and b does not |
| SigmaEngine.OrCondition | src/workers/sigma_rule_engine.py:227-234 | `n1 or n2 or ...` holds exactly when one named selection matches |
| SigmaEngine.AndCondition | src/workers/sigma_rule_engine.py:236-243 | `n1 and n2 and ...` without `or` holds exactly when every named selection matches |
| SigmaEngine.OrInsideName | src/workers/sigma_rule_engine.py:227-234 | a single name that contains `or`, such as `selection_ports`, is its own selection |
| SigmaEngine.BareNameFalse | src/workers/sigma_rule_engine.py:245 | any other single name, such as `selection1`, is false whatever its selection holds |
| SigmaEngine.EvaluateRule | src/workers/sigma_rule_engine.py:202-245 | without a condition the `selection` block decides; None (an exception) exactly when the condition is neither a string, a list nor a map, or is a list or map that holds `and not`, `or` or `and` |
| SigmaEngine.MatchedFields | src/workers/sigma_rule_engine.py:388-398 | the record's entries among the nine listed keys, unchanged |
| SigmaEngine.RawPrefix | src/workers/sigma_rule_engine.py:382 | the first 500 characters of raw_line; "" when absent; raises when it is not a string |
| SigmaEngine.CreateAlert | src/workers/sigma_rule_engine.py:360-386 | every field of the alert: the timestamp now, alert id `<rule id>_<log id>`, the rule's id, title, description, level, false positives and references, the log's id, type, hostname and IP address, the truncated line and the matched fields; none exactly when slicing raw_line raises |
| SigmaEngine.RulesFor | src/workers/sigma_rule_engine.py:177-179 | only the linux, windows and nginx types have rules |
| SigmaEngine.Fired | src/workers/sigma_rule_engine.py:183-186 | the rules that fire, in order |
| SigmaEngine.AlertsRaise | src/workers/sigma_rule_engine.py:183-186 | the alert list fails exactly when some rule raises, or fires with an alert that raises |
| SigmaEngine.AlertsFired | src/workers/sigma_rule_engine.py:183-188 | when nothing raises, one alert per rule that fires, in rule order, each built from its rule |
| SigmaEngine.MatchLogFired | src/workers/sigma_rule_engine.py:167-188 | the alerts carry the fired rules' ids and the alert ids `<rule id>_<log id>` |
| SigmaEngine.MatchLog | src/workers/sigma_rule_engine.py:167-188 | `match_log` equals its specification; a record of any other type gets no alerts |
| Ingestion.ServerIndex | src/db/repository/server_repo.py:26-33 | the position of the key among the servers, or none |
| Ingestion.ServerCall | src/db/repository/server_repo.py:11-44 | the id of the server with the key, created when absent; nothing when the call raises |
| Ingestion.InsertCall | src/db/repository/log_repo.py:13-42 | the row is appended and its id returned; nothing when the call raises |
| Ingestion.Store.constructor | src/db/repository/log_repo.py:13-42 | a store with no servers and no rows, and the given fault script |
| Ingestion.Store.GetOrCreateServer | src/db/repository/server_repo.py:11-44 | the call's effect on the store as ServerCall states |
| Ingestion.Store.InsertRawLog | src/db/repository/log_repo.py:13-42 | the call's effect on the store as InsertCall states |
| Ingestion.LogSource | src/workers/ingestion_worker.py:108-112 | the source is never falsy: log_source, log_type or `unknown` |
| Ingestion.ServerKeyOf | src/workers/ingestion_worker.py:104-105 | hostname, or `unknown` when absent; the address is source_ip when truthy, else src_ip, else `0.0.0.0`; the server type is the log source |
| Ingestion.Content | src/workers/ingestion_worker.py:115 | raw_line when truthy, else line when truthy, else str() of the record; never falsy when that str() is non-empty |
| Ingestion.RecvStamp | src/workers/ingestion_worker.py:118-124 | timestamp or recv_time, read in the store format when a string; a string in another form is dropped |
| Ingestion.EntryOf | src/workers/ingestion_worker.py:104-124 | the entry's server key and source agree |
| Ingestion.SaveAll | src/workers/ingestion_worker.py:100-148 | records are saved in order; rows are only appended, one per saved record |
| Ingestion.SaveAllClean | src/workers/ingestion_worker.py:100-141 | a store that never fails saves every record as its own row, in batch order, under the server of its key |
| Ingestion.SaveAllDistinct | src/db/repository/server_repo.py:26-44 | no second server with the same key is ever made |
| Ingestion.ParsedContent | src/workers/ingestion_worker.py:115 | a record from the registry is stored with the received line as its content |
| Ingestion.ParsedNonEmpty | src/workers/ingestion_worker.py:170 | a parsed record is never empty, so `if parsed` only tests for None |
| Ingestion.StampOfFormat | src/workers/ingestion_worker.py:118-122 | a timestamp nginx writes is read back as the same time |
| Ingestion.Received | src/workers/ingestion_worker.py:196-197 | the number of ticks that delivered a datagram, at most the number of ticks |
| Ingestion.Worker.constructor | src/workers/ingestion_worker.py:54-75 | stopped, an empty batch, the default registry, zero counters, and the batch clock at now |
| Ingestion.Worker.ProcessLog | src/workers/ingestion_worker.py:164-179 | a parsed record joins the batch and counts as parsed; otherwise one more error |
| Ingestion.Worker.Save | src/workers/ingestion_worker.py:102-141 | one record's server call and insert |
| Ingestion.Worker.SaveRecords | src/workers/ingestion_worker.py:100-148 | the records are saved in order, and each failed save counts as an error |
| Ingestion.Worker.FlushBatch | src/workers/ingestion_worker.py:92-162 | nothing for an empty batch; otherwise saved and errors add up to the batch, one more batch, the batch emptied and the clock restarted |
| Ingestion.Worker.FlushIfDue | src/workers/ingestion_worker.py:82-90 | the batch is written and emptied, one more batch, exactly when it is non-empty and full or stale; otherwise nothing changes; afterwards it is never due |
| Ingestion.Worker.Step | src/workers/ingestion_worker.py:190-216 | one turn: received counted; the batch becomes the old batch plus the parsed record (or unchanged on a parse error, one more error); it is flushed exactly when that batch is non-empty and full or stale, giving an empty batch, the clock at now, one more batch and the store of SaveAll over that batch; otherwise batch, clock, batch count and store are as after parsing; every received datagram is saved, an error, or still in the batch |
| Ingestion.Worker.Run | src/workers/ingestion_worker.py:181-228 | after the loop the batch is flushed and the worker stopped; every received datagram is saved or an error |
| Ingestion.Worker.Stop | src/workers/ingestion_worker.py:261-263 | the loop ends after its current turn; nothing else changes |
| DetectionWorker.LatestId | src/workers/sigma_rule_worker.py:133-146 | the largest id in the table, or 0 when it is empty |
| DetectionWorker.Pending | src/workers/sigma_rule_worker.py:201 | the entries with id above the checkpoint, in table order |
| DetectionWorker.PendingAscending | src/workers/sigma_rule_worker.py:201-202 | filtering keeps ascending id order |
| DetectionWorker.Unprocessed | src/workers/sigma_rule_worker.py:198-205 | at most limit entries above the checkpoint, ascending; all of them when fewer come back |
| DetectionWorker.LogDict | src/workers/sigma_rule_worker.py:209-217 | the dict of an entry: exactly the seven base keys, with the entry's id, receive time, type and content and its server's hostname and address (None without a server) |
| DetectionWorker.Dicts | src/workers/sigma_rule_worker.py:207-257 | None (AttributeError) exactly when one of the entries has a row in its type's detail table; otherwise one dict per entry, in order |
| DetectionWorker.PollShape | src/workers/sigma_rule_worker.py:188-259 | the poll raises exactly when a returned entry has a detail row; otherwise at most limit logs, each above the checkpoint, in ascending id order, each dict carrying its entry's id |
| DetectionWorker.PollComplete | src/workers/sigma_rule_worker.py:198-205 | when the poll returns fewer than limit logs, every entry above the checkpoint is among them |
| DetectionWorker.Find | src/workers/sigma_rule_worker.py:269 | the entry with that id, or none when there is none |
| DetectionWorker.CreateCall | src/db/repository/alert_repo.py:13-51 | the row is appended, or the call raises and nothing changes |
| DetectionWorker.StoreAll | src/workers/sigma_rule_worker.py:261-298 | alert rows are only appended, at most one per alert; the log, server and detail tables are unchanged |
| DetectionWorker.StoreAllRows | src/workers/sigma_rule_worker.py:265-292 | every new row is one of the alerts, filed under the log entry whose id it carries |
| DetectionWorker.StoreAllClean | src/workers/sigma_rule_worker.py:265-292 | with no failures and every log present, one row per alert, in order |
| DetectionWorker.StoreAllMissing | src/workers/sigma_rule_worker.py:269-272 | alerts whose log entries are all missing change nothing |
| DetectionWorker.StoreAllAppend | src/workers/sigma_rule_worker.py:265-296 | storing two runs of alerts one after the other is storing them together |
| DetectionWorker.StoreAllFaults | src/workers/sigma_rule_worker.py:265-296 | the fault script moves on by one entry per create_alert call, one per alert whose log entry exists |
| DetectionWorker.StoreAllStep | src/workers/sigma_rule_worker.py:267-296 | one more alert adds a row exactly when its log entry exists and its own create_alert call does not raise |
| DetectionWorker.StoreAllPrefix | src/workers/sigma_rule_worker.py:265-296 | the rows of the first n alerts come before those of the rest |
| DetectionWorker.StoreAllAlert | src/workers/sigma_rule_worker.py:265-296 | whatever the fault script, alert k adds one row after those of the alerts before it exactly when its entry exists and its own create_alert call does not raise, however the earlier calls went; later rows come after it |
| DetectionWorker.Settle | src/workers/sigma_rule_worker.py:163-184 | one log: a raise counts one more error and changes nothing else; otherwise one more processed log, the alert count grows by its alerts, the database is its alerts stored by _store_alerts, and the checkpoint rises to its id |
| DetectionWorker.Fold | src/workers/sigma_rule_worker.py:163-186 | processed and failed add up to the batch; the alert count grows by the number of alerts of the logs that go through; counters and checkpoint never decrease; logs unchanged |
| DetectionWorker.FoldStores | src/workers/sigma_rule_worker.py:166-169 | a batch stores the alerts of the logs that go through, in log order, as one run of _store_alerts |
| DetectionWorker.FoldCheckpoint | src/workers/sigma_rule_worker.py:175 | the checkpoint after a batch is the largest id that went through, or the old one |
| DetectionWorker.FoldAllFail | src/workers/sigma_rule_worker.py:180-184 | a batch in which every log raises leaves the checkpoint where it was |
| DetectionWorker.FailedLogSkipped | src/workers/sigma_rule_worker.py:175-201 | a log that raises ahead of a later log that goes through falls behind the checkpoint and is never polled again |
| DetectionWorker.Database.constructor | src/workers/sigma_rule_worker.py:141 | the tables as given |
| DetectionWorker.Database.LatestLogId | src/workers/sigma_rule_worker.py:143-144 | the largest id, or 0 |
| DetectionWorker.Database.Query | src/workers/sigma_rule_worker.py:198-205 | the rows of the unprocessed-logs query |
| DetectionWorker.Database.FindLog | src/workers/sigma_rule_worker.py:269 | the entry with that id |
| DetectionWorker.Database.CreateAlert | src/db/repository/alert_repo.py:13-51 | the call's effect as CreateCall states |
| DetectionWorker.Database.Insert | src/db/repository/log_repo.py:13-42 | an entry written by another process gets the next id, and ids stay ascending |
| DetectionWorker.Worker.constructor | src/workers/sigma_rule_worker.py:51-69 | stopped, checkpoint 0, no rules, zero counters |
| DetectionWorker.Worker.GetUnprocessedLogs | src/workers/sigma_rule_worker.py:188-259 | the poll: None where reading a detail row raises, otherwise the dicts of the query's entries |
| DetectionWorker.Worker.StoreAlerts | src/workers/sigma_rule_worker.py:261-298 | the alert table as StoreAll states |
| DetectionWorker.Worker.Handle | src/workers/sigma_rule_worker.py:164-184 | one log's step, as Settle states; rules_matched grows with alerts_generated |
| DetectionWorker.Worker.ProcessBatch | src/workers/sigma_rule_worker.py:148-186 | when the poll raises, None with nothing changed; otherwise the counters and checkpoint after the batch are the fold over the polled logs, and processed plus new errors is the number polled |
| DetectionWorker.Worker.MatchAll | src/workers/sigma_rule_worker.py:163-186 | the loop over the polled logs equals the fold |
| DetectionWorker.Worker.Run | src/workers/sigma_rule_worker.py:86-131 | the loaded rules become the engine; the checkpoint ends at least at the latest id the run started from; with no rules no batch runs and nothing else changes; a loop cut short ends where the poll raises; stopped at the end; logs and alerts only grow |
| DetectionWorker.Worker.Arrive | src/db/repository/log_repo.py:13-42 | entries written between polls only extend the log table, keep ids ascending and leave the alerts as they were |
| DetectionWorker.Worker.Stop | src/workers/sigma_rule_worker.py:300-303 | the loop ends after its current turn; nothing else changes |

## Left out

- Text.Tokens: its own ensures says only that every word is non-empty and free of whitespace. That the words are exactly the maximal non-whitespace runs, in order, is stated by TokensWoven and TokensOfWeave.
- WindowsParser.Section: its own ensures says only that the section has no space. Which header line it comes from is stated by SectionNone and SectionLast.
- Values.IntOrNull: `int()` of a float truncates it, but floats are `Other` values here and give None. The parsers only apply int() to regex groups, which are strings or None.
- Text.Lower: lowers ASCII letters only, while Python's `str.lower()` (sigma_rule_engine.py:335-336, field names at :282) also lowers non-ASCII letters, so the model says `ÉCHEC` and `échec` differ where Python treats them as equal. Unicode case tables are outside the model.
- Text.IsDigit: accepts the ASCII digits only. The source's `\d` and `int()` also accept other Unicode decimal digits, for the Linux pid (linux_parser.py:49, :115), the Zeek counters (zeek_conn_parser.py:26-44, :72) and the nginx address, status and byte groups (ngnix_parser.py:40, :46-47). Likewise `strptime`'s numeric fields for the syslog, ISO and nginx stamps (the `DateTimes` parsers) accept such digits. A line that uses such digits is rejected by the model but accepted by the source.
- SigmaEngine.Fits: reads every character of a rule value other than `*` literally. The source puts the lowered rule value into a regex without escaping it (sigma_rule_engine.py:352-354). So in the source `*.exe` also matches `cmdxexe`, and a value such as `*\cmd*` raises `re.error`, which gives False. Regex metacharacters in rule values are not modelled.
- SigmaEngine.Yaml: a mapping has string keys only. A rule whose selection has a non-string key raises TypeError at `'|' in field` (sigma_rule_engine.py:278); the model cannot express that rule.
- SigmaEngine.Services: JSON decoding of `parsed_data` and `re.search` for the `re` modifier are parameters. JSON syntax and regex semantics are not modelled.
- ParserManager.Library: JSON decoding for the Windows parser is a parameter.
- ZeekConnParser.Epoch: `float(ts)` followed by `utcfromtimestamp(...).strftime(...)` is a parameter. Floating point and the calendar conversion from epoch seconds are outside the model.
- SigmaEngine.CreateAlert: `datetime.now().isoformat()` is the parameter `now`; the clock is not modelled.
- SigmaEngine: `load_rules` and `_load_rule_file` (sigma_rule_engine.py:101-165) read YAML files from disk. The model takes the loaded rules as a given `Engine`, and the worker's `load_rules() == 0` test is the rule count of that engine.
- SigmaEngine: `get_stats` (sigma_rule_engine.py:400-408) only reports counts.
- SigmaEngine: `SigmaRule.get_log_type` (sigma_rule_engine.py:31-43) is never called; rules are filed by the directory they were loaded from.
- NginxParser: `normalize` (ngnix_parser.py:189-201) returns its input unchanged, so there is nothing to model.
- WindowsParser: `normalize` works on Polars columns. Its renaming and basename steps are modelled on a map from column names to cell sequences.
- Parsers: `parse_batch`, `_enrich_ssh_batch` and `write_to_file` build Polars data frames and write files. The workers do not call them.
- Ingestion.Worker: the UDP listener, threads, `time.sleep`, signal handlers, `KeyboardInterrupt` and `_print_stats` (ingestion_worker.py:230-259) are not modelled. The listener's output is a sequence of ticks.
- Ingestion.Worker: `time.time()` is an integer clock reading carried by each tick, read once per turn.
- Ingestion.Worker.FlushBatch: the outer `except` (ingestion_worker.py:155-157) is not modelled, since every statement it guards either cannot raise or is guarded by the inner `except`.
- Ingestion.Worker.Run: the main loop's generic `except` (ingestion_worker.py:214-216) is not modelled, since its body's calls catch their own exceptions.
- Ingestion.RecvStamp: when no time is given, the database's default `utcnow()` stamp is modelled as `Unset`. A non-string, non-datetime `recv_time` that the database rejects is one of the fault script's raises.
- Ingestion.Store: commit failures and other database errors are the fault script's raises.
- DetectionWorker.Worker.Run: the polling runs as a given sequence of rounds. `time.sleep`, the background thread and `KeyboardInterrupt` (sigma_rule_worker.py:118-122) are not modelled. The outer `except Exception` is modelled only for the poll's AttributeError, since nothing else in the loop lets an exception out.
- DetectionWorker.LogDict: the outer join with the server table is a server list, and each detail table is the set of entry ids it has a row for (sigma_rule_worker.py:198-253). The timestamp is the stored `recv_time` value, not its `isoformat()` text. The detail columns are never merged, because reading them raises.
- DetectionWorker.AlertRow: the alert row keeps the whole engine alert in place of the `metadata` dict that `_store_alerts` copies out of it (sigma_rule_worker.py:281-291).
- DetectionWorker.Database.Insert: entries that the ingestion worker writes concurrently are modelled as arrivals between polls, not as interleaved transactions.
- LinuxParser, NginxParser: the `.` of the regexes does not match a newline, so a `*` wildcard, a syslog message or an nginx time field stops at a newline. This follows the code, not the intent a reader might assume.
- SigmaEngine.RawPrefix: slicing a non-string `raw_line` is treated as raising TypeError. A list or bytes value, which Python would slice, is not a value of the model.

=== FILE: base_parser.dfy ===
/*
 * What every line parser shares: the metadata the registry hands to a
 * parser together with the line, and how a parser folds it into its record.
 * The parsers themselves are the cases of ParserManager.ParserKind.
 */

module BaseParser {
  import opened Values

  /** The metadata dict the registry builds from a received datagram. */
  datatype Metadata = Metadata(recvTime: Value, srcIp: Value)

  function MetaRecord(m: Metadata): (r: Record)
    ensures r.Keys == {"recv_time", "src_ip"}
    ensures r["recv_time"] == m.recvTime && r["src_ip"] == m.srcIp
  {
    map["recv_time" := m.recvTime, "src_ip" := m.srcIp]
  }

  /** parsed.update(metadata): metadata keys overwrite parsed ones. */
  function WithMetadata(parsed: Record, m: Metadata): (r: Record)
    ensures r.Keys == parsed.Keys + {"recv_time", "src_ip"}
    ensures r["recv_time"] == m.recvTime && r["src_ip"] == m.srcIp
    ensures forall k :: k in parsed && k != "recv_time" && k != "src_ip" ==> r[k] == parsed[k]
  {
    parsed + MetaRecord(m)
  }
}

=== FILE: datetime.dfy ===
/*
 * Calendar times as the pipeline reads and writes them with Python's
 * datetime.strptime and strftime.  Two formats occur:
 *   - "%d/%b/%Y:%H:%M:%S", the nginx $time_local stamp without its zone
 *     (src/parsers/ngnix_parser.py:162), and
 *   - "%Y-%m-%d %H:%M:%S", written into the nginx record and read back by the
 *     ingestion worker (src/workers/ingestion_worker.py:122).
 * Each strptime field is the regex alternative Python's _strptime compiles
 * for it; every field here is followed by a non-digit or by the end of the
 * string, so a field is the maximal digit run, of bounded length and value.
 */

module DateTimes {
  import opened Wrappers
  import opened Text

  datatype DateTime = DateTime(year: int, month: int, day: int, hour: int, minute: int, second: int)

  predicate IsLeapYear(y: int) {
    y % 4 == 0 && (y % 100 != 0 || y % 400 == 0)
  }

  function DaysInMonth(y: int, m: int): (n: int)
    requires 1 <= m <= 12
    ensures 28 <= n <= 31
  {
    if m == 2 then (if IsLeapYear(y) then 29 else 28)
    else if m == 4 || m == 6 || m == 9 || m == 11 then 30
    else 31
  }

  /** The values Python's datetime constructor accepts. */
  predicate Valid(dt: DateTime) {
    1 <= dt.year <= 9999 && 1 <= dt.month <= 12 &&
    1 <= dt.day <= DaysInMonth(dt.year, dt.month) &&
    0 <= dt.hour <= 23 && 0 <= dt.minute <= 59 && 0 <= dt.second <= 59
  }

  /** The English month abbreviations %b reads and writes. */
  function MonthAbbrev(m: int): (r: string)
    requires 1 <= m <= 12
    ensures |r| == 3 && 'A' <= r[0] <= 'Z'
  {
    ["Jan", "Feb", "Mar", "Apr", "May", "Jun", "Jul", "Aug", "Sep", "Oct", "Nov", "Dec"][m - 1]
  }

  function MonthLower(m: int): string
    requires 1 <= m <= 12
  {
    ["jan", "feb", "mar", "apr", "may", "jun", "jul", "aug", "sep", "oct", "nov", "dec"][m - 1]
  }

  lemma MonthLowerOfAbbrev(m: int)
    requires 1 <= m <= 12
    ensures Lower(MonthAbbrev(m)) == MonthLower(m)
  {
  }

  /** %b: three letters naming a month, compared case-insensitively. */
  function MonthNumber(t: string): (r: Option<int>)
    ensures r.Some? ==> 1 <= r.value <= 12 && Lower(t) == MonthLower(r.value)
    ensures r.None? ==> forall m :: 1 <= m <= 12 ==> Lower(t) != MonthLower(m)
  {
    FindMonth(Lower(t), 1)
  }

  function FindMonth(l: string, m: int): (r: Option<int>)
    requires 1 <= m <= 13
    ensures r.Some? ==> m <= r.value <= 12 && l == MonthLower(r.value)
    ensures r.None? ==> forall k :: m <= k <= 12 ==> l != MonthLower(k)
    decreases 13 - m
  {
    if m == 13 then None
    else if l == MonthLower(m) then Some(m)
    else FindMonth(l, m + 1)
  }

  /** What one directive read: its value (0 for a literal or a blank) and
      how many characters it took. */
  datatype Scan = Scan(value: int, len: nat)

  /** A numeric strptime field at the start of s: minWidth..maxWidth digits
      whose value lies in lo..hi (%Y reads exactly four digits, %m 1..12,
      %H 0..23, %M 0..59, %S 0..61). */
  function Field(s: string, minWidth: nat, maxWidth: nat, lo: int, hi: int): (r: Option<Scan>)
    ensures r.Some? ==> minWidth <= r.value.len <= maxWidth && 0 < r.value.len <= |s|
    ensures r.Some? ==> AllDigits(s[..r.value.len]) && lo <= r.value.value <= hi
    ensures r.Some? ==> r.value.value == DigitsValue(s[..r.value.len])
    ensures r.Some? ==> r.value.len == |s| || !IsDigit(s[r.value.len])
  {
    var e := DigitEnd(s, 0);
    var v := DigitsValue(s[..e]);
    if 0 < e && minWidth <= e <= maxWidth && lo <= v <= hi then Some(Scan(v, e)) else None
  }

  /** %d: one or two digits valued 1..31, or a space followed by one
      non-zero digit. */
  function DayField(s: string): (r: Option<Scan>)
    ensures r.Some? ==> 0 < r.value.len <= |s| && 1 <= r.value.value <= 31
  {
    if s != [] && s[0] == ' ' then
      if 1 < |s| && '1' <= s[1] <= '9' then Some(Scan(DigitValue(s[1]), 2)) else None
    else Field(s, 1, 2, 1, 31)
  }

  /** One directive of a strptime/strftime format.  Num is a numeric field
      (read with minWidth..maxWidth digits, written zero-padded to maxWidth),
      Day is %d, Month is %b, Lit a literal character and Blank a whitespace
      character of the format, which strptime reads as one or more
      whitespace characters. */
  datatype Directive =
    | Num(minWidth: nat, maxWidth: nat, lo: int, hi: int)
    | Day
    | Month
    | Lit(c: char)
    | Blank

  /** "%Y-%m-%d %H:%M:%S" */
  const StoreFormat: seq<Directive> :=
    [Num(4, 4, 0, 9999), Lit('-'), Num(1, 2, 1, 12), Lit('-'), Day, Blank,
     Num(1, 2, 0, 23), Lit(':'), Num(1, 2, 0, 59), Lit(':'), Num(1, 2, 0, 61)]

  /** "%d/%b/%Y:%H:%M:%S" */
  const AccessFormat: seq<Directive> :=
    [Day, Lit('/'), Month, Lit('/'), Num(4, 4, 0, 9999), Lit(':'),
     Num(1, 2, 0, 23), Lit(':'), Num(1, 2, 0, 59), Lit(':'), Num(1, 2, 0, 61)]

  /** Whether a directive reads and writes a value (Lit and Blank do not). */
  predicate Valued(d: Directive) {
    !d.Lit? && !d.Blank?
  }

  /** The number of values a format reads or writes. */
  function Arity(fmt: seq<Directive>): nat
    decreases |fmt|
  {
    if fmt == [] then 0 else (if Valued(fmt[0]) then 1 else 0) + Arity(fmt[1..])
  }

  /** Reads one directive at the start of s, or None where strptime's
      pattern does not match there. */
  function ScanOne(d: Directive, s: string): (r: Option<Scan>)
    ensures r.Some? ==> 0 < r.value.len <= |s|
    ensures r.Some? && d.Lit? ==> s[0] == d.c && r.value.len == 1
    ensures r.Some? && d.Blank? ==> AllSpace(s[..r.value.len])
    ensures r.Some? && d.Month? ==> 1 <= r.value.value <= 12 && r.value.len == 3
    ensures r.Some? && d.Day? ==> 1 <= r.value.value <= 31
    ensures r.Some? && d.Num? ==> d.lo <= r.value.value <= d.hi
  {
    match d
    case Lit(c) => if s != [] && s[0] == c then Some(Scan(0, 1)) else None
    case Blank =>
      var j := SpaceEnd(s, 0);
      if j == 0 then None
      else
        assert forall k :: 0 <= k < j ==> s[..j][k] == s[k];
        Some(Scan(0, j))
    case Month =>
      if |s| < 3 then None
      else
        var m := MonthNumber(s[..3]);
        if m.None? then None else Some(Scan(m.value, 3))
    case Day => DayField(s)
    case Num(a, b, lo, hi) => Field(s, a, b, lo, hi)
  }

  /** Matches fmt against the whole of s, as strptime's compiled pattern
      followed by its "unconverted data remains" check: the values of the
      fields in order, or None where strptime raises ValueError. */
  function ScanFormat(fmt: seq<Directive>, s: string): (r: Option<seq<int>>)
    ensures r.Some? ==> |r.value| == Arity(fmt)
    decreases |fmt|
  {
    if fmt == [] then (if s == [] then Some([]) else None)
    else
      var o := ScanOne(fmt[0], s);
      if o.None? then None
      else
        var rest := ScanFormat(fmt[1..], s[o.value.len..]);
        if rest.None? then None
        else if Valued(fmt[0]) then Some([o.value.value] + rest.value)
        else rest
  }

  /** A value that a directive can write. */
  predicate FitsOne(d: Directive, v: int) {
    match d
    case Num(_, _, lo, hi) => lo <= v <= hi
    case Day => 1 <= v <= 31
    case Month => 1 <= v <= 12
    case _ => true
  }

  /** vals are values the value directives of fmt can write, in order. */
  predicate Fits(fmt: seq<Directive>, vals: seq<int>)
    decreases |fmt|
  {
    if fmt == [] then vals == []
    else if Valued(fmt[0]) then vals != [] && FitsOne(fmt[0], vals[0]) && Fits(fmt[1..], vals[1..])
    else Fits(fmt[1..], vals)
  }

  /** A directive on its own: numeric fields have non-negative bounds whose
      upper end fits their width. */
  predicate DirectiveOk(d: Directive) {
    match d
    case Num(a, b, lo, hi) => 1 <= a <= b && 0 <= lo && hi < Pow10(b)
    case _ => true
  }

  /** The number of characters a directive writes. */
  function PieceWidth(d: Directive): nat {
    match d
    case Num(_, b, _, _) => b
    case Day => 2
    case Month => 3
    case _ => 1
  }

  /** The first character a directive writes. */
  predicate Leads(d: Directive, c: char) {
    match d
    case Num(_, _, _, _) => IsDigit(c)
    case Day => IsDigit(c)
    case Month => 'A' <= c <= 'Z'
    case Lit(l) => c == l
    case Blank => c == ' '
  }

  /** What one directive writes for value v, as strftime does: numbers
      zero-padded to their width, %b as the English abbreviation, a blank
      as one space. */
  function Piece(d: Directive, v: int): (r: string)
    requires DirectiveOk(d) && FitsOne(d, v)
    ensures |r| == PieceWidth(d) && Leads(d, r[0])
  {
    assert Pow10(2) == 100;
    match d
    case Lit(c) => [c]
    case Blank => " "
    case Month => MonthAbbrev(v)
    case Day => Padded(v, 2)
    case Num(_, b, _, _) =>
      var t := Padded(v, b);
      assert |t| == b;
      t
  }

  /** What may follow a directive so that what it writes is read back as
      written: a number is not followed by a digit, whitespace not by
      whitespace. */
  predicate Follows(d: Directive, e: Directive) {
    match d
    case Num(_, _, _, _) => !e.Num? && !e.Day? && !(e.Lit? && IsDigit(e.c))
    case Day => !e.Num? && !e.Day? && !(e.Lit? && IsDigit(e.c))
    case Blank => !e.Blank? && !e.Day? && !(e.Lit? && IsSpace(e.c))
    case _ => true
  }

  predicate WellFormed(fmt: seq<Directive>)
    decreases |fmt|
  {
    fmt == [] ||
    (DirectiveOk(fmt[0]) && (|fmt| > 1 ==> Follows(fmt[0], fmt[1])) && WellFormed(fmt[1..]))
  }

  /** The value a format's first directive writes, and the values left for
      the rest of it. */
  function HeadValue(d: Directive, vals: seq<int>): int {
    if Valued(d) && vals != [] then vals[0] else 0
  }

  function TailValues(d: Directive, vals: seq<int>): seq<int> {
    if Valued(d) && vals != [] then vals[1..] else vals
  }

  /** strftime for the directives above. */
  function Render(fmt: seq<Directive>, vals: seq<int>): (r: string)
    requires WellFormed(fmt) && Fits(fmt, vals)
    ensures fmt != [] ==> r != [] && Leads(fmt[0], r[0])
    ensures |r| == Width(fmt)
    decreases |fmt|
  {
    if fmt == [] then ""
    else Piece(fmt[0], HeadValue(fmt[0], vals)) + Render(fmt[1..], TailValues(fmt[0], vals))
  }

  /** The length of what a well-formed format writes. */
  function Width(fmt: seq<Directive>): nat
    decreases |fmt|
  {
    if fmt == [] then 0 else PieceWidth(fmt[0]) + Width(fmt[1..])
  }

  /** The datetime constructor's check, after strptime has read the fields. */
  function Checked(y: int, m: int, d: int, h: int, mi: int, sec: int): (r: Option<DateTime>)
    ensures r.Some? <==> Valid(DateTime(y, m, d, h, mi, sec))
    ensures r.Some? ==> r.value == DateTime(y, m, d, h, mi, sec)
  {
    var dt := DateTime(y, m, d, h, mi, sec);
    if Valid(dt) then Some(dt) else None
  }

  /** datetime.strptime(s, "%Y-%m-%d %H:%M:%S"); None where it raises ValueError. */
  function ParseStoreTime(s: string): (r: Option<DateTime>)
    ensures r.Some? ==> Valid(r.value)
  {
    var v := ScanFormat(StoreFormat, s);
    if v.None? then None
    else
      assert |v.value| == 6;
      Checked(v.value[0], v.value[1], v.value[2], v.value[3], v.value[4], v.value[5])
  }

  /** datetime.strptime(s, "%d/%b/%Y:%H:%M:%S"); None where it raises ValueError. */
  function ParseAccessTime(s: string): (r: Option<DateTime>)
    ensures r.Some? ==> Valid(r.value)
  {
    var v := ScanFormat(AccessFormat, s);
    if v.None? then None
    else
      assert |v.value| == 6;
      Checked(v.value[2], v.value[1], v.value[0], v.value[3], v.value[4], v.value[5])
  }

  lemma MonthLowerInjective(a: int, b: int)
    requires 1 <= a <= 12 && 1 <= b <= 12 && MonthLower(a) == MonthLower(b)
    ensures a == b
  {
  }

  /** A field whose digits are exactly the word t is read back as t's value. */
  lemma FieldOf(t: string, r: string, a: nat, b: nat, lo: int, hi: int)
    requires AllDigits(t) && 1 <= |t| && a <= |t| <= b && lo <= DigitsValue(t) <= hi
    requires r == [] || !IsDigit(r[0])
    ensures Field(t + r, a, b, lo, hi) == Some(Scan(DigitsValue(t), |t|))
  {
    var s := t + r;
    assert s[0..|t|] == t;
    RunEndOver(s, 0, t, Digit);
    assert s[..|t|] == t;
  }

  /** What one directive wrote is read back by that directive. */
  lemma PieceRead(d: Directive, v: int, r: string)
    requires DirectiveOk(d) && FitsOne(d, v) && Separates(d, r)
    ensures ScanOne(d, Piece(d, v) + r) == Some(Scan(if Valued(d) then v else 0, PieceWidth(d)))
  {
    match d
    case Lit(c) =>
    case Blank => BlankRead(r);
    case Month => MonthRead(v, r);
    case Day =>
      assert (Piece(d, v) + r)[0] == Piece(d, v)[0];
      FieldOf(Piece(d, v), r, 1, 2, 1, 31);
    case Num(a, b, lo, hi) => FieldOf(Piece(d, v), r, a, b, lo, hi);
  }

  lemma BlankRead(r: string)
    requires r == [] || !IsSpace(r[0])
    ensures ScanOne(Blank, " " + r) == Some(Scan(0, 1))
  {
    var s := " " + r;
    assert s[0..1] == " ";
    RunEndOver(s, 0, " ", Space);
  }

  lemma MonthRead(v: int, r: string)
    requires 1 <= v <= 12
    ensures ScanOne(Month, MonthAbbrev(v) + r) == Some(Scan(v, 3))
  {
    var s := MonthAbbrev(v) + r;
    assert s[..3] == MonthAbbrev(v);
    MonthLowerOfAbbrev(v);
    var m := MonthNumber(s[..3]);
    MonthLowerInjective(m.value, v);
  }

  /** The next character r starts with cannot extend what d wrote. */
  predicate Separates(d: Directive, r: string) {
    r == [] ||
    ((d.Num? || d.Day? ==> !IsDigit(r[0])) && (d.Blank? ==> !IsSpace(r[0])))
  }

  /** A directive followed by a permitted one is separated from what that
      one writes. */
  lemma FollowsSeparates(d: Directive, rest: seq<Directive>, r: string)
    requires rest != [] ==> Follows(d, rest[0])
    requires rest != [] ==> r != [] && Leads(rest[0], r[0])
    requires rest == [] ==> r == []
    ensures Separates(d, r)
  {
  }

  /** Render writes the first directive's piece, then the rest. */
  lemma RenderCons(fmt: seq<Directive>, vals: seq<int>)
    requires fmt != [] && WellFormed(fmt) && Fits(fmt, vals)
    ensures DirectiveOk(fmt[0]) && FitsOne(fmt[0], HeadValue(fmt[0], vals))
    ensures WellFormed(fmt[1..]) && Fits(fmt[1..], TailValues(fmt[0], vals))
    ensures fmt[1..] != [] ==> Follows(fmt[0], fmt[1..][0])
    ensures Render(fmt, vals) ==
            Piece(fmt[0], HeadValue(fmt[0], vals)) + Render(fmt[1..], TailValues(fmt[0], vals))
    ensures vals == (if Valued(fmt[0]) then [HeadValue(fmt[0], vals)] else []) + TailValues(fmt[0], vals)
  {
    if Valued(fmt[0]) {
      assert vals == [vals[0]] + vals[1..];
    } else {
      assert vals == [] + vals;
    }
  }

  /** ScanFormat reads the first directive, then the rest. */
  lemma ScanCons(fmt: seq<Directive>, t: string, r: string, x: Scan, vals: seq<int>)
    requires fmt != [] && ScanOne(fmt[0], t + r) == Some(x) && x.len == |t|
    requires ScanFormat(fmt[1..], r) == Some(vals)
    ensures ScanFormat(fmt, t + r) == Some((if Valued(fmt[0]) then [x.value] else []) + vals)
  {
    assert (t + r)[x.len..] == r;
    if !Valued(fmt[0]) {
      assert [] + vals == vals;
    }
  }

  /** Reading back what a well-formed format wrote gives the values it was
      given: strptime(strftime(vals, fmt), fmt) == vals. */
  lemma {:induction false} ScanOfRender(fmt: seq<Directive>, vals: seq<int>)
    requires WellFormed(fmt) && Fits(fmt, vals)
    ensures ScanFormat(fmt, Render(fmt, vals)) == Some(vals)
    decreases |fmt|
  {
    if fmt != [] {
      var d, rest := fmt[0], fmt[1..];
      var v, tail := HeadValue(d, vals), TailValues(d, vals);
      RenderCons(fmt, vals);
      var t, r := Piece(d, v), Render(rest, tail);
      FollowsSeparates(d, rest, r);
      PieceRead(d, v, r);
      ScanOfRender(rest, tail);
      ScanCons(fmt, t, r, Scan(if Valued(d) then v else 0, PieceWidth(d)), tail);
    }
  }

  lemma StoreFormatWellFormed()
    ensures WellFormed(StoreFormat)
  {
    var f := StoreFormat;
    assert Pow10(2) == 100 && Pow10(4) == 10000;
    assert WellFormed(f[10..]);
    assert WellFormed(f[9..]);
    assert WellFormed(f[8..]);
    assert WellFormed(f[7..]);
    assert WellFormed(f[6..]);
    assert WellFormed(f[5..]);
    assert WellFormed(f[4..]);
    assert WellFormed(f[3..]);
    assert WellFormed(f[2..]);
    assert WellFormed(f[1..]);
  }

  lemma StoreFormatWidth()
    ensures Width(StoreFormat) == 19
  {
    var f := StoreFormat;
    assert Width(f[10..]) == 2;
    assert Width(f[9..]) == 3;
    assert Width(f[8..]) == 5;
    assert Width(f[7..]) == 6;
    assert Width(f[6..]) == 8;
    assert Width(f[5..]) == 9;
    assert Width(f[4..]) == 11;
    assert Width(f[3..]) == 12;
    assert Width(f[2..]) == 14;
    assert Width(f[1..]) == 15;
  }


  lemma StoreFormatFits(dt: DateTime)
    requires Valid(dt)
    ensures Fits(StoreFormat, [dt.year, dt.month, dt.day, dt.hour, dt.minute, dt.second])
  {
    var f, v := StoreFormat, [dt.year, dt.month, dt.day, dt.hour, dt.minute, dt.second];
    assert Fits(f[10..], v[5..]);
    assert Fits(f[9..], v[5..]);
    assert Fits(f[8..], v[4..]);
    assert Fits(f[7..], v[4..]);
    assert Fits(f[6..], v[3..]);
    assert Fits(f[5..], v[3..]);
    assert Fits(f[4..], v[2..]);
    assert Fits(f[3..], v[2..]);
    assert Fits(f[2..], v[1..]);
    assert Fits(f[1..], v[1..]);
  }

  lemma AccessFormatWellFormed()
    ensures WellFormed(AccessFormat)
  {
    var f := AccessFormat;
    assert Pow10(2) == 100 && Pow10(4) == 10000;
    assert WellFormed(f[10..]);
    assert WellFormed(f[9..]);
    assert WellFormed(f[8..]);
    assert WellFormed(f[7..]);
    assert WellFormed(f[6..]);
    assert WellFormed(f[5..]);
    assert WellFormed(f[4..]);
    assert WellFormed(f[3..]);
    assert WellFormed(f[2..]);
    assert WellFormed(f[1..]);
  }

  lemma AccessFormatWidth()
    ensures Width(AccessFormat) == 20
  {
    var f := AccessFormat;
    assert Width(f[10..]) == 2;
    assert Width(f[9..]) == 3;
    assert Width(f[8..]) == 5;
    assert Width(f[7..]) == 6;
    assert Width(f[6..]) == 8;
    assert Width(f[5..]) == 9;
    assert Width(f[4..]) == 13;
    assert Width(f[3..]) == 14;
    assert Width(f[2..]) == 17;
    assert Width(f[1..]) == 18;
  }


  lemma AccessFormatFits(dt: DateTime)
    requires Valid(dt)
    ensures Fits(AccessFormat, [dt.day, dt.month, dt.year, dt.hour, dt.minute, dt.second])
  {
    var f, v := AccessFormat, [dt.day, dt.month, dt.year, dt.hour, dt.minute, dt.second];
    assert Fits(f[10..], v[5..]);
    assert Fits(f[9..], v[5..]);
    assert Fits(f[8..], v[4..]);
    assert Fits(f[7..], v[4..]);
    assert Fits(f[6..], v[3..]);
    assert Fits(f[5..], v[3..]);
    assert Fits(f[4..], v[2..]);
    assert Fits(f[3..], v[2..]);
    assert Fits(f[2..], v[1..]);
    assert Fits(f[1..], v[1..]);
  }

  /** dt.strftime("%Y-%m-%d %H:%M:%S"). */
  function Format(dt: DateTime): (r: string)
    requires Valid(dt)
    ensures |r| == 19
  {
    StoreFormatWellFormed();
    StoreFormatWidth();
    StoreFormatFits(dt);
    Render(StoreFormat, [dt.year, dt.month, dt.day, dt.hour, dt.minute, dt.second])
  }

  /** dt.strftime("%d/%b/%Y:%H:%M:%S"), the nginx $time_local stamp without
      its zone. */
  function AccessStamp(dt: DateTime): (r: string)
    requires Valid(dt)
    ensures |r| == 20
  {
    AccessFormatWellFormed();
    AccessFormatWidth();
    AccessFormatFits(dt);
    Render(AccessFormat, [dt.day, dt.month, dt.year, dt.hour, dt.minute, dt.second])
  }

  /** Reading back what Format wrote gives the same time: the timestamp the
      nginx parser writes is the one the ingestion worker stores. */
  lemma ParseStoreTimeOfFormat(dt: DateTime)
    requires Valid(dt)
    ensures ParseStoreTime(Format(dt)) == Some(dt)
  {
    StoreFormatWellFormed();
    StoreFormatFits(dt);
    ScanOfRender(StoreFormat, [dt.year, dt.month, dt.day, dt.hour, dt.minute, dt.second]);
  }

  /** Reading the nginx stamp of a time gives that time back. */
  lemma ParseAccessTimeOfStamp(dt: DateTime)
    requires Valid(dt)
    ensures ParseAccessTime(AccessStamp(dt)) == Some(dt)
  {
    AccessFormatWellFormed();
    AccessFormatFits(dt);
    ScanOfRender(AccessFormat, [dt.day, dt.month, dt.year, dt.hour, dt.minute, dt.second]);
  }
}

=== FILE: ingestion_worker.dfy ===
/*
 * The ingestion worker (src/workers/ingestion_worker.py): it receives
 * datagrams, parses each with the parser registry, collects the parsed
 * records in a batch and writes the batch to the store when it is full or
 * old enough.  The clock is a parameter (one reading per received datagram
 * or idle poll), and the store is an abstract one whose calls fail where a
 * script of faults says so.
 */

module Ingestion {
  import opened Wrappers
  import opened Values
  import DateTimes
  import ParserManager

  // ---------------------------------------------------------------------
  // The store: servers and raw log entries

  /** The columns a server is looked up by: hostname, ip_address and
      server_type (src/db/repository/server_repo.py:26-30). */
  datatype ServerKey = ServerKey(hostname: Value, ip: Value, serverType: Value)

  /** The recv_time handed to insert_raw_log: a parsed datetime, a truthy
      non-string value passed through, or nothing, in which case the store
      stamps the entry with its own clock. */
  datatype Stamp = Parsed(at: DateTimes.DateTime) | Kept(v: Value) | Unset

  /** A row of the log_entry table. */
  datatype LogRow = LogRow(serverId: nat, logSource: Value, content: Value, recvTime: Stamp)

  /** The store's tables, and the outcome of its coming calls: the call that
      meets a `true` at the head of faults raises; past the end of the
      script every call succeeds.  Server ids are positions counted from 1. */
  datatype StoreState = StoreState(servers: seq<ServerKey>, logs: seq<LogRow>, faults: seq<bool>)

  /** The next store call raises. */
  predicate Fails(st: StoreState) {
    st.faults != [] && st.faults[0]
  }

  /** The store after one call has used up its entry of the script. */
  function Next(st: StoreState): StoreState {
    st.(faults := if st.faults == [] then [] else st.faults[1..])
  }

  predicate Distinct<T(==)>(s: seq<T>) {
    forall i, j :: 0 <= i < j < |s| ==> s[i] != s[j]
  }

  /** The position of key among the servers, if it is there. */
  function ServerIndex(servers: seq<ServerKey>, key: ServerKey): (r: Option<nat>)
    ensures r.Some? ==> r.value < |servers| && servers[r.value] == key
    ensures r.None? <==> key !in servers
  {
    if servers == [] then None
    else if servers[|servers| - 1] == key then Some(|servers| - 1)
    else
      var r := ServerIndex(servers[..|servers| - 1], key);
      assert servers == servers[..|servers| - 1] + [servers[|servers| - 1]];
      r
  }

  /** get_or_create_server: the id of the server with that key, creating
      it when there is none; nothing when the call raises. */
  function ServerCall(st: StoreState, key: ServerKey): (r: (StoreState, Option<nat>))
    ensures r.1.Some? <==> !Fails(st)
    ensures r.1.Some? ==> 1 <= r.1.value <= |r.0.servers| && r.0.servers[r.1.value - 1] == key
    ensures r.0.servers == st.servers || (key !in st.servers && r.0.servers == st.servers + [key])
    ensures key in st.servers ==> r.0.servers == st.servers
    ensures r.0.logs == st.logs && r.0.faults == Next(st).faults
  {
    var s := Next(st);
    if Fails(st) then (s, None)
    else
      match ServerIndex(st.servers, key)
      case Some(i) => (s, Some(i + 1))
      case None => (s.(servers := st.servers + [key]), Some(|st.servers| + 1))
  }

  /** insert_raw_log: appends the row and returns its id; nothing when the
      call raises. */
  function InsertCall(st: StoreState, row: LogRow): (r: (StoreState, Option<nat>))
    ensures r.1.Some? <==> !Fails(st)
    ensures r.1.Some? ==> r.0.logs == st.logs + [row] && r.1.value == |r.0.logs|
    ensures r.1.None? ==> r.0.logs == st.logs
    ensures r.0.servers == st.servers && r.0.faults == Next(st).faults
  {
    var s := Next(st);
    if Fails(st) then (s, None)
    else (s.(logs := st.logs + [row]), Some(|st.logs| + 1))
  }

  /** The database the worker writes to. */
  class Store {
    var servers: seq<ServerKey>
    var logs: seq<LogRow>
    var faults: seq<bool>

    /** An empty store whose calls fail as the script says. */
    constructor(faults: seq<bool>)
      ensures State() == StoreState([], [], faults)
    {
      servers, logs, this.faults := [], [], faults;
    }

    function State(): StoreState
      reads this
    {
      StoreState(servers, logs, faults)
    }

    method GetOrCreateServer(key: ServerKey) returns (id: Option<nat>)
      modifies this
      ensures (State(), id) == ServerCall(old(State()), key)
    {
      var out := ServerCall(State(), key);
      servers, faults := out.0.servers, out.0.faults;
      id := out.1;
    }

    method InsertRawLog(row: LogRow) returns (id: Option<nat>)
      modifies this
      ensures (State(), id) == InsertCall(old(State()), row)
    {
      var out := InsertCall(State(), row);
      logs, faults := out.0.logs, out.0.faults;
      id := out.1;
    }
  }

  // ---------------------------------------------------------------------
  // What _flush_batch takes from a parsed record

  /** `log_data.get("log_source") or log_data.get("log_type") or "unknown"`:
      never empty. */
  function LogSource(r: Record): (v: Value)
    ensures Truthy(v)
    ensures v == Str("unknown") || ("log_source" in r && v == r["log_source"]) || ("log_type" in r && v == r["log_type"])
  {
    Or(Or(Get(r, "log_source"), Get(r, "log_type")), Str("unknown"))
  }

  /** hostname defaults to "unknown"; the address is source_ip when truthy,
      else src_ip, else "0.0.0.0". */
  function ServerKeyOf(r: Record): (k: ServerKey)
    ensures "hostname" !in r ==> k.hostname == Str("unknown")
    ensures "hostname" in r ==> k.hostname == r["hostname"]
    ensures "source_ip" !in r && "src_ip" !in r ==> k.ip == Str("0.0.0.0")
    ensures Truthy(Get(r, "source_ip")) ==> k.ip == r["source_ip"]
    ensures !Truthy(Get(r, "source_ip")) ==> k.ip == GetOr(r, "src_ip", Str("0.0.0.0"))
    ensures k.serverType == LogSource(r)
  {
    ServerKey(GetOr(r, "hostname", Str("unknown")),
              Or(Get(r, "source_ip"), GetOr(r, "src_ip", Str("0.0.0.0"))),
              LogSource(r))
  }

  /** `raw_line or line or str(log_data)`, with str() of the record given
      as show: never empty when show never is. */
  function Content(r: Record, show: Record -> string): (v: Value)
    ensures show(r) != [] ==> Truthy(v)
    ensures Truthy(Get(r, "raw_line")) ==> v == r["raw_line"]
    ensures !Truthy(Get(r, "raw_line")) && Truthy(Get(r, "line")) ==> v == r["line"]
    ensures !Truthy(Get(r, "raw_line")) && !Truthy(Get(r, "line")) ==> v == Str(show(r))
  {
    Or(Or(Get(r, "raw_line"), Get(r, "line")), Str(show(r)))
  }

  /** `timestamp or recv_time`, read with "%Y-%m-%d %H:%M:%S" when it is a
      string; a string in any other form is dropped. */
  function RecvStamp(r: Record): (s: Stamp)
    ensures var v := Or(Get(r, "timestamp"), Get(r, "recv_time"));
            (s.Parsed? ==> v.Str? && DateTimes.ParseStoreTime(v.s) == Some(s.at)) &&
            (s.Kept? ==> s.v == v && Truthy(v) && !v.Str?) &&
            (s.Unset? ==> !Truthy(v) || (v.Str? && DateTimes.ParseStoreTime(v.s).None?))
  {
    var v := Or(Get(r, "timestamp"), Get(r, "recv_time"));
    if Truthy(v) && v.Str? then
      match DateTimes.ParseStoreTime(v.s)
      case Some(dt) => Parsed(dt)
      case None => Unset
    else if Truthy(v) then Kept(v)
    else Unset
  }

  /** What _flush_batch writes for one record: the server's key and the
      columns of its log entry. */
  datatype Entry = Entry(key: ServerKey, source: Value, content: Value, stamp: Stamp)

  /** The entry of a record, with str() of a record given as show. */
  function EntryOf(r: Record, show: Record -> string): (e: Entry)
    ensures e.key == ServerKeyOf(r) && e.source == e.key.serverType
  {
    Entry(ServerKeyOf(r), LogSource(r), Content(r, show), RecvStamp(r))
  }

  /** The row written for an entry whose server has the id sid. */
  function RowOf(e: Entry, sid: nat): LogRow {
    LogRow(sid, e.source, e.content, e.stamp)
  }

  /** One record of the batch: the server call and, when it succeeds, the
      insert; true when both succeed. */
  function SaveOne(st: StoreState, e: Entry): (StoreState, bool) {
    var (s1, sid) := ServerCall(st, e.key);
    if sid.None? then (s1, false)
    else
      var (s2, lid) := InsertCall(s1, RowOf(e, sid.value));
      (s2, lid.Some?)
  }

  /** What a batch leaves behind: the store and the number of records
      saved. */
  datatype Outcome = Outcome(state: StoreState, saved: nat)

  /** The loop of _flush_batch over the batch, record by record in order.
      Rows are only appended, one per saved record. */
  function SaveAll(st: StoreState, batch: seq<Record>, entry: Record -> Entry): (out: Outcome)
    ensures out.saved <= |batch|
    ensures st.logs <= out.state.logs && |out.state.logs| == |st.logs| + out.saved
    ensures st.servers <= out.state.servers
    decreases |batch|
  {
    if batch == [] then Outcome(st, 0)
    else
      var before := SaveAll(st, batch[..|batch| - 1], entry);
      var one := SaveOne(before.state, entry(batch[|batch| - 1]));
      Outcome(one.0, before.saved + if one.1 then 1 else 0)
  }

  /** A store that never fails saves every record, each as the row of its
      entry, in batch order, under the server of that entry's key. */
  lemma {:induction false} SaveAllClean(st: StoreState, batch: seq<Record>, entry: Record -> Entry)
    requires st.faults == []
    ensures var out := SaveAll(st, batch, entry);
            out.saved == |batch| && out.state.faults == [] &&
            forall k :: 0 <= k < |batch| ==>
              var row := out.state.logs[|st.logs| + k];
              row == RowOf(entry(batch[k]), row.serverId) &&
              1 <= row.serverId <= |out.state.servers| && out.state.servers[row.serverId - 1] == entry(batch[k]).key
    decreases |batch|
  {
    if batch != [] {
      var init := batch[..|batch| - 1];
      SaveAllClean(st, init, entry);
      var before := SaveAll(st, init, entry);
      var e := entry(batch[|batch| - 1]);
      var (sA, sid) := ServerCall(before.state, e.key);
      var (sB, lid) := InsertCall(sA, RowOf(e, sid.value));
      var out := SaveAll(st, batch, entry);
      assert out.state == sB && out.saved == before.saved + 1;
      forall k | 0 <= k < |batch|
        ensures var row := out.state.logs[|st.logs| + k];
                row == RowOf(entry(batch[k]), row.serverId) &&
                1 <= row.serverId <= |out.state.servers| && out.state.servers[row.serverId - 1] == entry(batch[k]).key
      {
        if k < |batch| - 1 {
          assert init[k] == batch[k];
          assert out.state.logs[|st.logs| + k] == before.state.logs[|st.logs| + k];
        }
      }
    }
  }

  /** get_or_create_server never makes a second server with the same key. */
  lemma {:induction false} SaveAllDistinct(st: StoreState, batch: seq<Record>, entry: Record -> Entry)
    requires Distinct(st.servers)
    ensures Distinct(SaveAll(st, batch, entry).state.servers)
    decreases |batch|
  {
    if batch != [] {
      SaveAllDistinct(st, batch[..|batch| - 1], entry);
      var before := SaveAll(st, batch[..|batch| - 1], entry);
      var (sA, sid) := ServerCall(before.state, entry(batch[|batch| - 1]).key);
      assert SaveAll(st, batch, entry).state.servers == sA.servers;
    }
  }

  /** A record parsed by the registry is stored with the received line as
      its content. */
  lemma ParsedContent(ps: seq<ParserManager.ParserKind>, lib: ParserManager.Library,
                      raw: ParserManager.Datagram, show: Record -> string)
    requires ParserManager.Detect(ps, lib, raw).Some?
    ensures Content(ParserManager.Detect(ps, lib, raw).value, show) == Str(raw.line)
  {
    var r := ParserManager.Detect(ps, lib, raw).value;
    assert r["raw_line"] == Str(raw.line) && raw.line != [];
  }

  /** A parsed record is never empty, so `if parsed` tests only for None. */
  lemma ParsedNonEmpty(ps: seq<ParserManager.ParserKind>, lib: ParserManager.Library, raw: ParserManager.Datagram)
    requires ParserManager.Detect(ps, lib, raw).Some?
    ensures ParserManager.Detect(ps, lib, raw).value != map[]
  {
    assert "log_type" in ParserManager.Detect(ps, lib, raw).value;
  }

  /** A timestamp the nginx parser writes in the store format is read back
      as the same time. */
  lemma StampOfFormat(r: Record, dt: DateTimes.DateTime)
    requires DateTimes.Valid(dt) && "timestamp" in r && r["timestamp"] == Str(DateTimes.Format(dt))
    ensures RecvStamp(r) == Parsed(dt)
  {
    DateTimes.ParseStoreTimeOfFormat(dt);
    assert Truthy(r["timestamp"]);
  }

  // ---------------------------------------------------------------------
  // The worker

  /** One turn of the main loop: what listener.receive returned (nothing
      on a timeout) and the clock at that moment. */
  datatype Tick = Tick(recv: Option<ParserManager.Datagram>, now: int)

  /** The number of ticks that delivered a datagram. */
  function Received(ticks: seq<Tick>): (n: nat)
    ensures n <= |ticks|
  {
    if ticks == [] then 0
    else Received(ticks[..|ticks| - 1]) + if ticks[|ticks| - 1].recv.Some? then 1 else 0
  }

  /** The batch after _process_log: the parsed record appended, or the
      batch as it was when parsing failed. */
  function Batched(batch: seq<Record>, p: Option<Record>): (b: seq<Record>)
    ensures p.Some? ==> |b| == |batch| + 1 && b[..|batch|] == batch && b[|batch|] == p.value
    ensures p.None? ==> b == batch
  {
    if p.Some? then batch + [p.value] else batch
  }

  class Worker {
    const batchSize: int
    const batchTimeout: int
    const lib: ParserManager.Library
    /** The entry _flush_batch writes for a record. */
    const entryOf: Record -> Entry
    const registry: ParserManager.Registry
    const store: Store

    var running: bool
    var batch: seq<Record>
    var lastBatchTime: int
    var received: nat
    var parsed: nat
    var saved: nat
    var errors: nat
    var batches: nat

    /** Between turns of the main loop the batch is below its size, or
        empty. */
    predicate Valid()
      reads this
    {
      |batch| < batchSize || batch == []
    }

    /** A stopped worker with an empty batch, the default parser registry
        and zeroed counters; the batch clock starts at now. */
    constructor(batchSize: int, batchTimeout: int, lib: ParserManager.Library,
                show: Record -> string, store: Store, now: int)
      ensures this.batchSize == batchSize && this.batchTimeout == batchTimeout
      ensures this.lib == lib && this.store == store
      ensures forall r :: entryOf(r) == EntryOf(r, show)
      ensures fresh(registry) && registry.parsers == ParserManager.Defaults
      ensures !running && batch == [] && lastBatchTime == now
      ensures received == 0 && parsed == 0 && saved == 0 && errors == 0 && batches == 0
      ensures Valid()
    {
      this.batchSize, this.batchTimeout := batchSize, batchTimeout;
      this.lib, this.store := lib, store;
      entryOf := r => EntryOf(r, show);
      registry := new ParserManager.Registry();
      running, batch, lastBatchTime := false, [], now;
      received, parsed, saved, errors, batches := 0, 0, 0, 0, 0;
    }

    /** _should_flush_batch at time now. */
    predicate ShouldFlush(now: int)
      reads this
    {
      FlushDue(|batch|, lastBatchTime, now)
    }

    /** The flush test for a batch of n records whose clock started at last. */
    predicate FlushDue(n: nat, last: int, now: int)
    {
      n >= batchSize || (n > 0 && now - last >= batchTimeout)
    }

    /** _process_log: the parsed record joins the batch, or the datagram
        counts as an error. */
    method ProcessLog(raw: ParserManager.Datagram)
      modifies this
      ensures var p := ParserManager.Detect(registry.parsers, lib, raw);
              if p.Some? then batch == old(batch) + [p.value] && parsed == old(parsed) + 1 && errors == old(errors)
              else batch == old(batch) && parsed == old(parsed) && errors == old(errors) + 1
      ensures running == old(running) && lastBatchTime == old(lastBatchTime)
      ensures received == old(received) && saved == old(saved) && batches == old(batches)
    {
      var p := registry.Parse(lib, raw);
      if p.Some? {
        ParsedNonEmpty(registry.parsers, lib, raw);
      }
      if p.Some? && p.value != map[] {
        batch := batch + [p.value];
        parsed := parsed + 1;
      } else {
        errors := errors + 1;
      }
    }

    /** The body of _flush_batch's loop for one record: the server is
        looked up or created, then the row inserted; false when either
        call raises. */
    method Save(r: Record) returns (ok: bool)
      modifies store
      ensures (store.State(), ok) == SaveOne(old(store.State()), entryOf(r))
    {
      var e := entryOf(r);
      var sid := store.GetOrCreateServer(e.key);
      ok := false;
      if sid.Some? {
        var lid := store.InsertRawLog(RowOf(e, sid.value));
        ok := lid.Some?;
      }
    }

    /** The loop of _flush_batch: the records are saved in order and each
        one whose save raises counts as an error. */
    method SaveRecords(items: seq<Record>) returns (savedCount: nat)
      modifies store, this`errors
      ensures Outcome(store.State(), savedCount) == SaveAll(old(store.State()), items, entryOf)
      ensures errors == old(errors) + (|items| - savedCount)
    {
      savedCount := 0;
      ghost var start := store.State();
      for i := 0 to |items|
        invariant Outcome(store.State(), savedCount) == SaveAll(start, items[..i], entryOf)
        invariant errors == old(errors) + (i - savedCount)
      {
        assert items[..i + 1][..i] == items[..i];
        var ok := Save(items[i]);
        if ok {
          savedCount := savedCount + 1;
        } else {
          errors := errors + 1;
        }
      }
      assert items[..|items|] == items;
    }

    /** _flush_batch at time now: nothing for an empty batch; otherwise
        each record is written in order, a record whose write raises counts
        as an error, and the batch is emptied and its clock restarted. */
    method FlushBatch(now: int)
      modifies this, store
      ensures old(batch) == [] ==>
                batch == [] && lastBatchTime == old(lastBatchTime) && saved == old(saved) &&
                errors == old(errors) && batches == old(batches) && store.State() == old(store.State())
      ensures old(batch) != [] ==>
                var out := SaveAll(old(store.State()), old(batch), entryOf);
                batch == [] && lastBatchTime == now && batches == old(batches) + 1 &&
                store.State() == out.state && saved == old(saved) + out.saved &&
                errors == old(errors) + (|old(batch)| - out.saved)
      ensures received == old(received) && parsed == old(parsed) && running == old(running)
    {
      if batch == [] {
        return;
      }
      var n := SaveRecords(batch);
      saved := saved + n;
      batches := batches + 1;
      batch := [];
      lastBatchTime := now;
    }

    /** The check after _process_log: the batch is flushed exactly when it
        is non-empty and due. */
    method FlushIfDue(now: int)
      modifies this, store
      ensures old(batch) != [] && FlushDue(|old(batch)|, old(lastBatchTime), now) ==>
                var out := SaveAll(old(store.State()), old(batch), entryOf);
                batch == [] && lastBatchTime == now && batches == old(batches) + 1 &&
                store.State() == out.state && saved == old(saved) + out.saved &&
                errors == old(errors) + (|old(batch)| - out.saved)
      ensures !(old(batch) != [] && FlushDue(|old(batch)|, old(lastBatchTime), now)) ==>
                batch == old(batch) && lastBatchTime == old(lastBatchTime) && batches == old(batches) &&
                store.State() == old(store.State()) && saved == old(saved) && errors == old(errors)
      ensures received == old(received) && parsed == old(parsed) && running == old(running)
      ensures batch == [] || !ShouldFlush(now)
    {
      if ShouldFlush(now) {
        FlushBatch(now);
      }
    }

    /** One turn of run's loop: a received datagram is counted and
        processed, and the batch flushed when it is due.  Afterwards the
        batch is never due; every received datagram is saved, counted as
        an error or still in the batch; saved counts the rows written. */
    method Step(t: Tick)
      requires Valid()
      modifies this, store
      ensures Valid()
      ensures t.recv.None? ==> unchanged(this) && unchanged(store)
      ensures t.recv.Some? ==> received == old(received) + 1 && (batch == [] || !ShouldFlush(t.now))
      ensures t.recv.Some? ==>
                var p := ParserManager.Detect(registry.parsers, lib, t.recv.value);
                parsed == old(parsed) + (if p.Some? then 1 else 0) && running == old(running)
      ensures t.recv.Some? ==>
                var p := ParserManager.Detect(registry.parsers, lib, t.recv.value);
                var b := Batched(old(batch), p);
                var e := if p.Some? then old(errors) else old(errors) + 1;
                b != [] && FlushDue(|b|, old(lastBatchTime), t.now) ==>
                  var out := SaveAll(old(store.State()), b, entryOf);
                  batch == [] && lastBatchTime == t.now && batches == old(batches) + 1 &&
                  store.State() == out.state && saved == old(saved) + out.saved &&
                  errors == e + (|b| - out.saved)
      ensures t.recv.Some? ==>
                var p := ParserManager.Detect(registry.parsers, lib, t.recv.value);
                var b := Batched(old(batch), p);
                !(b != [] && FlushDue(|b|, old(lastBatchTime), t.now)) ==>
                  batch == b && lastBatchTime == old(lastBatchTime) && batches == old(batches) &&
                  store.State() == old(store.State()) && saved == old(saved) &&
                  errors == if p.Some? then old(errors) else old(errors) + 1
      ensures saved + errors + |batch| == old(saved + errors + |batch|) + (received - old(received))
      ensures old(store.State()).logs <= store.State().logs
      ensures |store.State().logs| == |old(store.State()).logs| + (saved - old(saved))
    {
      if t.recv.Some? {
        ghost var p := ParserManager.Detect(registry.parsers, lib, t.recv.value);
        received := received + 1;
        ProcessLog(t.recv.value);
        assert batch == Batched(old(batch), p);
        FlushIfDue(t.now);
      }
    }

    /** run, for the datagrams that arrive before stop is called: the
        batch left at the end is flushed at endTime and the worker stops.
        Every received datagram ends up saved or counted as an error, and
        the saved counter grows by the rows written. */
    method Run(ticks: seq<Tick>, endTime: int)
      requires Valid()
      modifies this, store
      ensures batch == [] && !running
      ensures received == old(received) + Received(ticks)
      ensures saved + errors == old(saved + errors + |batch|) + Received(ticks)
      ensures old(store.State()).logs <= store.State().logs
      ensures |store.State().logs| == |old(store.State()).logs| + (saved - old(saved))
    {
      running := true;
      for i := 0 to |ticks|
        invariant Valid()
        invariant received == old(received) + Received(ticks[..i])
        invariant saved + errors + |batch| == old(saved + errors + |batch|) + Received(ticks[..i])
        invariant old(store.State()).logs <= store.State().logs
        invariant |store.State().logs| == |old(store.State()).logs| + (saved - old(saved))
      {
        assert ticks[..i + 1][..i] == ticks[..i];
        Step(ticks[i]);
      }
      assert ticks[..|ticks|] == ticks;
      if batch != [] {
        FlushBatch(endTime);
      }
      running := false;
    }

    /** stop: the main loop ends after its current turn. */
    method Stop()
      modifies this
      ensures !running
      ensures batch == old(batch) && lastBatchTime == old(lastBatchTime)
      ensures received == old(received) && parsed == old(parsed) && saved == old(saved)
      ensures errors == old(errors) && batches == old(batches)
    {
      running := false;
    }
  }
}

=== FILE: linux_parser.dfy ===
/*
 * The syslog line parser (src/parsers/linux_parser.py).  The header regex is
 * read as a scanner over the stripped line: a timestamp in one of three
 * forms, tried in order, then the hostname word, the application name, an
 * optional bracketed pid, a colon, whitespace and the rest of the line.
 * Every greedy repetition in that regex is followed by something its class
 * cannot match, so each repetition takes its maximal run and the only
 * backtracking left is between the three timestamp forms.
 */

module LinuxParser {
  import opened Wrappers
  import opened Text
  import opened Values
  import opened BaseParser

  // ---------------------------------------------------------------------
  // The header

  /** What follows the timestamp: the whitespace runs are kept so that a
      match can be laid back over the line it came from. */
  datatype Tail = Tail(
    gap1: string, hostname: string, gap2: string, appName: string,
    pid: Option<string>, gap3: string, rawMessage: string)

  /** A header match: the timestamp, the tail, and the text after the
      match (empty, or a new line). */
  datatype Header = Header(timestamp: string, tail: Tail, after: string)

  /** The optional `[pid]` in front of rest. */
  function PidOver(pid: Option<string>, rest: string): string {
    if pid.Some? then "[" + (pid.value + ("]" + rest)) else rest
  }

  /** The text a tail covers, followed by rest. */
  function TailOver(t: Tail, rest: string): string {
    t.gap1 + (t.hostname + (t.gap2 + (t.appName +
      PidOver(t.pid, ":" + (t.gap3 + (t.rawMessage + rest))))))
  }

  /** The shape of every tail the header regex matches: whitespace runs,
      a hostname word, an application name without `:`, `[` or whitespace,
      decimal pid digits, and a message without a newline that does not
      start with whitespace. */
  predicate TailOk(t: Tail) {
    t.gap1 != [] && AllIn(t.gap1, Space) &&
    t.hostname != [] && AllIn(t.hostname, Word) &&
    t.gap2 != [] && AllIn(t.gap2, Space) &&
    t.appName != [] && AllIn(t.appName, AppName) &&
    (t.pid.Some? ==> t.pid.value != [] && AllIn(t.pid.value, Digit)) &&
    t.gap3 != [] && AllIn(t.gap3, Space) &&
    AllIn(t.rawMessage, Line) && (t.rawMessage == [] || !IsSpace(t.rawMessage[0]))
  }

  /** The optional `[digits]` after the application name and what follows
      it: None when a `[` is not closed over digits (the match then fails),
      no pid when there is no `[`. */
  function MatchPid(s: string): (r: Option<(Option<string>, string)>)
    ensures r.Some? ==> s == PidOver(r.value.0, r.value.1)
    ensures r.Some? && r.value.0.None? <==> s == [] || s[0] != '['
    ensures r.Some? && r.value.0.Some? ==> r.value.0.value != [] && AllIn(r.value.0.value, Digit)
  {
    if s == [] || s[0] != '[' then Some((None, s))
    else
      var (n, rest) := Take(s[1..], Digit);
      if n != [] && rest != [] && rest[0] == ']' then
        assert s == "[" + s[1..];
        assert rest == "]" + rest[1..];
        Some((Some(n), rest[1..]))
      else None
  }

  /** `:`, whitespace and the message up to the end of the line: the
      whitespace, the message and what follows it. */
  function MatchColon(s: string): (r: Option<(string, string, string)>)
    ensures r.Some? ==> s == ":" + (r.value.0 + (r.value.1 + r.value.2))
    ensures r.Some? ==> r.value.0 != [] && AllIn(r.value.0, Space)
    ensures r.Some? ==> AllIn(r.value.1, Line) && (r.value.1 == [] || !IsSpace(r.value.1[0]))
    ensures r.Some? ==> r.value.2 == [] || r.value.2[0] == '\n'
  {
    if s == [] || s[0] != ':' then None
    else
      var (gap, r1) := Take(s[1..], Space);
      var (msg, rest) := Take(r1, Line);
      SplitFirst(s, gap, msg, rest);
      if gap == [] then None else Some((gap, msg, rest))
  }

  lemma SplitFirst(s: string, gap: string, msg: string, rest: string)
    requires s != [] && s[1..] == gap + (msg + rest)
    ensures s == [s[0]] + (gap + (msg + rest))
  {
    assert s == [s[0]] + s[1..];
  }

  /** The header regex from the whitespace after the timestamp onwards: the
      tail it matches and the text after the match. */
  function MatchTailRest(s: string): (r: Option<(Tail, string)>)
    ensures r.Some? ==> s == TailOver(r.value.0, r.value.1)
    ensures r.Some? ==> TailOk(r.value.0)
    ensures r.Some? ==> r.value.1 == [] || r.value.1[0] == '\n'
  {
    var n := MatchNames(s);
    if n.None? then None
    else
      var (g1, host, g2, app, r4) := n.value;
      var p := MatchPid(r4);
      if p.None? then None
      else
        var c := MatchColon(p.value.1);
        if c.None? then None
        else Some((Tail(g1, host, g2, app, p.value.0, c.value.0, c.value.1), c.value.2))
  }

  /** Whitespace, the hostname, whitespace and the application name, each
      a non-empty maximal run, and the text after them. */
  function MatchNames(s: string): (r: Option<(string, string, string, string, string)>)
    ensures r.Some? ==> s == r.value.0 + (r.value.1 + (r.value.2 + (r.value.3 + r.value.4)))
    ensures r.Some? ==> r.value.0 != [] && AllIn(r.value.0, Space) && r.value.1 != [] && AllIn(r.value.1, Word)
    ensures r.Some? ==> r.value.2 != [] && AllIn(r.value.2, Space) && r.value.3 != [] && AllIn(r.value.3, AppName)
  {
    var (g1, r1) := Take(s, Space);
    var (host, r2) := Take(r1, Word);
    var (g2, r3) := Take(r2, Space);
    var (app, r4) := Take(r3, AppName);
    if g1 == [] || host == [] || g2 == [] || app == [] then None
    else Some((g1, host, g2, app, r4))
  }

  /** The names are read back when a character outside the application
      name class follows them. */
  lemma MatchNamesOf(g1: string, host: string, g2: string, app: string, x: string)
    requires g1 != [] && AllIn(g1, Space) && host != [] && AllIn(host, Word)
    requires g2 != [] && AllIn(g2, Space) && app != [] && AllIn(app, AppName)
    requires x == [] || !InClass(x[0], AppName)
    ensures MatchNames(g1 + (host + (g2 + (app + x)))) == Some((g1, host, g2, app, x))
  {
    TakeOf(g1, host + (g2 + (app + x)), Space);
    TakeOf(host, g2 + (app + x), Word);
    TakeOf(g2, app + x, Space);
    TakeOf(app, x, AppName);
  }

  /** The header regex from the whitespace after the timestamp onwards. */
  function MatchTail(s: string): (r: Option<Tail>)
    ensures r.Some? ==> TailOk(r.value)
  {
    var m := MatchTailRest(s);
    if m.None? then None else Some(m.value.0)
  }

  /** A pid of digits, or none, is read back in front of the colon. */
  lemma MatchPidOf(pid: Option<string>, y: string)
    requires pid.Some? ==> pid.value != [] && AllIn(pid.value, Digit)
    requires y != [] && y[0] == ':'
    ensures MatchPid(PidOver(pid, y)) == Some((pid, y))
  {
    if pid.Some? {
      var x := PidOver(pid, y);
      assert x[1..] == pid.value + ("]" + y);
      TakeOf(pid.value, "]" + y, Digit);
      MatchPidOfSome(x, pid.value, "]" + y, y);
    }
  }

  lemma MatchPidOfSome(s: string, n: string, rest: string, y: string)
    requires s != [] && s[0] == '[' && Take(s[1..], Digit) == (n, rest)
    requires n != [] && rest == "]" + y
    ensures MatchPid(s) == Some((Some(n), y))
  {
    assert rest[1..] == y;
  }

  /** The colon, whitespace and message are read back from their text. */
  lemma MatchColonOf(gap: string, msg: string, rest: string)
    requires gap != [] && AllIn(gap, Space)
    requires AllIn(msg, Line) && (msg == [] || !IsSpace(msg[0]))
    requires rest == [] || (rest[0] == '\n' && msg != [])
    ensures MatchColon(":" + (gap + (msg + rest))) == Some((gap, msg, rest))
  {
    var y := ":" + (gap + (msg + rest));
    assert y[1..] == gap + (msg + rest);
    TakeOf(gap, msg + rest, Space);
    TakeOf(msg, rest, Line);
  }

  /** Every tail of the regex's shape is matched back from the text it
      covers, when the text ends there or a new line follows a message. */
  lemma MatchTailOf(t: Tail, rest: string)
    requires TailOk(t)
    requires rest == [] || (rest[0] == '\n' && t.rawMessage != [])
    ensures MatchTailRest(TailOver(t, rest)) == Some((t, rest))
  {
    var y := ":" + (t.gap3 + (t.rawMessage + rest));
    MatchNamesOf(t.gap1, t.hostname, t.gap2, t.appName, PidOver(t.pid, y));
    MatchPidOf(t.pid, y);
    MatchColonOf(t.gap3, t.rawMessage, rest);
  }

  /** The ISO alternative: digits `dddd-dd-dd`, whitespace, `dd:dd:dd`, then
      a run of digits and dots and a run of zone characters.  The length it
      covers, or None. */
  function IsoEnd(s: string): (r: Option<nat>)
    ensures r.Some? ==> 19 <= r.value <= |s|
    ensures r.Some? ==> AllIn(s[..4], Digit) && s[4] == '-' && s[7] == '-'
  {
    if |s| < 10 || !AllIn(s[..4], Digit) || s[4] != '-' || !AllIn(s[5..7], Digit) ||
       s[7] != '-' || !AllIn(s[8..10], Digit) then None
    else
      var w := Run(s[10..], Space);
      var t := 10 + w;
      if w == 0 || |s| < t + 8 || !AllIn(s[t..t + 2], Digit) || s[t + 2] != ':' ||
         !AllIn(s[t + 3..t + 5], Digit) || s[t + 5] != ':' || !AllIn(s[t + 6..t + 8], Digit) then None
      else
        var f := Run(s[t + 8..], DotDigit);
        var z := Run(s[t + 8 + f..], Zone);
        Some(t + 8 + f + z)
  }

  /** The ISO alternative split off the front of s. */
  function IsoStamp(s: string): (r: Option<(string, string)>)
    ensures r.Some? ==> s == r.value.0 + r.value.1 && |r.value.0| >= 19
  {
    var n := IsoEnd(s);
    if n.None? then None
    else
      assert s == s[..n.value] + s[n.value..];
      Some((s[..n.value], s[n.value..]))
  }

  /** The BSD alternative: three words separated by whitespace, split off
      the front of s; the third word runs up to whitespace or the end. */
  function ThreeWords(s: string): (r: Option<(string, string)>)
    ensures r.Some? ==> s == r.value.0 + r.value.1 && r.value.0 != []
    ensures r.Some? ==> r.value.1 == [] || IsSpace(r.value.1[0])
  {
    var (a, r1) := Take(s, Word);
    var (b, r2) := Take(r1, Space);
    var (c, r3) := Take(r2, Word);
    var (d, r4) := Take(r3, Space);
    var (e, r5) := Take(r4, Word);
    if a == [] || b == [] || c == [] || d == [] || e == [] then None
    else
      ConcatAssoc(d, e, r5);
      ConcatAssoc(c, d + e, r5);
      ConcatAssoc(b, c + (d + e), r5);
      ConcatAssoc(a, b + (c + (d + e)), r5);
      Some((a + (b + (c + (d + e))), r5))
  }

  /** The fallback alternative: one word split off the front of s. */
  function OneWord(s: string): (r: Option<(string, string)>)
    ensures r.Some? ==> s == r.value.0 + r.value.1 && r.value.0 != []
  {
    var (w, rest) := Take(s, Word);
    if w == [] then None else Some((w, rest))
  }

  /** The tail matched after a timestamp split off the front of s. */
  function TailAfter(s: string, ts: Option<(string, string)>): (r: Option<Header>)
    requires ts.Some? ==> s == ts.value.0 + ts.value.1 && ts.value.0 != []
    ensures r.Some? ==> ts.Some? && r.value.timestamp == ts.value.0
    ensures r.Some? ==> s == r.value.timestamp + TailOver(r.value.tail, r.value.after)
    ensures r.Some? ==> TailOk(r.value.tail) && (r.value.after == [] || r.value.after[0] == '\n')
  {
    if ts.None? then None
    else
      var m := MatchTailRest(ts.value.1);
      if m.None? then None else Some(Header(ts.value.0, m.value.0, m.value.1))
  }

  /** header_pattern.match(s): the ISO form, else the three-word form, else
      one word; a form is abandoned when the rest of the header does not
      match after it.  A match lays a non-empty timestamp and a tail of the
      regex's shape over s, up to the end of s or of its first line. */
  function MatchHeader(s: string): (r: Option<Header>)
    ensures r.Some? ==> s == r.value.timestamp + TailOver(r.value.tail, r.value.after)
    ensures r.Some? ==> r.value.timestamp != [] && TailOk(r.value.tail)
    ensures r.Some? ==> r.value.after == [] || r.value.after[0] == '\n'
  {
    var iso := TailAfter(s, IsoStamp(s));
    if iso.Some? then iso
    else
      var bsd := TailAfter(s, ThreeWords(s));
      if bsd.Some? then bsd else TailAfter(s, OneWord(s))
  }

  /** The three words in front of a whitespace run are split off as one. */
  lemma ThreeWordsOf(w1: string, g1: string, w2: string, g2: string, w3: string, x: string)
    requires w1 != [] && AllIn(w1, Word) && g1 != [] && AllIn(g1, Space)
    requires w2 != [] && AllIn(w2, Word) && g2 != [] && AllIn(g2, Space)
    requires w3 != [] && AllIn(w3, Word) && (x == [] || IsSpace(x[0]))
    ensures ThreeWords(w1 + (g1 + (w2 + (g2 + (w3 + x))))) == Some((w1 + (g1 + (w2 + (g2 + w3))), x))
  {
    TakeOf(w1, g1 + (w2 + (g2 + (w3 + x))), Word);
    TakeOf(g1, w2 + (g2 + (w3 + x)), Space);
    TakeOf(w2, g2 + (w3 + x), Word);
    TakeOf(g2, w3 + x, Space);
    TakeOf(w3, x, Word);
  }

  /** A line that does not start with a digit has no ISO timestamp. */
  lemma NotIso(s: string)
    requires s != [] && !IsDigit(s[0])
    ensures IsoStamp(s).None?
  {
    if |s| >= 4 {
      assert s[..4][0] == s[0];
    }
  }

  /** Once the ISO form fails and the three-word form leaves a matching
      tail, the header is the three-word one. */
  lemma MatchHeaderOfThree(s: string, ts: string, x: string, h: (Tail, string))
    requires IsoStamp(s).None? && ThreeWords(s) == Some((ts, x))
    requires MatchTailRest(x) == Some(h)
    ensures MatchHeader(s) == Some(Header(ts, h.0, h.1))
  {
    TailAfterThree(s, ts, x, h);
    HeaderOfForms(s, Header(ts, h.0, h.1));
  }

  lemma TailAfterThree(s: string, ts: string, x: string, h: (Tail, string))
    requires ThreeWords(s) == Some((ts, x)) && MatchTailRest(x) == Some(h)
    ensures TailAfter(s, ThreeWords(s)) == Some(Header(ts, h.0, h.1))
  {
  }

  lemma HeaderOfForms(s: string, hd: Header)
    requires IsoStamp(s).None? && TailAfter(s, ThreeWords(s)) == Some(hd)
    ensures MatchHeader(s) == Some(hd)
  {
  }

  /** A BSD header (three words, the first not starting with a digit, so
      that the ISO form cannot apply) followed by a tail of the regex's
      shape is matched with the three words as its timestamp. */
  lemma MatchHeaderOfWords(w1: string, g1: string, w2: string, g2: string, w3: string,
                           t: Tail, rest: string)
    requires w1 != [] && AllIn(w1, Word) && !IsDigit(w1[0])
    requires g1 != [] && AllIn(g1, Space) && w2 != [] && AllIn(w2, Word)
    requires g2 != [] && AllIn(g2, Space) && w3 != [] && AllIn(w3, Word)
    requires TailOk(t)
    requires rest == [] || (rest[0] == '\n' && t.rawMessage != [])
    ensures MatchHeader(w1 + (g1 + (w2 + (g2 + (w3 + TailOver(t, rest))))))
         == Some(Header(w1 + (g1 + (w2 + (g2 + w3))), t, rest))
  {
    var x := TailOver(t, rest);
    var s := w1 + (g1 + (w2 + (g2 + (w3 + x))));
    assert s[0] == w1[0];
    NotIso(s);
    assert x[0] == t.gap1[0];
    ThreeWordsOf(w1, g1, w2, g2, w3, x);
    MatchTailOf(t, rest);
    MatchHeaderOfThree(s, w1 + (g1 + (w2 + (g2 + w3))), x, (t, rest));
  }

  // ---------------------------------------------------------------------
  // SSH enrichment

  datatype Ssh = Ssh(action: string, user: string, ip: string)

  /** The user word, whitespace, `from`, whitespace and the address word. */
  function UserFrom(s: string): (r: Option<(string, string)>)
    ensures r.Some? ==> r.value.0 != [] && AllIn(r.value.0, Word)
    ensures r.Some? ==> r.value.1 != [] && AllIn(r.value.1, Word)
  {
    var (user, r1) := Take(s, Word);
    var (gap, r2) := Take(r1, Space);
    var f := Literal(r2, "from");
    if user == [] || gap == [] || f.None? then None
    else
      var (ip, _) := Take(f.value.1, Word);
      if ip == [] then None else Some((user, ip))
  }

  /** The optional `invalid user` prefix, then the user and the address:
      the prefix is taken when the rest matches after it, and otherwise the
      match is tried without it. */
  function UserPart(s: string): (r: Option<(string, string)>)
    ensures r.Some? ==> r.value.0 != [] && AllIn(r.value.0, Word)
    ensures r.Some? ==> r.value.1 != [] && AllIn(r.value.1, Word)
  {
    var inv := Literal(s, "invalid");
    var usr := if inv.Some? then Literal(inv.value.1, "user") else None;
    var withPrefix := if usr.Some? then UserFrom(usr.value.1) else None;
    if withPrefix.Some? then withPrefix else UserFrom(s)
  }

  /** One of two alternative words at the start of s, each followed by
      whitespace, the first tried first: the word, the run and the rest. */
  function Either(s: string, w1: string, w2: string): (r: Option<(string, string, string)>)
    ensures r.Some? ==> r.value.0 in {w1, w2} && s == r.value.0 + (r.value.1 + r.value.2)
    ensures r.Some? ==> r.value.1 != [] && AllIn(r.value.1, Space)
  {
    var a := Literal(s, w1);
    if a.Some? then Some((w1, a.value.0, a.value.1))
    else
      var b := Literal(s, w2);
      if b.Some? then Some((w2, b.value.0, b.value.1)) else None
  }

  /** The SSH pattern anchored at the start of s: the action, the method,
      `for`, an optional `invalid user`, the user and `from` the address,
      each pair separated by whitespace. */
  function SshAt(s: string): (r: Option<Ssh>)
    ensures r.Some? ==> r.value.action in {"Accepted", "Failed"} && r.value.action <= s && s != []
    ensures r.Some? ==> r.value.user != [] && AllIn(r.value.user, Word)
    ensures r.Some? ==> r.value.ip != [] && AllIn(r.value.ip, Word)
  {
    var a := Either(s, "Accepted", "Failed");
    if a.None? then None
    else
      var m := Either(a.value.2, "password", "publickey");
      if m.None? then None
      else
        var f := Literal(m.value.2, "for");
        if f.None? then None
        else
          var found := UserPart(f.value.1);
          if found.None? then None else Some(Ssh(a.value.0, found.value.0, found.value.1))
  }

  /** The text of an SSH event with one kind of whitespace run between its
      words, optionally with the `invalid user` prefix, followed by rest. */
  function SshOver(e: Ssh, via: string, invalid: bool, gap: string, rest: string): string {
    e.action + (gap + (via + (gap + ("for" + (gap + UserOver(e, invalid, gap, rest))))))
  }

  /** The user part of an SSH event text. */
  function UserOver(e: Ssh, invalid: bool, gap: string, rest: string): string {
    var tail := e.user + (gap + ("from" + (gap + (e.ip + rest))));
    if invalid then "invalid" + (gap + ("user" + (gap + tail))) else tail
  }

  /** The user and address after `from` are read back. */
  lemma UserFromOf(user: string, gap: string, ip: string, rest: string)
    requires user != [] && AllIn(user, Word) && ip != [] && AllIn(ip, Word)
    requires gap != [] && AllIn(gap, Space)
    requires rest == [] || IsSpace(rest[0])
    ensures UserFrom(user + (gap + ("from" + (gap + (ip + rest))))) == Some((user, ip))
  {
    TakeOf(user, gap + ("from" + (gap + (ip + rest))), Word);
    TakeOf(gap, "from" + (gap + (ip + rest)), Space);
    LiteralOf("from", gap, ip + rest);
    TakeOf(ip, rest, Word);
  }

  /** The user part is read back with or without the prefix. */
  lemma UserPartOf(e: Ssh, invalid: bool, gap: string, rest: string)
    requires e.user != [] && AllIn(e.user, Word) && e.ip != [] && AllIn(e.ip, Word)
    requires gap != [] && AllIn(gap, Space)
    requires rest == [] || IsSpace(rest[0])
    ensures UserPart(UserOver(e, invalid, gap, rest)) == Some((e.user, e.ip))
  {
    var x := "from" + (gap + (e.ip + rest));
    var tail := e.user + (gap + x);
    UserFromOf(e.user, gap, e.ip, rest);
    if invalid {
      WithPrefix(gap, tail);
    } else {
      NoPrefix(e.user, gap, x);
    }
  }

  /** The `invalid user` prefix is skipped. */
  lemma WithPrefix(gap: string, tail: string)
    requires gap != [] && AllIn(gap, Space) && (tail == [] || !IsSpace(tail[0]))
    ensures var inv := Literal("invalid" + (gap + ("user" + (gap + tail))), "invalid");
            inv.Some? && Literal(inv.value.1, "user") == Some((gap, tail))
  {
    LiteralOf("invalid", gap, "user" + (gap + tail));
    LiteralOf("user", gap, tail);
  }

  /** Without the prefix, a user that happens to be named `invalid` is
      still the user, since `from` and not `user` follows it. */
  lemma NoPrefix(user: string, gap: string, x: string)
    requires user != [] && AllIn(user, Word) && gap != [] && AllIn(gap, Space)
    requires "from" <= x
    ensures var inv := Literal(user + (gap + x), "invalid");
            inv.None? || Literal(inv.value.1, "user").None?
  {
    var inv := Literal(user + (gap + x), "invalid");
    if inv.Some? {
      NotInvalidUser(user, gap, x, inv.value.0, inv.value.1);
    }
  }

  lemma NotInvalidUser(user: string, gap: string, x: string, g: string, r: string)
    requires user != [] && AllIn(user, Word) && gap != [] && AllIn(gap, Space)
    requires "from" <= x
    requires g != [] && AllIn(g, Space) && (r == [] || !IsSpace(r[0]))
    requires user + (gap + x) == "invalid" + (g + r)
    ensures Literal(r, "user").None?
  {
    assert (g + r)[0] == g[0] && (gap + x)[0] == gap[0];
    RunSplitUnique("invalid", g + r, user, gap + x, Word);
    assert x[0] == 'f';
    RunSplitUnique(g, r, gap, x, Space);
    LiteralAbsent(r, "user");
  }

  /** Every SSH event text is matched with its action, user and address; in
      particular an `invalid user` prefix is never taken into the user. */
  lemma SshAtOf(e: Ssh, via: string, invalid: bool, gap: string, rest: string)
    requires e.action in {"Accepted", "Failed"} && via in {"password", "publickey"}
    requires e.user != [] && AllIn(e.user, Word) && e.ip != [] && AllIn(e.ip, Word)
    requires gap != [] && AllIn(gap, Space)
    requires rest == [] || IsSpace(rest[0])
    ensures SshAt(SshOver(e, via, invalid, gap, rest)) == Some(e)
  {
    var s3 := UserOver(e, invalid, gap, rest);
    var s2 := "for" + (gap + s3);
    var s1 := via + (gap + s2);
    ActionOf(e.action, gap, s1);
    MethodOf(via, gap, s2);
    LiteralOf("for", gap, s3);
    UserPartOf(e, invalid, gap, rest);
    SshAtOfParts(SshOver(e, via, invalid, gap, rest), e, gap, s1, via, s2, s3);
  }

  /** SshAt reads its four stages in turn. */
  lemma SshAtOfParts(s: string, e: Ssh, gap: string, s1: string, via: string, s2: string, s3: string)
    requires Either(s, "Accepted", "Failed") == Some((e.action, gap, s1))
    requires Either(s1, "password", "publickey") == Some((via, gap, s2))
    requires Literal(s2, "for") == Some((gap, s3))
    requires UserPart(s3) == Some((e.user, e.ip))
    ensures SshAt(s) == Some(e)
  {
  }

  /** Either action word is read back. */
  lemma ActionOf(action: string, gap: string, s1: string)
    requires action in {"Accepted", "Failed"}
    requires gap != [] && AllIn(gap, Space)
    requires s1 == [] || !IsSpace(s1[0])
    ensures Either(action + (gap + s1), "Accepted", "Failed") == Some((action, gap, s1))
  {
    var s := action + (gap + s1);
    LiteralOf(action, gap, s1);
    if action == "Failed" {
      assert s[0] == 'F';
    }
  }

  /** Either authentication method is read back. */
  lemma MethodOf(via: string, gap: string, s2: string)
    requires via in {"password", "publickey"}
    requires gap != [] && AllIn(gap, Space)
    requires s2 == [] || !IsSpace(s2[0])
    ensures Either(via + (gap + s2), "password", "publickey") == Some((via, gap, s2))
  {
    var s1 := via + (gap + s2);
    LiteralOf(via, gap, s2);
    if via == "publickey" {
      assert s1[1] == 'u';
    }
  }

  /** ssh_pattern.search(s): the first occurrence of the pattern. */
  function SshSearch(s: string): (r: Option<Ssh>)
    ensures r.Some? ==> SshFirst(s, r.value)
    ensures r.None? ==> forall k :: 0 <= k <= |s| ==> SshAt(s[k..]).None?
  {
    var k := FirstSuffix(s, 0, t => SshAt(t).Some?);
    if k.None? then None else SshAt(s[k.value..])
  }

  /** The SSH pattern occurs in s, and e is its first occurrence. */
  predicate SshFirst(s: string, e: Ssh) {
    exists k :: 0 <= k <= |s| && SshAt(s[k..]) == Some(e) &&
      forall j :: 0 <= j < k ==> SshAt(s[j..]).None?
  }

  // ---------------------------------------------------------------------
  // can_parse, parse, enrich

  /** The nginx guard of can_parse: four dot-separated groups of one to
      three digits, then whitespace and `-`. */
  predicate LooksLikeNginx(s: string) {
    var p := QuadEnd(s);
    p.Some? && 0 < Run(s[p.value..], Space) && p.value + Run(s[p.value..], Space) < |s| &&
    s[p.value + Run(s[p.value..], Space)] == '-'
  }

  /** The groupdict of a header match. */
  function HeaderRecord(h: Header): (r: Record)
    ensures r.Keys == {"timestamp", "hostname", "app_name", "pid", "raw_message"}
    ensures r["hostname"] == Str(h.tail.hostname) && r["app_name"] == Str(h.tail.appName)
    ensures r["raw_message"] == Str(h.tail.rawMessage) && r["timestamp"] == Str(h.timestamp)
    ensures r["pid"] == (if h.tail.pid.Some? then Str(h.tail.pid.value) else Null)
  {
    map["timestamp" := Str(h.timestamp), "hostname" := Str(h.tail.hostname),
        "app_name" := Str(h.tail.appName),
        "pid" := (if h.tail.pid.Some? then Str(h.tail.pid.value) else Null),
        "raw_message" := Str(h.tail.rawMessage)]
  }

  /** int(parsed["pid"]) when the pid is truthy, None where int() raises. */
  function ConvertPid(r: Record): (q: Record)
    ensures q.Keys == r.Keys
    ensures forall k :: k in r && k != "pid" ==> q[k] == r[k]
    ensures "pid" in r && r["pid"].Str? && r["pid"].s != [] && AllDigits(r["pid"].s) ==>
              q["pid"] == Int(DigitsValue(r["pid"].s))
    ensures "pid" in r && !Truthy(r["pid"]) ==> q["pid"] == r["pid"]
  {
    if Truthy(Get(r, "pid")) then r["pid" := IntOrNull(r["pid"])] else r
  }

  const SshKeys: set<string> := {"ssh_action", "ssh_user", "ssh_ip"}

  /** parsed_data.update(ssh_data). */
  function WithSsh(r: Record, e: Ssh): (q: Record)
    ensures q.Keys == r.Keys + SshKeys
    ensures q["ssh_action"] == Str(e.action) && q["ssh_user"] == Str(e.user) && q["ssh_ip"] == Str(e.ip)
    ensures forall k :: k in r && k !in SshKeys ==> q[k] == r[k]
  {
    r["ssh_action" := Str(e.action)]["ssh_user" := Str(e.user)]["ssh_ip" := Str(e.ip)]
  }

  /** The message enrich searches: raw_message, or "" when it is absent. */
  function Message(r: Record): (m: string)
    requires "raw_message" in r ==> r["raw_message"].Str?
    ensures "raw_message" !in r ==> m == []
  {
    GetOr(r, "raw_message", Str("")).s
  }

  /** LinuxParser.enrich: the SSH fields of the first occurrence of the
      pattern are merged when the application is exactly sshd and the
      message is non-empty; otherwise the record comes back unchanged. */
  function Enrich(r: Record): (q: Record)
    requires "raw_message" in r ==> r["raw_message"].Str?
    ensures GetOr(r, "app_name", Str("")) != Str("sshd") || Message(r) == [] ==> q == r
    ensures (forall k :: 0 <= k <= |Message(r)| ==> SshAt(Message(r)[k..]).None?) ==> q == r
    ensures q.Keys <= r.Keys + SshKeys
    ensures forall k :: k in r && k !in SshKeys ==> k in q && q[k] == r[k]
    ensures GetOr(r, "app_name", Str("")) == Str("sshd") && Message(r) != [] &&
            (exists k :: 0 <= k <= |Message(r)| && SshAt(Message(r)[k..]).Some?) ==>
              exists e :: SshFirst(Message(r), e) && q == WithSsh(r, e)
  {
    var msg := Message(r);
    if GetOr(r, "app_name", Str("")) == Str("sshd") && msg != [] then
      var m := SshSearch(msg);
      if m.Some? then WithSsh(r, m.value) else r
    else r
  }

  /** The record parse builds from a header match before enrich: the
      groups, the metadata and the pid as an integer. */
  function PidRecord(h: Header, meta: Metadata): (q: Record)
    requires TailOk(h.tail)
    ensures q.Keys == ParsedKeys
    ensures q["timestamp"] == Str(h.timestamp) && q["hostname"] == Str(h.tail.hostname)
    ensures q["app_name"] == Str(h.tail.appName) && q["raw_message"] == Str(h.tail.rawMessage)
    ensures q["pid"] == (if h.tail.pid.Some? then Int(DigitsValue(h.tail.pid.value)) else Null)
    ensures q["recv_time"] == meta.recvTime && q["src_ip"] == meta.srcIp
  {
    var p0 := HeaderRecord(h);
    var p1 := WithMetadata(p0, meta);
    var q := ConvertPid(p1);
    PidFields(h, meta, p0, p1, q);
    q
  }

  /** The fields of PidRecord, from the contracts of its three steps. */
  lemma PidFields(h: Header, meta: Metadata, p0: Record, p1: Record, q: Record)
    requires TailOk(h.tail)
    requires p0.Keys == {"timestamp", "hostname", "app_name", "pid", "raw_message"}
    requires p0["hostname"] == Str(h.tail.hostname) && p0["app_name"] == Str(h.tail.appName)
    requires p0["raw_message"] == Str(h.tail.rawMessage) && p0["timestamp"] == Str(h.timestamp)
    requires p0["pid"] == (if h.tail.pid.Some? then Str(h.tail.pid.value) else Null)
    requires p1.Keys == p0.Keys + {"recv_time", "src_ip"}
    requires p1["recv_time"] == meta.recvTime && p1["src_ip"] == meta.srcIp
    requires forall k :: k in p0 && k != "recv_time" && k != "src_ip" ==> p1[k] == p0[k]
    requires q.Keys == p1.Keys
    requires forall k :: k in p1 && k != "pid" ==> q[k] == p1[k]
    requires "pid" in p1 && p1["pid"].Str? && p1["pid"].s != [] && AllDigits(p1["pid"].s) ==>
               q["pid"] == Int(DigitsValue(p1["pid"].s))
    requires "pid" in p1 && !Truthy(p1["pid"]) ==> q["pid"] == p1["pid"]
    ensures q.Keys == ParsedKeys
    ensures q["timestamp"] == Str(h.timestamp) && q["hostname"] == Str(h.tail.hostname)
    ensures q["app_name"] == Str(h.tail.appName) && q["raw_message"] == Str(h.tail.rawMessage)
    ensures q["pid"] == (if h.tail.pid.Some? then Int(DigitsValue(h.tail.pid.value)) else Null)
    ensures q["recv_time"] == meta.recvTime && q["src_ip"] == meta.srcIp
  {
    assert p1["pid"] == p0["pid"];
    assert h.tail.pid.Some? ==> AllDigits(h.tail.pid.value);
  }

  /** The keys of a parsed record before enrich. */
  const ParsedKeys: set<string> :=
    {"timestamp", "hostname", "app_name", "pid", "raw_message", "recv_time", "src_ip"}

  /** Enrich cannot overwrite a parsed field. */
  lemma KeysDisjoint()
    ensures ParsedKeys !! SshKeys
  {
  }

  /** LinuxParser.parse with the registry's metadata: None exactly when the
      header does not match the stripped line; otherwise the header's
      groups, the metadata and the pid as an integer, which enrich keeps. */
  function Parse(line: string, meta: Metadata): (r: Option<Record>)
    ensures r.None? <==> MatchHeader(Strip(line)).None?
    ensures r.Some? ==>
              var h := MatchHeader(Strip(line)).value;
              var q := r.value;
              ParsedKeys <= q.Keys <= ParsedKeys + SshKeys &&
              q["timestamp"] == Str(h.timestamp) && q["hostname"] == Str(h.tail.hostname) &&
              q["app_name"] == Str(h.tail.appName) && q["raw_message"] == Str(h.tail.rawMessage) &&
              q["pid"] == (if h.tail.pid.Some? then Int(DigitsValue(h.tail.pid.value)) else Null) &&
              q["recv_time"] == meta.recvTime && q["src_ip"] == meta.srcIp
  {
    var h := MatchHeader(Strip(line));
    if h.None? then None
    else
      var p := PidRecord(h.value, meta);
      KeysDisjoint();
      Some(Enrich(p))
  }

  /** The SSH fields of a parsed line: those of the first occurrence of the
      pattern in the message when the application is sshd, and none
      otherwise. */
  lemma ParseSsh(h: Header, meta: Metadata)
    requires TailOk(h.tail)
    ensures var q := Enrich(PidRecord(h, meta));
            var msg := h.tail.rawMessage;
            if h.tail.appName == "sshd" && exists k :: 0 <= k <= |msg| && SshAt(msg[k..]).Some?
            then exists e :: SshFirst(msg, e) && SshKeys <= q.Keys &&
                   q["ssh_action"] == Str(e.action) && q["ssh_user"] == Str(e.user) && q["ssh_ip"] == Str(e.ip)
            else q.Keys == ParsedKeys
  {
    var p := PidRecord(h, meta);
    var q := Enrich(p);
    var msg := h.tail.rawMessage;
    assert Message(p) == msg;
    if h.tail.appName == "sshd" && exists k :: 0 <= k <= |msg| && SshAt(msg[k..]).Some? {
      var k :| 0 <= k <= |msg| && SshAt(msg[k..]).Some?;
      assert msg[k..] != [];
      var e :| SshFirst(msg, e) && q == WithSsh(p, e);
      assert q["ssh_action"] == Str(e.action);
    } else {
      assert q == p;
    }
  }

  /** When the pattern matches at the very start, that match is the first. */
  lemma SshFirstAtStart(s: string, e: Ssh)
    requires SshAt(s).Some? && SshFirst(s, e)
    ensures e == SshAt(s).value
  {
    var k :| 0 <= k <= |s| && SshAt(s[k..]) == Some(e) &&
      forall j :: 0 <= j < k ==> SshAt(s[j..]).None?;
    if k > 0 {
      assert false;
    }
    assert s[k..] == s;
  }

  /** LinuxParser.can_parse: never for a stripped line that starts with `{`
      or with a dotted quad, whitespace and `-`; otherwise exactly when the
      header matches. */
  function CanParse(line: string): (b: bool)
    ensures var s := Strip(line); s != [] && s[0] == '{' ==> !b
    ensures LooksLikeNginx(Strip(line)) ==> !b
    ensures var s := Strip(line);
            !(s != [] && s[0] == '{') && !LooksLikeNginx(s) ==> (b <==> MatchHeader(s).Some?)
  {
    var s := Strip(line);
    !(s != [] && s[0] == '{') && !LooksLikeNginx(s) && MatchHeader(s).Some?
  }

  /** A line can_parse accepts is parsed, into a non-empty record. */
  lemma AcceptedNonEmpty(line: string, meta: Metadata)
    requires CanParse(line)
    ensures Parse(line, meta).Some? && Parse(line, meta).value != map[]
  {
    assert "recv_time" in Parse(line, meta).value;
  }

  // ---------------------------------------------------------------------
  // sshd login lines

  /** An SSH event text keeps to one line when its gaps and its trailing
      text do. */
  lemma SshOverLine(e: Ssh, via: string, invalid: bool, gap: string, more: string)
    requires AllIn(e.user, Word) && AllIn(e.ip, Word)
    requires AllIn(gap, Line) && AllIn(more, Line)
    requires via in {"password", "publickey"} && e.action in {"Accepted", "Failed"}
    ensures AllIn(SshOver(e, via, invalid, gap, more), Line)
  {
    assert AllIn(e.user, Line) && AllIn(e.ip, Line);
    AllInConcat(e.ip, more, Line);
    AllInConcat(gap, e.ip + more, Line);
    AllInConcat("from", gap + (e.ip + more), Line);
    AllInConcat(gap, "from" + (gap + (e.ip + more)), Line);
    var tail := e.user + (gap + ("from" + (gap + (e.ip + more))));
    AllInConcat(e.user, gap + ("from" + (gap + (e.ip + more))), Line);
    AllInConcat(gap, tail, Line);
    AllInConcat("user", gap + tail, Line);
    AllInConcat(gap, "user" + (gap + tail), Line);
    AllInConcat("invalid", gap + ("user" + (gap + tail)), Line);
    var u := UserOver(e, invalid, gap, more);
    AllInConcat(gap, u, Line);
    AllInConcat("for", gap + u, Line);
    AllInConcat(gap, "for" + (gap + u), Line);
    AllInConcat(via, gap + ("for" + (gap + u)), Line);
    AllInConcat(gap, via + (gap + ("for" + (gap + u))), Line);
    AllInConcat(e.action, gap + (via + (gap + ("for" + (gap + u)))), Line);
  }

  /** The tail of an sshd line whose message is an SSH event has the
      shape the header regex matches. */
  lemma SshdTailOk(host: string, pid: string, e: Ssh, via: string,
                   invalid: bool, gap: string, more: string)
    requires host != [] && AllIn(host, Word) && pid != [] && AllIn(pid, Digit)
    requires e.action in {"Accepted", "Failed"} && via in {"password", "publickey"}
    requires e.user != [] && AllIn(e.user, Word) && e.ip != [] && AllIn(e.ip, Word)
    requires gap != [] && AllIn(gap, Space) && AllIn(gap, Line) && AllIn(more, Line)
    ensures TailOk(Tail(gap, host, gap, "sshd", Some(pid), gap, SshOver(e, via, invalid, gap, more)))
  {
    var msg := SshOver(e, via, invalid, gap, more);
    SshOverLine(e, via, invalid, gap, more);
    assert msg[0] == e.action[0];
  }

  /** A BSD-stamped sshd line whose message is an SSH event is parsed with
      its host, pid and timestamp, and with the event's action, user and
      address; the failed login of scripts/send_malicious_logs.py is the
      instance Dec, 6, 10:00:03, linux-server, 1234, Failed, password,
      invalid user admin, 192.168.1.100, followed by ` port 22 ssh2`. */
  lemma SshdLineParsed(line: string, meta: Metadata, w1: string, g1: string, w2: string,
                       w3: string, host: string, pid: string, e: Ssh, via: string,
                       invalid: bool, gap: string, more: string)
    requires w1 != [] && AllIn(w1, Word) && !IsDigit(w1[0])
    requires g1 != [] && AllIn(g1, Space) && w2 != [] && AllIn(w2, Word) && w3 != [] && AllIn(w3, Word)
    requires host != [] && AllIn(host, Word) && pid != [] && AllIn(pid, Digit)
    requires e.action in {"Accepted", "Failed"} && via in {"password", "publickey"}
    requires e.user != [] && AllIn(e.user, Word) && e.ip != [] && AllIn(e.ip, Word)
    requires gap != [] && AllIn(gap, Space) && AllIn(gap, Line)
    requires (more == [] || IsSpace(more[0])) && AllIn(more, Line)
    requires Strip(line) == w1 + (g1 + (w2 + (gap + (w3 + TailOver(
               Tail(gap, host, gap, "sshd", Some(pid), gap, SshOver(e, via, invalid, gap, more)), [])))))
    ensures var r := Parse(line, meta);
            r.Some? && var q := r.value;
            Get(q, "timestamp") == Str(w1 + (g1 + (w2 + (gap + w3)))) &&
            Get(q, "hostname") == Str(host) && Get(q, "app_name") == Str("sshd") &&
            Get(q, "pid") == Int(DigitsValue(pid)) && Get(q, "ssh_action") == Str(e.action) &&
            Get(q, "ssh_user") == Str(e.user) && Get(q, "ssh_ip") == Str(e.ip)
  {
    var msg := SshOver(e, via, invalid, gap, more);
    var t := Tail(gap, host, gap, "sshd", Some(pid), gap, msg);
    SshdTailOk(host, pid, e, via, invalid, gap, more);
    MatchHeaderOfWords(w1, g1, w2, gap, w3, t, []);
    SshAtOf(e, via, invalid, gap, more);
    ParsedSshAtStart(line, meta, Header(w1 + (g1 + (w2 + (gap + w3))), t, []), e);
  }

  /** A header whose message starts with an SSH event gives that event's
      fields. */
  lemma ParsedSshAtStart(line: string, meta: Metadata, h: Header, e: Ssh)
    requires MatchHeader(Strip(line)) == Some(h) && TailOk(h.tail)
    requires h.tail.appName == "sshd" && SshAt(h.tail.rawMessage) == Some(e)
    ensures var r := Parse(line, meta);
            r.Some? && var q := r.value;
            Get(q, "timestamp") == Str(h.timestamp) &&
            Get(q, "hostname") == Str(h.tail.hostname) && Get(q, "app_name") == Str("sshd") &&
            Get(q, "pid") == (if h.tail.pid.Some? then Int(DigitsValue(h.tail.pid.value)) else Null) &&
            Get(q, "ssh_action") == Str(e.action) &&
            Get(q, "ssh_user") == Str(e.user) && Get(q, "ssh_ip") == Str(e.ip)
  {
    var msg := h.tail.rawMessage;
    assert msg[0..] == msg;
    ParseSsh(h, meta);
    var q := Parse(line, meta).value;
    var e' :| SshFirst(msg, e') && q["ssh_action"] == Str(e'.action) &&
      q["ssh_user"] == Str(e'.user) && q["ssh_ip"] == Str(e'.ip);
    SshFirstAtStart(msg, e');
  }
}

=== FILE: nginx_parser.dfy ===
/*
 * The nginx access-log parser (src/parsers/ngnix_parser.py): the combined
 * log format pattern access_pattern, can_parse, parse and enrich.
 *
 * access_pattern is matched at the start of the stripped line and what
 * follows the match is ignored.  Its greedy runs are maximal runs here; the
 * lazy time_local is the search for the first `]` on the line after which
 * the rest of the pattern matches; the only other place where the regex
 * engine backtracks is the whitespace before server_protocol, which gives
 * back one character when a quote follows it directly.
 */

module NginxParser {
  import opened Wrappers
  import opened Text
  import opened Values
  import opened BaseParser
  import DateTimes

  // ---------------------------------------------------------------------
  // remote_addr, `-`, remote_user and the opening `[`

  datatype Head = Head(addr: string, gap1: string, gap2: string, user: string, gap3: string)

  predicate HeadOk(h: Head) {
    h.addr != [] && AllIn(h.addr, DotDigit) &&
    h.gap1 != [] && AllIn(h.gap1, Space) &&
    h.gap2 != [] && AllIn(h.gap2, Space) &&
    h.user != [] && AllIn(h.user, Word) &&
    h.gap3 != [] && AllIn(h.gap3, Space)
  }

  function HeadOver(h: Head, rest: string): string {
    h.addr + (h.gap1 + ("-" + (h.gap2 + (h.user + (h.gap3 + ("[" + rest))))))
  }

  /** `[\d\.]+\s+-\s+`: the address, the whitespace around the `-` and
      the text after it. */
  function MatchAddr(s: string): (r: Option<(string, string, string, string)>)
    ensures r.Some? ==> s == r.value.0 + (r.value.1 + ("-" + (r.value.2 + r.value.3)))
    ensures r.Some? ==> r.value.0 != [] && AllIn(r.value.0, DotDigit)
    ensures r.Some? ==> r.value.1 != [] && AllIn(r.value.1, Space)
    ensures r.Some? ==> r.value.2 != [] && AllIn(r.value.2, Space)
  {
    var (addr, r1) := Take(s, DotDigit);
    var (gap1, r2) := Take(r1, Space);
    var d := Literal(r2, "-");
    if addr == [] || gap1 == [] || d.None? then None
    else Some((addr, gap1, d.value.0, d.value.1))
  }

  lemma MatchAddrOf(addr: string, gap1: string, gap2: string, x: string)
    requires addr != [] && AllIn(addr, DotDigit) && gap1 != [] && AllIn(gap1, Space)
    requires gap2 != [] && AllIn(gap2, Space) && (x == [] || !IsSpace(x[0]))
    ensures MatchAddr(addr + (gap1 + ("-" + (gap2 + x)))) == Some((addr, gap1, gap2, x))
  {
    TakeOf(addr, gap1 + ("-" + (gap2 + x)), DotDigit);
    TakeOf(gap1, "-" + (gap2 + x), Space);
    LiteralOf("-", gap2, x);
  }

  /** `\S+\s+\[`: the user, the whitespace and the text after the `[`. */
  function MatchUser(s: string): (r: Option<(string, string, string)>)
    ensures r.Some? ==> s == r.value.0 + (r.value.1 + ("[" + r.value.2))
    ensures r.Some? ==> r.value.0 != [] && AllIn(r.value.0, Word)
    ensures r.Some? ==> r.value.1 != [] && AllIn(r.value.1, Space)
  {
    var (user, r1) := Take(s, Word);
    var (gap, r2) := Take(r1, Space);
    if user == [] || gap == [] || r2 == [] || r2[0] != '[' then None
    else
      assert r2 == "[" + r2[1..];
      Some((user, gap, r2[1..]))
  }

  lemma MatchUserOf(user: string, gap: string, x: string)
    requires user != [] && AllIn(user, Word) && gap != [] && AllIn(gap, Space)
    ensures MatchUser(user + (gap + ("[" + x))) == Some((user, gap, x))
  {
    TakeOf(user, gap + ("[" + x), Word);
    TakeOf(gap, "[" + x, Space);
  }

  /** `[\d\.]+\s+-\s+\S+\s+\[`: the head and the text after the `[`. */
  function MatchHead(s: string): (r: Option<(Head, string)>)
    ensures r.Some? ==> s == HeadOver(r.value.0, r.value.1) && HeadOk(r.value.0)
  {
    var a := MatchAddr(s);
    if a.None? then None
    else
      var u := MatchUser(a.value.3);
      if u.None? then None
      else
        var (addr, gap1, gap2, _) := a.value;
        var (user, gap3, rest) := u.value;
        Some((Head(addr, gap1, gap2, user, gap3), rest))
  }

  lemma MatchHeadOf(h: Head, rest: string)
    requires HeadOk(h)
    ensures MatchHead(HeadOver(h, rest)) == Some((h, rest))
  {
    var u := h.user + (h.gap3 + ("[" + rest));
    MatchAddrOf(h.addr, h.gap1, h.gap2, u);
    MatchUserOf(h.user, h.gap3, rest);
  }

  // ---------------------------------------------------------------------
  // The quoted request: request_method, request_uri, server_protocol

  datatype Request = Request(gap: string, verb: string, gap1: string, uri: string,
                             gap2: string, protocol: string)

  predicate RequestOk(q: Request) {
    q.gap != [] && AllIn(q.gap, Space) &&
    q.verb != [] && AllIn(q.verb, Word) &&
    q.gap1 != [] && AllIn(q.gap1, Space) &&
    q.uri != [] && AllIn(q.uri, Word) &&
    q.gap2 != [] && AllIn(q.gap2, Space) &&
    q.protocol != [] && AllIn(q.protocol, Unquoted)
  }

  function RequestOver(q: Request, rest: string): string {
    q.gap + ("\"" + (q.verb + (q.gap1 + (q.uri + (q.gap2 + (q.protocol + ("\"" + rest)))))))
  }

  /** `\s+(?P<server_protocol>[^"]+)"`: the whitespace, the protocol and the
      text after the closing quote.  When the whitespace run is followed
      directly by the quote, its last character becomes the protocol. */
  function MatchProtocol(s: string): (r: Option<(string, string, string)>)
    ensures r.Some? ==> s == r.value.0 + (r.value.1 + ("\"" + r.value.2))
    ensures r.Some? ==> r.value.0 != [] && AllIn(r.value.0, Space)
    ensures r.Some? ==> r.value.1 != [] && AllIn(r.value.1, Unquoted)
  {
    var (gap, r1) := Take(s, Space);
    if gap == [] || r1 == [] then None
    else if r1[0] != '"' then
      var (p, r2) := Take(r1, Unquoted);
      if r2 == [] then None
      else
        assert r2 == "\"" + r2[1..];
        Some((gap, p, r2[1..]))
    else if |gap| < 2 then None
    else
      var n := |gap| - 1;
      assert gap == gap[..n] + gap[n..];
      assert r1 == "\"" + r1[1..];
      assert AllIn(gap[..n], Space) by {
        assert forall m :: 0 <= m < n ==> gap[..n][m] == gap[m];
      }
      ConcatAssoc(gap[..n], gap[n..], r1);
      Some((gap[..n], gap[n..], r1[1..]))
  }

  lemma MatchProtocolOf(gap: string, protocol: string, rest: string)
    requires gap != [] && AllIn(gap, Space)
    requires protocol != [] && AllIn(protocol, Unquoted) && !IsSpace(protocol[0])
    ensures MatchProtocol(gap + (protocol + ("\"" + rest))) == Some((gap, protocol, rest))
  {
    TakeOf(gap, protocol + ("\"" + rest), Space);
    TakeOf(protocol, "\"" + rest, Unquoted);
  }

  /** `\s+"`: the whitespace and the text after the quote. */
  function MatchQuote(s: string): (r: Option<(string, string)>)
    ensures r.Some? ==> s == r.value.0 + ("\"" + r.value.1)
    ensures r.Some? ==> r.value.0 != [] && AllIn(r.value.0, Space)
  {
    var (gap, r1) := Take(s, Space);
    if gap == [] || r1 == [] || r1[0] != '"' then None
    else
      assert r1 == "\"" + r1[1..];
      Some((gap, r1[1..]))
  }

  lemma MatchQuoteOf(gap: string, x: string)
    requires gap != [] && AllIn(gap, Space)
    ensures MatchQuote(gap + ("\"" + x)) == Some((gap, x))
  {
    TakeOf(gap, "\"" + x, Space);
    assert ("\"" + x)[1..] == x;
  }

  /** `(\S+)\s+(\S+)`: request_method, the whitespace, request_uri and
      the text after them, which is empty or starts with whitespace. */
  function MatchWords(s: string): (r: Option<(string, string, string, string)>)
    ensures r.Some? ==> s == r.value.0 + (r.value.1 + (r.value.2 + r.value.3))
    ensures r.Some? ==> r.value.0 != [] && AllIn(r.value.0, Word)
    ensures r.Some? ==> r.value.1 != [] && AllIn(r.value.1, Space)
    ensures r.Some? ==> r.value.2 != [] && AllIn(r.value.2, Word)
    ensures r.Some? ==> r.value.3 == [] || IsSpace(r.value.3[0])
  {
    var (verb, r1) := Take(s, Word);
    var (gap, r2) := Take(r1, Space);
    var (uri, r3) := Take(r2, Word);
    if verb == [] || gap == [] || uri == [] then None
    else Some((verb, gap, uri, r3))
  }

  lemma MatchWordsOf(verb: string, gap: string, uri: string, x: string)
    requires verb != [] && AllIn(verb, Word) && gap != [] && AllIn(gap, Space)
    requires uri != [] && AllIn(uri, Word) && (x == [] || IsSpace(x[0]))
    ensures MatchWords(verb + (gap + (uri + x))) == Some((verb, gap, uri, x))
  {
    TakeOf(verb, gap + (uri + x), Word);
    TakeOf(gap, uri + x, Space);
    TakeOf(uri, x, Word);
  }

  /** `\s+"(\S+)\s+(\S+)\s+([^"]+)"`: the request and the text after it.
      request_uri is one whitespace-free word, and server_protocol is all
      of the text between it and the closing quote. */
  function MatchRequest(s: string): (r: Option<(Request, string)>)
    ensures r.Some? ==> s == RequestOver(r.value.0, r.value.1) && RequestOk(r.value.0)
  {
    var o := MatchQuote(s);
    if o.None? then None
    else
      var w := MatchWords(o.value.1);
      if w.None? then None
      else
        var p := MatchProtocol(w.value.3);
        if p.None? then None
        else
          var (verb, gap1, uri, _) := w.value;
          var (gap2, protocol, rest) := p.value;
          Some((Request(o.value.0, verb, gap1, uri, gap2, protocol), rest))
  }

  lemma MatchRequestOf(q: Request, rest: string)
    requires RequestOk(q) && !IsSpace(q.protocol[0])
    ensures MatchRequest(RequestOver(q, rest)) == Some((q, rest))
  {
    var t := q.gap2 + (q.protocol + ("\"" + rest));
    MatchQuoteOf(q.gap, q.verb + (q.gap1 + (q.uri + t)));
    MatchWordsOf(q.verb, q.gap1, q.uri, t);
    MatchProtocolOf(q.gap2, q.protocol, rest);
  }

  // ---------------------------------------------------------------------
  // status and body_bytes_sent

  datatype Counts = Counts(gap: string, status: string, gap1: string, bytes: string)

  predicate CountsOk(c: Counts) {
    c.gap != [] && AllIn(c.gap, Space) && c.status != [] && AllIn(c.status, Digit) &&
    c.gap1 != [] && AllIn(c.gap1, Space) && c.bytes != [] && AllIn(c.bytes, Digit)
  }

  function CountsOver(c: Counts, rest: string): string {
    c.gap + (c.status + (c.gap1 + (c.bytes + rest)))
  }

  /** `\s+(\d+)\s+(\d+)`: the counts and the text after them, which does
      not start with a digit. */
  function MatchCounts(s: string): (r: Option<(Counts, string)>)
    ensures r.Some? ==> s == CountsOver(r.value.0, r.value.1) && CountsOk(r.value.0)
    ensures r.Some? ==> r.value.1 == [] || !IsDigit(r.value.1[0])
  {
    var (gap, r1) := Take(s, Space);
    var (status, r2) := Take(r1, Digit);
    var (gap1, r3) := Take(r2, Space);
    var (bytes, r4) := Take(r3, Digit);
    if gap == [] || status == [] || gap1 == [] || bytes == [] then None
    else Some((Counts(gap, status, gap1, bytes), r4))
  }

  lemma MatchCountsOf(c: Counts, rest: string)
    requires CountsOk(c) && (rest == [] || !IsDigit(rest[0]))
    ensures MatchCounts(CountsOver(c, rest)) == Some((c, rest))
  {
    TakeOf(c.gap, c.status + (c.gap1 + (c.bytes + rest)), Space);
    TakeOf(c.status, c.gap1 + (c.bytes + rest), Digit);
    TakeOf(c.gap1, c.bytes + rest, Space);
    TakeOf(c.bytes, rest, Digit);
  }

  // ---------------------------------------------------------------------
  // The optional http_referer and http_user_agent

  datatype Agent = Agent(gap: string, referer: string, gap1: string, userAgent: string)

  predicate AgentOk(a: Agent) {
    a.gap != [] && AllIn(a.gap, Space) && AllIn(a.referer, Unquoted) &&
    a.gap1 != [] && AllIn(a.gap1, Space) && AllIn(a.userAgent, Unquoted)
  }

  function AgentOver(a: Agent, rest: string): string {
    a.gap + ("\"" + (a.referer + ("\"" + (a.gap1 + ("\"" + (a.userAgent + ("\"" + rest)))))))
  }

  /** `([^"]*)"`: the quoted text and what follows the closing quote. */
  function MatchText(s: string): (r: Option<(string, string)>)
    ensures r.Some? ==> s == r.value.0 + ("\"" + r.value.1) && AllIn(r.value.0, Unquoted)
  {
    var (text, r1) := Take(s, Unquoted);
    if r1 == [] then None
    else
      assert r1 == "\"" + r1[1..];
      Some((text, r1[1..]))
  }

  lemma MatchTextOf(text: string, x: string)
    requires AllIn(text, Unquoted)
    ensures MatchText(text + ("\"" + x)) == Some((text, x))
  {
    TakeOf(text, "\"" + x, Unquoted);
    assert ("\"" + x)[1..] == x;
  }

  /** `\s+"([^"]*)"\s+"([^"]*)"`: both quoted fields and the text after
      them, or None when the group does not match. */
  function MatchAgent(s: string): (r: Option<(Agent, string)>)
    ensures r.Some? ==> s == AgentOver(r.value.0, r.value.1) && AgentOk(r.value.0)
  {
    var o1 := MatchQuote(s);
    if o1.None? then None
    else
      var t1 := MatchText(o1.value.1);
      if t1.None? then None
      else
        var o2 := MatchQuote(t1.value.1);
        if o2.None? then None
        else
          var t2 := MatchText(o2.value.1);
          if t2.None? then None
          else Some((Agent(o1.value.0, t1.value.0, o2.value.0, t2.value.0), t2.value.1))
  }

  lemma MatchAgentOf(a: Agent, rest: string)
    requires AgentOk(a)
    ensures MatchAgent(AgentOver(a, rest)) == Some((a, rest))
  {
    var v := "\"" + (a.userAgent + ("\"" + rest));
    MatchQuoteOf(a.gap, a.referer + ("\"" + (a.gap1 + v)));
    MatchTextOf(a.referer, a.gap1 + v);
    MatchQuoteOf(a.gap1, a.userAgent + ("\"" + rest));
    MatchTextOf(a.userAgent, rest);
  }

  /** Text the optional group cannot start on: it needs whitespace first. */
  lemma NoAgent(rest: string)
    requires rest == [] || !IsSpace(rest[0])
    ensures MatchAgent(rest).None?
  {
    TakeOf([], rest, Space);
    assert [] + rest == rest;
  }

  // ---------------------------------------------------------------------
  // Everything after the `]` that closes time_local

  datatype Tail = Tail(request: Request, counts: Counts, agent: Option<Agent>)

  predicate TailOk(t: Tail) {
    RequestOk(t.request) && CountsOk(t.counts) && (t.agent.Some? ==> AgentOk(t.agent.value))
  }

  function AgentOpt(a: Option<Agent>, rest: string): string {
    if a.Some? then AgentOver(a.value, rest) else rest
  }

  function TailOver(t: Tail, rest: string): string {
    RequestOver(t.request, CountsOver(t.counts, AgentOpt(t.agent, rest)))
  }

  /** The pattern after `\]`: the tail and the text after the match.  The
      optional group is left out only where it does not match. */
  function MatchTail(s: string): (r: Option<(Tail, string)>)
    ensures r.Some? ==> s == TailOver(r.value.0, r.value.1) && TailOk(r.value.0)
    ensures r.Some? && r.value.0.agent.None? ==> MatchAgent(r.value.1).None?
  {
    var q := MatchRequest(s);
    if q.None? then None
    else
      var c := MatchCounts(q.value.1);
      if c.None? then None
      else
        var a := MatchAgent(c.value.1);
        if a.Some? then Some((Tail(q.value.0, c.value.0, Some(a.value.0)), a.value.1))
        else Some((Tail(q.value.0, c.value.0, None), c.value.1))
  }

  /** The tail is read stage by stage. */
  lemma MatchTailOfParts(s: string, q: Request, x: string, c: Counts, a: Option<Agent>, rest: string)
    requires MatchRequest(s) == Some((q, x)) && MatchCounts(x) == Some((c, AgentOpt(a, rest)))
    requires a.Some? ==> MatchAgent(AgentOpt(a, rest)) == Some((a.value, rest))
    requires a.None? ==> MatchAgent(rest).None?
    ensures MatchTail(s) == Some((Tail(q, c, a), rest))
  {
  }

  /** The optional group starts with its whitespace. */
  lemma AgentStart(a: Agent, rest: string)
    requires AgentOk(a)
    ensures AgentOver(a, rest) != [] && IsSpace(AgentOver(a, rest)[0])
  {
    assert AgentOver(a, rest)[0] == a.gap[0];
  }

  lemma MatchTailOfCounts(q: Request, c: Counts, y: string)
    requires RequestOk(q) && !IsSpace(q.protocol[0]) && CountsOk(c)
    requires y == [] || !IsDigit(y[0])
    ensures MatchRequest(RequestOver(q, CountsOver(c, y))) == Some((q, CountsOver(c, y)))
    ensures MatchCounts(CountsOver(c, y)) == Some((c, y))
  {
    MatchRequestOf(q, CountsOver(c, y));
    MatchCountsOf(c, y);
  }

  lemma MatchTailOfAgent(q: Request, c: Counts, a: Agent, rest: string)
    requires RequestOk(q) && !IsSpace(q.protocol[0]) && CountsOk(c) && AgentOk(a)
    ensures MatchTail(RequestOver(q, CountsOver(c, AgentOver(a, rest))))
         == Some((Tail(q, c, Some(a)), rest))
  {
    var y := AgentOver(a, rest);
    MatchAgentOf(a, rest);
    AgentStart(a, rest);
    MatchTailOfCounts(q, c, y);
    MatchTailOfParts(RequestOver(q, CountsOver(c, y)), q, CountsOver(c, y), c, Some(a), rest);
  }

  lemma MatchTailOfNoAgent(q: Request, c: Counts, rest: string)
    requires RequestOk(q) && !IsSpace(q.protocol[0]) && CountsOk(c)
    requires rest == [] || (!IsSpace(rest[0]) && !IsDigit(rest[0]))
    ensures MatchTail(RequestOver(q, CountsOver(c, rest))) == Some((Tail(q, c, None), rest))
  {
    var x := CountsOver(c, rest);
    MatchRequestOf(q, x);
    MatchCountsOf(c, rest);
    NoAgent(rest);
    MatchTailOfParts(RequestOver(q, x), q, x, c, None, rest);
  }

  lemma MatchTailOf(t: Tail, rest: string)
    requires TailOk(t) && !IsSpace(t.request.protocol[0])
    requires t.agent.None? ==> rest == [] || (!IsSpace(rest[0]) && !IsDigit(rest[0]))
    ensures MatchTail(TailOver(t, rest)) == Some((t, rest))
  {
    if t.agent.Some? {
      MatchTailOfAgent(t.request, t.counts, t.agent.value, rest);
    } else {
      MatchTailOfNoAgent(t.request, t.counts, rest);
    }
  }

  // ---------------------------------------------------------------------
  // time_local and the whole pattern

  /** The rest of the pattern, after the `]`, matches at the start of u. */
  predicate Follows(u: string) {
    MatchTail(u).Some?
  }

  /** `(?P<time_local>.*?)\]` and the rest of the pattern, on the text after
      the `[`: time_local is the shortest text on the line that lets the
      rest match. */
  function MatchTime(t: string): (r: Option<(string, Tail, string)>)
    ensures r.Some? ==> t == r.value.0 + ("]" + TailOver(r.value.1, r.value.2))
    ensures r.Some? ==> AllIn(r.value.0, Line) && TailOk(r.value.1)
    ensures r.Some? <==> LazyClose(t, 0, Follows).Some?
    ensures r.Some? ==> |r.value.0| == LazyClose(t, 0, Follows).value
  {
    var k := LazyClose(t, 0, Follows);
    if k.None? then None
    else
      var i := k.value;
      SplitAt(t, i);
      LazyCloseLine(t, Follows);
      var m := MatchTail(t[i + 1..]);
      Some((t[..i], m.value.0, m.value.1))
  }

  lemma SplitAt(t: string, i: nat)
    requires i < |t| && t[i] == ']'
    ensures t == t[..i] + ("]" + t[i + 1..])
  {
    assert t[i..] == "]" + t[i + 1..];
    assert t == t[..i] + t[i..];
  }

  lemma MatchTimeOfText(time: string, y: string, t: Tail, rest: string)
    requires AllIn(time, Unclosed) && MatchTail(y) == Some((t, rest))
    ensures MatchTime(time + ("]" + y)) == Some((time, t, rest))
  {
    assert Follows(y);
    LazyCloseOf(time, y, Follows);
  }

  lemma MatchTimeOf(time: string, t: Tail, rest: string)
    requires AllIn(time, Unclosed)
    requires TailOk(t) && !IsSpace(t.request.protocol[0])
    requires t.agent.None? ==> rest == [] || (!IsSpace(rest[0]) && !IsDigit(rest[0]))
    ensures MatchTime(time + ("]" + TailOver(t, rest))) == Some((time, t, rest))
  {
    MatchTailOf(t, rest);
    MatchTimeOfText(time, TailOver(t, rest), t, rest);
  }

  datatype Access = Access(head: Head, time: string, tail: Tail)

  function AccessOver(a: Access, rest: string): string {
    HeadOver(a.head, a.time + ("]" + TailOver(a.tail, rest)))
  }

  predicate AccessOk(a: Access) {
    HeadOk(a.head) && AllIn(a.time, Line) && TailOk(a.tail)
  }

  /** access_pattern.match(s): the fields and the unmatched rest of s. */
  function MatchAccess(s: string): (r: Option<(Access, string)>)
    ensures r.Some? ==> s == AccessOver(r.value.0, r.value.1) && AccessOk(r.value.0)
  {
    var h := MatchHead(s);
    if h.None? then None
    else
      var m := MatchTime(h.value.1);
      if m.None? then None
      else Some((Access(h.value.0, m.value.0, m.value.1), m.value.2))
  }

  /** Every line laid out in the combined format is read back field by
      field, whatever text follows it, as long as time_local holds no `]`
      and, when the referer and user agent are missing, the text after the
      byte count cannot begin them. */
  lemma MatchAccessOf(a: Access, rest: string)
    requires AccessOk(a) && AllIn(a.time, Unclosed) && !IsSpace(a.tail.request.protocol[0])
    requires a.tail.agent.None? ==> rest == [] || (!IsSpace(rest[0]) && !IsDigit(rest[0]))
    ensures MatchAccess(AccessOver(a, rest)) == Some((a, rest))
  {
    var t := a.time + ("]" + TailOver(a.tail, rest));
    MatchHeadOf(a.head, t);
    MatchTimeOf(a.time, a.tail, rest);
  }

  // ---------------------------------------------------------------------
  // can_parse

  /** `^\d{1,3}\.\d{1,3}\.\d{1,3}\.\d{1,3}\s+` and the three characters
      `[`, `]` and `"` anywhere in the stripped line. */
  function CanParse(line: string): (b: bool)
    ensures b <==> var s := Strip(line);
      QuadEnd(s).Some? && QuadEnd(s).value < |s| && IsSpace(s[QuadEnd(s).value]) &&
      '[' in s && ']' in s && '"' in s
  {
    var s := Strip(line);
    var q := QuadEnd(s);
    q.Some? && Run(s[q.value..], Space) > 0 && '[' in s && ']' in s && '"' in s
  }

  // ---------------------------------------------------------------------
  // parse and enrich

  /** match.groupdict(). */
  function GroupRecord(a: Access): (r: Record)
    ensures r.Keys == GroupKeys
    ensures r["remote_addr"] == Str(a.head.addr) && r["remote_user"] == Str(a.head.user)
    ensures r["time_local"] == Str(a.time)
    ensures r["request_method"] == Str(a.tail.request.verb)
    ensures r["request_uri"] == Str(a.tail.request.uri)
    ensures r["server_protocol"] == Str(a.tail.request.protocol)
    ensures r["status"] == Str(a.tail.counts.status)
    ensures r["body_bytes_sent"] == Str(a.tail.counts.bytes)
    ensures r["http_referer"] == (if a.tail.agent.Some? then Str(a.tail.agent.value.referer) else Null)
    ensures r["http_user_agent"] == (if a.tail.agent.Some? then Str(a.tail.agent.value.userAgent) else Null)
  {
    var ag := a.tail.agent;
    map["remote_addr" := Str(a.head.addr), "remote_user" := Str(a.head.user),
        "time_local" := Str(a.time),
        "request_method" := Str(a.tail.request.verb),
        "request_uri" := Str(a.tail.request.uri),
        "server_protocol" := Str(a.tail.request.protocol),
        "status" := Str(a.tail.counts.status),
        "body_bytes_sent" := Str(a.tail.counts.bytes),
        "http_referer" := (if ag.Some? then Str(ag.value.referer) else Null),
        "http_user_agent" := (if ag.Some? then Str(ag.value.userAgent) else Null)]
  }

  const GroupKeys: set<string> :=
    {"remote_addr", "remote_user", "time_local", "request_method", "request_uri",
     "server_protocol", "status", "body_bytes_sent", "http_referer", "http_user_agent"}

  /** The keys enrich may add. */
  const EnrichKeys: set<string> := {"timestamp", "hostname", "status_category"}

  lemma KeysDisjoint()
    ensures GroupKeys !! EnrichKeys
    ensures GroupKeys !! {"recv_time", "src_ip"} && EnrichKeys !! {"recv_time", "src_ip"}
  {
  }

  /** A string of decimal digits, which int() always converts. */
  predicate Numeral(v: Value) {
    v.Str? && v.s != [] && AllDigits(v.s)
  }

  /** `parsed["status"] = int(...)`, then body_bytes_sent, inside one try:
      the first failure leaves that field and the ones after it as they
      were. */
  function ConvertCounts(r: Record): (q: Record)
    ensures q.Keys == r.Keys
    ensures forall k :: k != "status" && k != "body_bytes_sent" ==> Get(q, k) == Get(r, k)
    ensures Numeral(Get(r, "status")) && Numeral(Get(r, "body_bytes_sent")) ==>
      Get(q, "status") == Int(DigitsValue(Get(r, "status").s)) &&
      Get(q, "body_bytes_sent") == Int(DigitsValue(Get(r, "body_bytes_sent").s))
  {
    if "status" !in r then r
    else
      var s := IntOrNull(r["status"]);
      if s == Null then r
      else
        var r1 := r["status" := s];
        if "body_bytes_sent" !in r1 then r1
        else
          var b := IntOrNull(r1["body_bytes_sent"]);
          if b == Null then r1 else r1["body_bytes_sent" := b]
  }

  /** strptime(time_local.split()[0], "%d/%b/%Y:%H:%M:%S") reformatted with
      "%Y-%m-%d %H:%M:%S", or None where split() gives no token (IndexError)
      or strptime raises ValueError. */
  function LocalTimestamp(time: string): (r: Option<string>)
    ensures r.Some? <==> Tokens(time) != [] && DateTimes.ParseAccessTime(Tokens(time)[0]).Some?
    ensures r.Some? ==> |r.value| == 19
    ensures r.Some? ==> DateTimes.ParseStoreTime(r.value) == DateTimes.ParseAccessTime(Tokens(time)[0])
  {
    var ts := Tokens(time);
    if ts == [] then None
    else
      var dt := DateTimes.ParseAccessTime(ts[0]);
      if dt.None? then None
      else
        DateTimes.ParseStoreTimeOfFormat(dt.value);
        Some(DateTimes.Format(dt.value))
  }

  /** The status bands of enrich, for a non-zero status. */
  function StatusCategory(status: int): (c: string)
    ensures c in {"success", "redirect", "client_error", "server_error", "unknown"}
  {
    if 200 <= status < 300 then "success"
    else if 300 <= status < 400 then "redirect"
    else if 400 <= status < 500 then "client_error"
    else if 500 <= status < 600 then "server_error"
    else "unknown"
  }

  const ClassNames: seq<string> := ["success", "redirect", "client_error", "server_error"]

  /** The band is the status's hundreds digit: 2xx to 5xx name their class
      and every other status is unknown. */
  lemma StatusCategoryByClass(status: int)
    ensures 200 <= status < 600 ==> StatusCategory(status) == ClassNames[status / 100 - 2]
    ensures !(200 <= status < 600) ==> StatusCategory(status) == "unknown"
  {
  }

  /** The timestamp enrich derives from time_local, if any. */
  function Stamp(r: Record): (t: Option<string>)
    requires Truthy(Get(r, "time_local")) ==> Get(r, "time_local").Str?
    ensures t.Some? <==> Truthy(Get(r, "time_local")) && LocalTimestamp(Get(r, "time_local").s).Some?
  {
    var time := Get(r, "time_local");
    if Truthy(time) then LocalTimestamp(time.s) else None
  }

  /** Sets key k to v when v is present; nothing else changes. */
  function SetIf(r: Record, k: string, v: Option<Value>): (q: Record)
    ensures q.Keys == r.Keys + (if v.Some? then {k} else {})
    ensures forall j :: j in r && j != k ==> q[j] == r[j]
    ensures Get(q, k) == (if v.Some? then v.value else Get(r, k))
  {
    if v.Some? then r[k := v.value] else r
  }

  /** The status band enrich sets, if any. */
  function Category(r: Record): (c: Option<Value>)
    requires Truthy(Get(r, "status")) ==> Get(r, "status").Int?
    ensures c.Some? <==> Truthy(Get(r, "status"))
  {
    var status := Get(r, "status");
    if Truthy(status) then Some(Str(StatusCategory(status.i))) else None
  }

  lemma EnrichKeysDistinct()
    ensures "timestamp" != "hostname" && "timestamp" != "status_category"
    ensures "hostname" != "status_category"
    ensures "status" !in EnrichKeys && "time_local" !in EnrichKeys && "remote_addr" !in EnrichKeys
  {
  }

  /** enrich, given the timestamp it derives from time_local. */
  function EnrichWith(r: Record, st: Option<string>): (q: Record)
    requires Truthy(Get(r, "status")) ==> Get(r, "status").Int?
    ensures q.Keys == r.Keys + {"hostname"}
                     + (if st.Some? then {"timestamp"} else {})
                     + (if Truthy(Get(r, "status")) then {"status_category"} else {})
    ensures forall k :: k in r && k !in EnrichKeys ==> q[k] == r[k]
    ensures Get(q, "timestamp") == (if st.Some? then Str(st.value) else Get(r, "timestamp"))
    ensures Get(q, "hostname") == (if "hostname" in r then r["hostname"]
                                   else GetOr(r, "remote_addr", Str("unknown")))
    ensures Get(q, "status_category") == (if Truthy(Get(r, "status"))
                                          then Str(StatusCategory(Get(r, "status").i))
                                          else Get(r, "status_category"))
  {
    EnrichKeysDistinct();
    var r1 := SetIf(r, "timestamp", if st.Some? then Some(Str(st.value)) else None);
    var host := if "hostname" in r1 then None else Some(GetOr(r1, "remote_addr", Str("unknown")));
    var r2 := SetIf(r1, "hostname", host);
    SetIf(r2, "status_category", Category(r2))
  }

  /** enrich: the reformatted timestamp, the hostname defaulting to
      remote_addr, and the status band; no other key changes. */
  function Enrich(r: Record): (q: Record)
    requires Truthy(Get(r, "time_local")) ==> Get(r, "time_local").Str?
    requires Truthy(Get(r, "status")) ==> Get(r, "status").Int?
    ensures q.Keys == r.Keys + {"hostname"}
                     + (if Stamp(r).Some? then {"timestamp"} else {})
                     + (if Truthy(Get(r, "status")) then {"status_category"} else {})
    ensures forall k :: k in r && k !in EnrichKeys ==> q[k] == r[k]
    ensures Get(q, "timestamp") == (if Stamp(r).Some? then Str(Stamp(r).value) else Get(r, "timestamp"))
    ensures Get(q, "hostname") == (if "hostname" in r then r["hostname"]
                                   else GetOr(r, "remote_addr", Str("unknown")))
    ensures Get(q, "status_category") == (if Truthy(Get(r, "status"))
                                          then Str(StatusCategory(Get(r, "status").i))
                                          else Get(r, "status_category"))
  {
    EnrichWith(r, Stamp(r))
  }

  /** The fields a match gives, once the counts are integers. */
  predicate Fields(q: Record, a: Access, meta: Metadata) {
    var ag := a.tail.agent;
    Get(q, "remote_addr") == Str(a.head.addr) && Get(q, "remote_user") == Str(a.head.user) &&
    Get(q, "time_local") == Str(a.time) &&
    Get(q, "request_method") == Str(a.tail.request.verb) &&
    Get(q, "request_uri") == Str(a.tail.request.uri) &&
    Get(q, "server_protocol") == Str(a.tail.request.protocol) &&
    Get(q, "status") == Int(DigitsValue(a.tail.counts.status)) &&
    Get(q, "body_bytes_sent") == Int(DigitsValue(a.tail.counts.bytes)) &&
    Get(q, "http_referer") == (if ag.Some? then Str(ag.value.referer) else Null) &&
    Get(q, "http_user_agent") == (if ag.Some? then Str(ag.value.userAgent) else Null) &&
    Get(q, "recv_time") == meta.recvTime && Get(q, "src_ip") == meta.srcIp
  }

  /** The groups with the metadata merged in and the counts converted. */
  predicate Converted(c: Record, a: Access, meta: Metadata) {
    c.Keys == GroupKeys + {"recv_time", "src_ip"} && Fields(c, a, meta)
  }

  /** What parse promises about the record it builds from a match. */
  predicate Parsed(q: Record, a: Access, meta: Metadata) {
    var status := DigitsValue(a.tail.counts.status);
    var stamp := LocalTimestamp(a.time);
    q.Keys == GroupKeys + {"recv_time", "src_ip"} + {"hostname"}
              + (if stamp.Some? then {"timestamp"} else {})
              + (if status != 0 then {"status_category"} else {}) &&
    Fields(q, a, meta) &&
    Get(q, "hostname") == Str(a.head.addr) &&
    Get(q, "timestamp") == (if stamp.Some? then Str(stamp.value) else Null) &&
    Get(q, "status_category") == (if status != 0 then Str(StatusCategory(status)) else Null)
  }

  /** The groups with the metadata merged in, before the counts are
      converted. */
  predicate Groups(g: Record, a: Access, meta: Metadata) {
    var ag := a.tail.agent;
    g.Keys == GroupKeys + {"recv_time", "src_ip"} &&
    Get(g, "remote_addr") == Str(a.head.addr) && Get(g, "remote_user") == Str(a.head.user) &&
    Get(g, "time_local") == Str(a.time) &&
    Get(g, "request_method") == Str(a.tail.request.verb) &&
    Get(g, "request_uri") == Str(a.tail.request.uri) &&
    Get(g, "server_protocol") == Str(a.tail.request.protocol) &&
    Get(g, "status") == Str(a.tail.counts.status) &&
    Get(g, "body_bytes_sent") == Str(a.tail.counts.bytes) &&
    Get(g, "http_referer") == (if ag.Some? then Str(ag.value.referer) else Null) &&
    Get(g, "http_user_agent") == (if ag.Some? then Str(ag.value.userAgent) else Null) &&
    Get(g, "recv_time") == meta.recvTime && Get(g, "src_ip") == meta.srcIp
  }

  function Grouped(a: Access, meta: Metadata): (g: Record)
    ensures Groups(g, a, meta)
  {
    KeysDisjoint();
    WithMetadata(GroupRecord(a), meta)
  }

  function Convert(a: Access, meta: Metadata): (c: Record)
    requires AccessOk(a)
    ensures Converted(c, a, meta)
  {
    var g := Grouped(a, meta);
    var c := ConvertCounts(g);
    ConvertFields(a, meta, g, c);
    c
  }

  lemma ConvertFields(a: Access, meta: Metadata, g: Record, c: Record)
    requires CountsOk(a.tail.counts) && Groups(g, a, meta)
    requires c.Keys == g.Keys
    requires forall k :: k != "status" && k != "body_bytes_sent" ==> Get(c, k) == Get(g, k)
    requires Numeral(Get(g, "status")) && Numeral(Get(g, "body_bytes_sent")) ==>
      Get(c, "status") == Int(DigitsValue(Get(g, "status").s)) &&
      Get(c, "body_bytes_sent") == Int(DigitsValue(Get(g, "body_bytes_sent").s))
    ensures Converted(c, a, meta)
  {
    assert Numeral(Get(g, "status")) && Numeral(Get(g, "body_bytes_sent"));
  }

  /** The record parse builds from a match: the groups, the metadata, the
      integer counts and the enrichment. */
  function Build(a: Access, meta: Metadata): (q: Record)
    requires AccessOk(a)
    ensures Parsed(q, a, meta)
  {
    var c := Convert(a, meta);
    StampOf(c, a.time);
    EnrichKeysOf(c, a, meta);
    FieldsCarried(c, Enrich(c), a, meta);
    EnrichAdded(c, a, meta);
    Enrich(c)
  }

  lemma EnrichKeysOf(c: Record, a: Access, meta: Metadata)
    requires Converted(c, a, meta)
    ensures Enrich(c).Keys == GroupKeys + {"recv_time", "src_ip"} + {"hostname"}
              + (if LocalTimestamp(a.time).Some? then {"timestamp"} else {})
              + (if DigitsValue(a.tail.counts.status) != 0 then {"status_category"} else {})
  {
    StampOf(c, a.time);
  }

  lemma FieldsCarried(c: Record, q: Record, a: Access, meta: Metadata)
    requires Converted(c, a, meta)
    requires forall k :: k in c && k !in EnrichKeys ==> k in q && q[k] == c[k]
    ensures Fields(q, a, meta)
  {
    KeysDisjoint();
  }

  lemma EnrichAdded(c: Record, a: Access, meta: Metadata)
    requires Converted(c, a, meta)
    ensures var q := Enrich(c);
      var status := DigitsValue(a.tail.counts.status);
      var stamp := LocalTimestamp(a.time);
      Get(q, "hostname") == Str(a.head.addr) &&
      Get(q, "timestamp") == (if stamp.Some? then Str(stamp.value) else Null) &&
      Get(q, "status_category") == (if status != 0 then Str(StatusCategory(status)) else Null)
  {
    KeysDisjoint();
    StampOf(c, a.time);
  }

  /** enrich reads the timestamp from time_local. */
  lemma StampOf(r: Record, time: string)
    requires Get(r, "time_local") == Str(time)
    ensures Stamp(r) == LocalTimestamp(time)
  {
    if time == [] {
      assert Tokens(time) == [];
    }
  }

  /** parse: None unless access_pattern matches the start of the stripped
      line, whatever follows the match. */
  function Parse(line: string, meta: Metadata): (r: Option<Record>)
    ensures r.None? <==> MatchAccess(Strip(line)).None?
    ensures r.Some? ==> Parsed(r.value, MatchAccess(Strip(line)).value.0, meta)
  {
    var m := MatchAccess(Strip(line));
    if m.None? then None else Some(Build(m.value.0, meta))
  }

  /** A time_local whose first word is an nginx stamp gets that time,
      rewritten in the store's format, as its timestamp. */
  lemma LocalTimestampOfStamp(time: string, dt: DateTimes.DateTime)
    requires DateTimes.Valid(dt) && Tokens(time) != [] && Tokens(time)[0] == DateTimes.AccessStamp(dt)
    ensures LocalTimestamp(time) == Some(DateTimes.Format(dt))
    ensures DateTimes.ParseStoreTime(LocalTimestamp(time).value) == Some(dt)
  {
    DateTimes.ParseAccessTimeOfStamp(dt);
  }

  /** A line that access_pattern reads as `a` is parsed into the record
      built from `a`. */
  lemma ParseOfAccess(line: string, meta: Metadata, a: Access, rest: string)
    requires Strip(line) == AccessOver(a, rest)
    requires AccessOk(a) && AllIn(a.time, Unclosed) && !IsSpace(a.tail.request.protocol[0])
    requires a.tail.agent.None? ==> rest == [] || (!IsSpace(rest[0]) && !IsDigit(rest[0]))
    ensures Parse(line, meta) == Some(Build(a, meta))
  {
    MatchAccessOf(a, rest);
  }

  /** A line in the combined format is parsed with its own fields: integer
      counts, the reformatted stamp of time_local as the timestamp and
      remote_addr as the hostname.  The line of scripts/debug_nginx.py is
      the instance with remote_addr 192.168.1.100, time_local
      06/Dec/2025:04:17:07 +0000, request GET /api/test HTTP/1.1, status
      200, 1234 bytes and no referer or user agent; LocalTimestampOfStamp
      gives its timestamp. */
  lemma CombinedLineParsed(line: string, meta: Metadata, a: Access, rest: string, stamp: string)
    requires Strip(line) == AccessOver(a, rest)
    requires AccessOk(a) && AllIn(a.time, Unclosed) && !IsSpace(a.tail.request.protocol[0])
    requires a.tail.agent.None? ==> rest == [] || (!IsSpace(rest[0]) && !IsDigit(rest[0]))
    requires LocalTimestamp(a.time) == Some(stamp)
    ensures Parse(line, meta).Some?
    ensures var q := Parse(line, meta).value;
            Get(q, "status") == Int(DigitsValue(a.tail.counts.status)) &&
            Get(q, "body_bytes_sent") == Int(DigitsValue(a.tail.counts.bytes)) &&
            Get(q, "request_uri") == Str(a.tail.request.uri) &&
            Get(q, "timestamp") == Str(stamp) &&
            Get(q, "hostname") == Str(a.head.addr) &&
            (a.tail.agent.None? ==> Get(q, "http_referer") == Null && Get(q, "http_user_agent") == Null)
  {
    ParseOfAccess(line, meta, a, rest);
    ParsedFields(Build(a, meta), a, meta, stamp);
  }

  lemma ParsedFields(q: Record, a: Access, meta: Metadata, stamp: string)
    requires Parsed(q, a, meta) && LocalTimestamp(a.time) == Some(stamp)
    ensures Get(q, "status") == Int(DigitsValue(a.tail.counts.status))
    ensures Get(q, "body_bytes_sent") == Int(DigitsValue(a.tail.counts.bytes))
    ensures Get(q, "request_uri") == Str(a.tail.request.uri)
    ensures Get(q, "timestamp") == Str(stamp) && Get(q, "hostname") == Str(a.head.addr)
    ensures a.tail.agent.None? ==> Get(q, "http_referer") == Null && Get(q, "http_user_agent") == Null
  {
  }
}

=== FILE: parser_manager.dfy ===
/*
 * The parser registry: an ordered list of parsers tried in turn on each
 * received line.  The first parser whose can_parse accepts the line and
 * whose parse returns a non-empty map wins, and the registry stamps the
 * map with the winner's log type and the line itself.
 */

module ParserManager {
  import opened Wrappers
  import opened Text
  import opened Values
  import opened BaseParser
  import LinuxParser
  import NginxParser
  import WindowsParser
  import ZeekConnParser

  /** The parser classes a registry can hold.  The parsers keep no state
      that parsing reads, so a parser is identified by its class. */
  datatype ParserKind = Windows | Nginx | Linux | ZeekConn

  /** The parts of the parsers the model takes as given: JSON decoding for
      the Windows parser and the epoch conversion of the Zeek parser. */
  datatype Library = Library(decode: string -> Option<Record>, epoch: ZeekConnParser.Epoch)

  /** What the listener hands over: receive time, sender address and the
      decoded, stripped line. */
  datatype Datagram = Datagram(recvTime: Value, srcIp: Value, line: string)

  /** get_log_type of each parser class. */
  function LogType(p: ParserKind): string {
    match p
    case Windows => "windows"
    case Nginx => "nginx"
    case Linux => "linux"
    case ZeekConn => "zeek_conn"
  }

  /** can_parse of each parser class. */
  predicate Accepts(p: ParserKind, lib: Library, line: string) {
    match p
    case Windows => WindowsParser.CanParse(line, lib.decode)
    case Nginx => NginxParser.CanParse(line)
    case Linux => LinuxParser.CanParse(line)
    case ZeekConn => ZeekConnParser.CanParse(line)
  }

  /** parse of each parser class. */
  function ParseAs(p: ParserKind, lib: Library, line: string, meta: Metadata): Option<Record> {
    match p
    case Windows => WindowsParser.Parse(line, meta, lib.decode)
    case Nginx => NginxParser.Parse(line, meta)
    case Linux => LinuxParser.Parse(line, meta)
    case ZeekConn => ZeekConnParser.Parse(line, meta, lib.epoch)
  }

  /** One turn of the search: the parsed map when can_parse holds and
      parse returns a non-empty (truthy) map. */
  function Attempt(p: ParserKind, lib: Library, line: string, meta: Metadata): Option<Record> {
    if Accepts(p, lib, line) then
      var parsed := ParseAs(p, lib, line, meta);
      if parsed.Some? && parsed.value != map[] then parsed else None
    else None
  }

  /** The turns of the parsers on one datagram. */
  function Turns(lib: Library, raw: Datagram): ParserKind -> Option<Record> {
    p => Attempt(p, lib, raw.line, MetaOf(raw))
  }

  /** The metadata dict parse builds from the datagram. */
  function MetaOf(raw: Datagram): Metadata {
    Metadata(raw.recvTime, raw.srcIp)
  }

  /** The position of the first parser whose turn succeeds, with its map. */
  function Winner(ps: seq<ParserKind>, turn: ParserKind -> Option<Record>): (r: Option<(nat, Record)>)
    ensures r.Some? ==> r.value.0 < |ps| && turn(ps[r.value.0]) == Some(r.value.1)
    ensures r.Some? ==> forall j :: 0 <= j < r.value.0 ==> turn(ps[j]).None?
    ensures r.None? ==> forall j :: 0 <= j < |ps| ==> turn(ps[j]).None?
    decreases |ps|
  {
    if ps == [] then None
    else
      match turn(ps[0])
      case Some(q) => Some((0, q))
      case None =>
        match Winner(ps[1..], turn)
        case None => None
        case Some(w) => Some((w.0 + 1, w.1))
  }

  function Stamped(q: Record, p: ParserKind, line: string): Record {
    q["log_type" := Str(LogType(p))]["raw_line" := Str(line)]
  }

  /** ParserManager.parse over the list ps, with the parsers' turns on the
      line given by turn: nothing for an empty line; otherwise the winner's
      map with log_type and raw_line set, over any parsed keys of the same
      name, or nothing when no parser wins. */
  function Search(ps: seq<ParserKind>, turn: ParserKind -> Option<Record>, line: string): (r: Option<Record>)
    ensures line == [] ==> r.None?
    ensures line != [] ==> (r.Some? <==> Winner(ps, turn).Some?)
    ensures r.Some? ==>
              var w := Winner(ps, turn).value;
              r.value.Keys == w.1.Keys + {"log_type", "raw_line"} &&
              r.value["log_type"] == Str(LogType(ps[w.0])) && r.value["raw_line"] == Str(line) &&
              forall k :: k in w.1 && k != "log_type" && k != "raw_line" ==> r.value[k] == w.1[k]
  {
    if line == [] then None
    else
      match Winner(ps, turn)
      case None => None
      case Some(w) => Some(Stamped(w.1, ps[w.0], line))
  }

  /** ParserManager.parse of one datagram by the registry ps. */
  function Detect(ps: seq<ParserKind>, lib: Library, raw: Datagram): Option<Record> {
    Search(ps, Turns(lib, raw), raw.line)
  }

  /** The position list.insert(priority, x) puts x at: a negative priority
      counts from the end, and positions outside the list are clamped to
      its ends. */
  function InsertPosition(n: nat, priority: int): (k: nat)
    ensures k <= n
    ensures 0 <= priority <= n ==> k == priority
    ensures priority > n ==> k == n
    ensures -(n as int) <= priority < 0 ==> k == n + priority
    ensures priority < -(n as int) ==> k == 0
  {
    if priority < 0 then (if n + priority < 0 then 0 else n + priority)
    else if priority > n then n
    else priority
  }

  /** Where register_parser puts a new parser: at the priority, or at the
      end when none is given. */
  function Position(n: nat, priority: Option<int>): (k: nat)
    ensures k <= n
    ensures priority.None? ==> k == n
  {
    if priority.Some? then InsertPosition(n, priority.value) else n
  }

  /** The list after register_parser(p, priority). */
  function Registered<T>(ps: seq<T>, p: T, priority: Option<int>): (qs: seq<T>)
    ensures var k := Position(|ps|, priority);
      |qs| == |ps| + 1 && qs[k] == p && qs[..k] == ps[..k] && qs[k + 1..] == ps[k..]
  {
    var k := Position(|ps|, priority);
    ps[..k] + [p] + ps[k..]
  }

  /** list_parsers over the list ps. */
  function Listing(ps: seq<ParserKind>): (ts: seq<string>)
    ensures |ts| == |ps|
    ensures forall i :: 0 <= i < |ps| ==> ts[i] == LogType(ps[i])
  {
    seq(|ps|, i requires 0 <= i < |ps| => LogType(ps[i]))
  }

  /** The registry a ParserManager starts with. */
  const Defaults: seq<ParserKind> := [Windows, Nginx, Linux]

  /** The loop of parse over the parsers ps, whose turns on the line are
      given by turn: nothing for an empty line, else the first parser whose
      turn succeeds, with its map stamped. */
  method Scan(ps: seq<ParserKind>, turn: ParserKind -> Option<Record>, line: string) returns (r: Option<Record>)
    ensures r == Search(ps, turn, line)
  {
    if line == [] {
      return None;
    }
    var i := 0;
    while i < |ps|
      invariant 0 <= i <= |ps|
      invariant forall j :: 0 <= j < i ==> turn(ps[j]).None?
    {
      var p := ps[i];
      var parsed := turn(p);
      if parsed.Some? {
        SearchAt(ps, turn, line, i);
        return Some(Stamped(parsed.value, p, line));
      }
      i := i + 1;
    }
    SearchNone(ps, turn, line);
    return None;
  }

  class Registry {
    var parsers: seq<ParserKind>

    /** The default registry: Windows, then Nginx, then Linux. */
    constructor()
      ensures parsers == Defaults
    {
      parsers := Defaults;
    }

    /** parse: tries the parsers in list order. */
    method Parse(lib: Library, raw: Datagram) returns (r: Option<Record>)
      ensures r == Detect(parsers, lib, raw)
    {
      r := Scan(parsers, Turns(lib, raw), raw.line);
    }

    /** get_parser_by_type: a registered parser of that type, if any. */
    method GetParserByType(logType: string) returns (r: Option<ParserKind>)
      ensures r.Some? ==> r.value in parsers && LogType(r.value) == logType
      ensures r.None? ==> forall p :: p in parsers ==> LogType(p) != logType
    {
      for i := 0 to |parsers|
        invariant forall j :: 0 <= j < i ==> LogType(parsers[j]) != logType
      {
        if LogType(parsers[i]) == logType {
          return Some(parsers[i]);
        }
      }
      return None;
    }

    /** register_parser: inserts at the priority, or appends. */
    method RegisterParser(p: ParserKind, priority: Option<int>)
      modifies this
      ensures parsers == Registered(old(parsers), p, priority)
    {
      var k := Position(|parsers|, priority);
      parsers := parsers[..k] + [p] + parsers[k..];
    }

    /** list_parsers: the types in registry order. */
    function ListParsers(): (ts: seq<string>)
      reads this
      ensures ts == Listing(parsers)
    {
      Listing(parsers)
    }
  }

  /** The search stops at the first parser whose turn succeeds. */
  lemma SearchAt(ps: seq<ParserKind>, turn: ParserKind -> Option<Record>, line: string, i: nat)
    requires line != [] && i < |ps| && turn(ps[i]).Some?
    requires forall j :: 0 <= j < i ==> turn(ps[j]).None?
    ensures Search(ps, turn, line) == Some(Stamped(turn(ps[i]).value, ps[i], line))
  {
    var w := Winner(ps, turn);
    assert w.Some?;
    assert w.value.0 == i;
  }

  /** The search finds nothing when no parser's turn succeeds. */
  lemma SearchNone(ps: seq<ParserKind>, turn: ParserKind -> Option<Record>, line: string)
    requires forall j :: 0 <= j < |ps| ==> turn(ps[j]).None?
    ensures Search(ps, turn, line).None?
  {
  }

  // ---------------------------------------------------------------------
  // Properties

  /** Distinct parser classes report distinct types. */
  lemma LogTypeInjective(p: ParserKind, q: ParserKind)
    ensures LogType(p) == LogType(q) ==> p == q
  {
  }

  /** Registering keeps the parsers already there in their order: taking
      the new one out gives the old list back, and appending is the case
      without a priority. */
  lemma RegisteredKeepsOrder<T>(ps: seq<T>, p: T, priority: Option<int>)
    ensures var qs := Registered(ps, p, priority); var k := Position(|ps|, priority);
      qs[..k] + qs[k + 1..] == ps
    ensures multiset(Registered(ps, p, priority)) == multiset(ps) + multiset{p}
    ensures priority.None? ==> Registered(ps, p, priority) == ps + [p]
  {
    var qs := Registered(ps, p, priority);
    var k := Position(|ps|, priority);
    assert ps == ps[..k] + ps[k..];
    assert qs == qs[..k] + [p] + qs[k + 1..];
  }

  /** The listing after registering p is the old listing with p's type
      inserted at the same place. */
  lemma ListingRegistered(ps: seq<ParserKind>, p: ParserKind, priority: Option<int>)
    ensures Listing(Registered(ps, p, priority)) == Registered(Listing(ps), LogType(p), priority)
  {
    var a := Listing(Registered(ps, p, priority));
    var b := Registered(Listing(ps), LogType(p), priority);
    var k := Position(|ps|, priority);
    forall i | 0 <= i < |a|
      ensures a[i] == b[i]
    {
      if i < k {
        assert b[i] == b[..k][i];
      } else if i > k {
        assert b[i] == b[k + 1..][i - k - 1];
        assert Registered(ps, p, priority)[i] == Registered(ps, p, priority)[k + 1..][i - k - 1];
      }
    }
  }

  /** For the Windows, Linux and Zeek parsers, can_parse accepting a line
      means parse returns a non-empty map, so the search stops there. */
  lemma AcceptedParses(p: ParserKind, lib: Library, line: string, meta: Metadata)
    requires p != Nginx && Accepts(p, lib, line)
    ensures Attempt(p, lib, line, meta).Some?
  {
    match p
    case Windows => WindowsAccepted(p, lib, line, meta);
    case Linux => LinuxAccepted(p, lib, line, meta);
    case ZeekConn => ZeekAccepted(p, lib, line, meta);
  }

  lemma WindowsAccepted(p: ParserKind, lib: Library, line: string, meta: Metadata)
    requires p == Windows && WindowsParser.CanParse(line, lib.decode)
    ensures Attempt(p, lib, line, meta).Some?
  {
    WindowsParser.CanParseParses(line, meta, lib.decode);
  }

  lemma LinuxAccepted(p: ParserKind, lib: Library, line: string, meta: Metadata)
    requires p == Linux && LinuxParser.CanParse(line)
    ensures Attempt(p, lib, line, meta).Some?
  {
    LinuxParser.AcceptedNonEmpty(line, meta);
  }

  lemma ZeekAccepted(p: ParserKind, lib: Library, line: string, meta: Metadata)
    requires p == ZeekConn && ZeekConnParser.CanParse(line)
    ensures Attempt(p, lib, line, meta).Some?
  {
    ZeekConnParser.AcceptedNonEmpty(line, meta, lib.epoch);
  }

  /** With the default order, a line whose stripped form starts with `{`
      is typed windows exactly when it is valid JSON, and otherwise not at
      all: it is never typed nginx or linux. */
  lemma DefaultBraceLine(lib: Library, raw: Datagram)
    requires Strip(raw.line) != [] && Strip(raw.line)[0] == '{'
    ensures var r := Detect(Defaults, lib, raw);
      (r.Some? <==> WindowsParser.CanParse(raw.line, lib.decode)) &&
      (r.Some? ==> r.value["log_type"] == Str("windows"))
  {
    var turn := Turns(lib, raw);
    assert raw.line != [];
    assert !NginxParser.CanParse(raw.line);
    assert !LinuxParser.CanParse(raw.line);
    assert turn(Nginx).None? && turn(Linux).None?;
    if WindowsParser.CanParse(raw.line, lib.decode) {
      WindowsAccepted(Windows, lib, raw.line, MetaOf(raw));
      assert turn(Windows).Some?;
    } else {
      assert turn(Windows).None?;
    }
    assert Defaults == [Windows, Nginx, Linux];
  }

  /** No line is typed zeek_conn by a registry that holds no Zeek parser,
      whatever the parsers' turns on the line are. */
  lemma NoZeekUnlessRegistered(ps: seq<ParserKind>, turn: ParserKind -> Option<Record>, line: string)
    requires ZeekConn !in ps
    ensures var r := Search(ps, turn, line); r.Some? ==> r.value["log_type"] != Str("zeek_conn")
  {
    var r := Search(ps, turn, line);
    if r.Some? {
      var w := Winner(ps, turn).value;
      assert ps[w.0] in ps;
    }
  }
}

=== FILE: sigma_engine.dfy ===
/*
 * The Sigma rule matcher: a small interpreter for the detection part of a
 * Sigma rule.  A rule names selections in its detection map and combines
 * them with a condition string; a selection is a map from (optionally
 * modified) field names to values, or a list of such maps.  A record that
 * satisfies a rule of its log type yields an alert.
 *
 * Python exceptions matter here: a condition that is not a string makes
 * match_log raise, and the detection worker counts that record as an
 * error.  A raise is modelled as None.
 */

module SigmaEngine {
  import opened Wrappers
  import opened Text
  import opened Values

  // ---------------------------------------------------------------------
  // Rules

  /** A value of a rule's YAML document: a scalar, a sequence or a mapping
      with string keys.  repr is Python's str() of a sequence or mapping. */
  datatype Yaml =
    | Scalar(v: Value)
    | Items(items: seq<Yaml>, repr: string)
    | Fields(fields: map<string, Yaml>, repr: string)

  /** Python truthiness of a YAML value. */
  predicate YamlTruthy(y: Yaml) {
    match y
    case Scalar(v) => Truthy(v)
    case Items(xs, _) => xs != []
    case Fields(m, _) => m != map[]
  }

  /** str() of a YAML value. */
  function Display(y: Yaml): string {
    match y
    case Scalar(v) => ToStr(v)
    case Items(_, r) => r
    case Fields(_, r) => r
  }

  /** A loaded rule: the SigmaRule fields the engine reads. */
  datatype Rule = Rule(
    id: string, title: string, description: string, level: string,
    detection: map<string, Yaml>, falsePositives: seq<Yaml>, references: seq<Yaml>)

  /** The two services the engine takes as given: JSON decoding of the
      parsed_data column (None when it fails or is not an object) and
      re.search(pattern, text) for the `re` modifier. */
  datatype Services = Services(decode: string -> Option<Record>, search: (string, string) -> bool)

  // ---------------------------------------------------------------------
  // _match_value

  /** The anchored pattern `^p$` with each `*` of p read as `.*` and every
      other character literal: a `*` stands for any run of characters
      other than a newline. */
  predicate Fits(p: string, s: string)
    decreases |p| + |s|
  {
    if p == [] then s == []
    else if p[0] == '*' then Fits(p[1..], s) || (s != [] && s[0] != '\n' && Fits(p, s[1..]))
    else s != [] && s[0] == p[0] && Fits(p[1..], s[1..])
  }

  /** `$` also matches just before a final newline. */
  predicate WildcardMatch(p: string, s: string) {
    Fits(p, s) || (s != [] && s[|s| - 1] == '\n' && Fits(p, s[..|s| - 1]))
  }

  /** _match_value: both sides lower-cased, then the modifier's test; with
      no modifier (or any other one) a wildcard match when the rule value
      holds `*`, and equality otherwise. */
  predicate MatchValue(logValue: string, ruleValue: string, modifier: Option<string>, sv: Services) {
    var l := Lower(logValue);
    var r := Lower(ruleValue);
    if modifier == Some("contains") then Contains(l, r)
    else if modifier == Some("startswith") then r <= l
    else if modifier == Some("endswith") then IsSuffix(r, l)
    else if modifier == Some("re") then sv.search(r, l)
    else if '*' in r then WildcardMatch(r, l)
    else l == r
  }

  /** A pattern without `*` fits exactly itself. */
  lemma {:induction false} FitsLiteral(p: string, s: string)
    requires '*' !in p
    ensures Fits(p, s) <==> s == p
    decreases |p|
  {
    if p != [] && s != [] {
      assert p[1..] <= p[1..] && forall c :: c in p[1..] ==> c in p;
      FitsLiteral(p[1..], s[1..]);
      assert s == [s[0]] + s[1..] && p == [p[0]] + p[1..];
    }
  }

  /** A lone `*` fits exactly the texts without a newline. */
  lemma {:induction false} StarFits(s: string)
    ensures Fits("*", s) <==> '\n' !in s
    decreases |s|
  {
    assert "*"[0] == '*' && "*"[1..] == [];
    if s != [] {
      StarFits(s[1..]);
      assert s == [s[0]] + s[1..];
    }
  }

  /** A text a leading `*` fits splits into a newline-free prefix and a
      rest the remaining pattern fits. */
  lemma {:induction false} FitsStarSplit(q: string, s: string)
    requires Fits("*" + q, s)
    ensures exists i :: 0 <= i <= |s| && '\n' !in s[..i] && Fits(q, s[i..])
    decreases |s|
  {
    var p := "*" + q;
    assert p[0] == '*' && p[1..] == q;
    if Fits(q, s) {
      assert s[..0] == [] && s[0..] == s;
    } else {
      FitsStarSplit(q, s[1..]);
      var j :| 0 <= j <= |s[1..]| && '\n' !in s[1..][..j] && Fits(q, s[1..][j..]);
      assert s[..j + 1] == [s[0]] + s[1..][..j];
      assert s[j + 1..] == s[1..][j..];
    }
  }

  /** A leading `*` absorbs any newline-free prefix. */
  lemma {:induction false} FitsStarJoin(q: string, s: string, i: nat)
    requires i <= |s| && '\n' !in s[..i] && Fits(q, s[i..])
    ensures Fits("*" + q, s)
    decreases i
  {
    var p := "*" + q;
    assert p[0] == '*' && p[1..] == q;
    if i == 0 {
      assert s[0..] == s;
    } else {
      assert s[0] == s[..i][0];
      assert s[1..][..i - 1] == s[1..i] && s[1..][i - 1..] == s[i..];
      assert forall c :: c in s[1..i] ==> c in s[..i];
      FitsStarJoin(q, s[1..], i - 1);
    }
  }

  /** A leading `*` skips any newline-free prefix of the text. */
  lemma FitsStar(q: string, s: string)
    ensures Fits("*" + q, s) <==> exists i :: 0 <= i <= |s| && '\n' !in s[..i] && Fits(q, s[i..])
  {
    if Fits("*" + q, s) {
      FitsStarSplit(q, s);
    }
    if exists i :: 0 <= i <= |s| && '\n' !in s[..i] && Fits(q, s[i..]) {
      var i :| 0 <= i <= |s| && '\n' !in s[..i] && Fits(q, s[i..]);
      FitsStarJoin(q, s, i);
    }
  }

  /** A trailing `*` after a literal: the literal is a prefix and no
      newline follows it. */
  lemma {:induction false} FitsTrailingStar(w: string, t: string)
    requires '*' !in w
    ensures Fits(w + "*", t) <==> w <= t && '\n' !in t[|w|..]
    decreases |w|
  {
    if w == [] {
      assert w + "*" == "*" && t[0..] == t;
      StarFits(t);
    } else {
      var p := w + "*";
      assert p[0] == w[0] && p[1..] == w[1..] + "*";
      assert forall c :: c in w[1..] ==> c in w;
      if t != [] {
        FitsTrailingStar(w[1..], t[1..]);
        if |w| <= |t| {
          assert t[1..][|w| - 1..] == t[|w|..];
        }
        assert w <= t <==> t[0] == w[0] && w[1..] <= t[1..];
      }
    }
  }

  /** On newline-free text, `*w*` with a literal w is the substring test. */
  lemma WildcardContains(w: string, s: string)
    requires '*' !in w && '\n' !in s
    ensures Fits("*" + w + "*", s) <==> Contains(s, w)
  {
    assert "*" + w + "*" == "*" + (w + "*");
    FitsStar(w + "*", s);
    ContainsIff(s, w);
    forall i | 0 <= i <= |s|
      ensures Fits(w + "*", s[i..]) <==> At(s, i, w)
    {
      FitsTrailingStar(w, s[i..]);
      if |w| <= |s| - i {
        forall c | c in s[i..][|w|..]
          ensures c != '\n'
        {
          var k :| 0 <= k < |s[i..][|w|..]| && s[i..][|w|..][k] == c;
          assert s[i + |w| + k] == c;
        }
      }
    }
    forall i | 0 <= i <= |s|
      ensures '\n' !in s[..i]
    {
      assert forall c :: c in s[..i] ==> c in s;
    }
  }

  /** Lower-casing keeps and never creates `*` or newlines. */
  lemma LowerKeeps(s: string, c: char)
    requires c == '*' || c == '\n'
    ensures c in Lower(s) <==> c in s
  {
    if c in s {
      var k :| 0 <= k < |s| && s[k] == c;
      assert Lower(s)[k] == c;
    }
    if c in Lower(s) {
      var k :| 0 <= k < |s| && Lower(s)[k] == c;
      assert s[k] == c;
    }
  }

  /** Matching is case-insensitive on both sides, whatever the modifier. */
  lemma CaseInsensitive(l: string, l': string, r: string, r': string, m: Option<string>, sv: Services)
    requires Lower(l) == Lower(l') && Lower(r) == Lower(r')
    ensures MatchValue(l, r, m, sv) == MatchValue(l', r', m, sv)
  {
  }

  /** Lower-casing the inputs first changes nothing. */
  lemma LoweredInputs(l: string, r: string, m: Option<string>, sv: Services)
    ensures MatchValue(Lower(l), Lower(r), m, sv) == MatchValue(l, r, m, sv)
  {
    LowerIdempotent(l);
    LowerIdempotent(r);
    CaseInsensitive(Lower(l), l, Lower(r), r, m, sv);
  }

  /** contains, startswith and endswith all hold for an empty rule value. */
  lemma EmptyRuleValue(l: string, m: Option<string>, sv: Services)
    requires m == Some("contains") || m == Some("startswith") || m == Some("endswith")
    ensures MatchValue(l, "", m, sv)
  {
    assert At(Lower(l), 0, "");
    ContainsIff(Lower(l), "");
    assert Lower(l)[|Lower(l)|..] == [];
  }

  /** Without a modifier and without `*`, only the equal text (ignoring
      case) matches. */
  lemma PlainIsEquality(l: string, r: string, sv: Services)
    requires '*' !in r
    ensures MatchValue(l, r, None, sv) <==> Lower(l) == Lower(r)
  {
    LowerKeeps(r, '*');
  }

  /** Without a modifier and with `*` as the only special character, the
      rule value matches when the log value fits the glob; `*` never
      crosses a newline, except that a single final newline is ignored. */
  lemma StarredIsContains(l: string, w: string, sv: Services)
    requires '*' !in w && '\n' !in l
    ensures MatchValue(l, "*" + w + "*", None, sv) <==> MatchValue(l, w, Some("contains"), sv)
  {
    var lw := Lower("*" + w + "*");
    assert lw == "*" + Lower(w) + "*";
    assert '*' in lw by { assert lw[0] == '*'; }
    LowerKeeps(w, '*');
    LowerKeeps(l, '\n');
    WildcardContains(Lower(w), Lower(l));
    if Lower(l) != [] {
      assert Lower(l)[|Lower(l)| - 1] in Lower(l);
    }
  }

  // ---------------------------------------------------------------------
  // _evaluate_selection

  /** field_mappings: the rule field names each log type renames. */
  function FieldMap(logType: string): map<string, string> {
    if logType == "linux" then
      map["CommandLine" := "message", "ProcessName" := "program", "User" := "user",
          "SourceIp" := "source_ip", "DestinationIp" := "destination_ip", "Message" := "message"]
    else if logType == "windows" then
      map["CommandLine" := "command_line", "ProcessName" := "process_name",
          "ParentProcessName" := "parent_process_name", "User" := "user_name",
          "EventID" := "event_id", "Channel" := "channel", "Message" := "message"]
    else if logType == "nginx" then
      map["Url" := "path", "RequestMethod" := "method", "StatusCode" := "status_code",
          "UserAgent" := "user_agent", "SourceIp" := "remote_addr", "Referer" := "referer"]
    else map[]
  }

  /** The record field a rule field is read from: the mapped name, or the
      rule's name lower-cased. */
  function LogField(field: string, logType: string): string {
    var m := FieldMap(logType);
    if field in m then m[field] else Lower(field)
  }

  /** `field.split('|', 1)` when the key holds a `|`: the field name and
      the modifier. */
  function SplitKey(key: string): (r: (string, Option<string>))
    ensures r.1.None? <==> '|' !in key
    ensures r.1.None? ==> r.0 == key
    ensures r.1.Some? ==> key == r.0 + "|" + r.1.value && '|' !in r.0
  {
    match Find(key, "|", 0)
    case None =>
      forall k | 0 <= k < |key|
        ensures key[k] != '|'
      {
        assert !At(key, k, "|");
        assert key[k..][..1] == [key[k]];
      }
      (key, None)
    case Some(i) =>
      assert i < |key| && key[i] == '|' by {
        assert "|" <= key[i..];
      }
      forall k | 0 <= k < i
        ensures key[k] != '|'
      {
        assert !At(key, k, "|");
        assert key[k..][..1] == [key[k]];
      }
      assert key == key[..i] + "|" + key[i + 1..];
      (key[..i], Some(key[i + 1..]))
  }

  /** parsed_data as a JSON object's value for the field, or None. */
  function FromParsedData(entry: Record, field: string, sv: Services): Value {
    if "parsed_data" in entry && entry["parsed_data"].Str? then
      match sv.decode(entry["parsed_data"].s)
      case Some(obj) => Get(obj, field)
      case None => Null
    else Null
  }

  /** The value a field is compared with: the record's own, else the
      decoded parsed_data's, else raw_line (default ""). */
  function LookUp(entry: Record, field: string, sv: Services): (v: Value)
    ensures Get(entry, field) != Null ==> v == Get(entry, field)
    ensures Get(entry, field) == Null && FromParsedData(entry, field, sv) != Null ==>
              v == FromParsedData(entry, field, sv)
    ensures Get(entry, field) == Null && FromParsedData(entry, field, sv) == Null ==>
              v == GetOr(entry, "raw_line", Str(""))
  {
    var own := Get(entry, field);
    var v := if own == Null then FromParsedData(entry, field, sv) else own;
    if v == Null then GetOr(entry, "raw_line", Str("")) else v
  }

  /** A list of values needs one matching value; any other value must match. */
  predicate ValuesMatch(logValue: string, values: Yaml, modifier: Option<string>, sv: Services) {
    match values
    case Items(xs, _) => exists i :: 0 <= i < |xs| && MatchValue(logValue, Display(xs[i]), modifier, sv)
    case _ => MatchValue(logValue, Display(values), modifier, sv)
  }

  /** One entry of a selection map. */
  predicate FieldMatches(key: string, values: Yaml, entry: Record, logType: string, sv: Services) {
    var (field, modifier) := SplitKey(key);
    var v := LookUp(entry, LogField(field, logType), sv);
    v != Null && ValuesMatch(ToStr(v), values, modifier, sv)
  }

  /** A selection map matches when every entry does. */
  predicate MapMatches(m: map<string, Yaml>, entry: Record, logType: string, sv: Services) {
    forall key :: key in m ==> FieldMatches(key, m[key], entry, logType, sv)
  }

  /** _evaluate_selection: a falsy selection never matches; a list matches
      when one of its (non-empty) maps does; a map when all its entries do;
      anything else never. */
  predicate SelectionMatches(sel: Yaml, entry: Record, logType: string, sv: Services) {
    if !YamlTruthy(sel) then false
    else
      match sel
      case Items(xs, _) =>
        exists i :: 0 <= i < |xs| && xs[i].Fields? && xs[i].fields != map[] &&
          MapMatches(xs[i].fields, entry, logType, sv)
      case Fields(m, _) => MapMatches(m, entry, logType, sv)
      case Scalar(_) => false
  }

  /** A key `field|modifier` whose field holds no `|` splits back into its
      two parts; the modifier may itself hold `|`. */
  lemma SplitKeyOf(field: string, modifier: string)
    requires '|' !in field
    ensures SplitKey(field + "|" + modifier) == (field, Some(modifier))
  {
    var key := field + "|" + modifier;
    assert key[|field|] == '|';
    var r := SplitKey(key);
    var n := |r.0|;
    assert key[n] == '|';
    assert forall j :: 0 <= j < |field| ==> key[j] == field[j];
    assert forall j :: 0 <= j < n ==> key[j] == r.0[j];
    assert n == |field|;
    assert r.0 == key[..n] == field;
    assert r.1.value == key[n + 1..] == modifier;
  }

  /** A field that neither the record nor parsed_data holds is compared
      with raw_line instead, and fails only when raw_line is None. */
  lemma RawLineFallback(key: string, values: Yaml, entry: Record, logType: string, sv: Services)
    requires LogField(SplitKey(key).0, logType) !in entry && "parsed_data" !in entry
    ensures FieldMatches(key, values, entry, logType, sv) <==>
              GetOr(entry, "raw_line", Str("")) != Null &&
              ValuesMatch(ToStr(GetOr(entry, "raw_line", Str(""))), values, SplitKey(key).1, sv)
  {
  }

  /** A list selection matches exactly when one of its map elements,
      taken as a selection of its own, matches. */
  lemma ListSelection(xs: seq<Yaml>, repr: string, entry: Record, logType: string, sv: Services)
    ensures SelectionMatches(Items(xs, repr), entry, logType, sv) <==>
              exists i :: 0 <= i < |xs| && xs[i].Fields? && SelectionMatches(xs[i], entry, logType, sv)
  {
    if exists i :: 0 <= i < |xs| && xs[i].Fields? && SelectionMatches(xs[i], entry, logType, sv) {
      var i :| 0 <= i < |xs| && xs[i].Fields? && SelectionMatches(xs[i], entry, logType, sv);
      assert YamlTruthy(Items(xs, repr));
    }
  }

  // ---------------------------------------------------------------------
  // _evaluate_rule

  /** detection.get(name, {}). */
  function Selection(detection: map<string, Yaml>, name: string): Yaml {
    if name in detection then detection[name] else Fields(map[], "{}")
  }

  /** The condition string's meaning, given what each named selection
      evaluates to: exactly "selection" names one selection; otherwise the
      first of "and not", "or", "and" found in the string decides how it is
      split and combined, and a condition with none of them is false. */
  predicate EvaluateCondition(c: string, sel: string -> bool) {
    if c == "selection" then sel("selection")
    else if Contains(c, "and not") then
      var parts := SplitOn(c, " and not ");
      |parts| == 2 && sel(Strip(parts[0])) && !sel(Strip(parts[1]))
    else if Contains(c, "or") then AnyNamed(SplitOn(c, " or "), sel)
    else if Contains(c, "and") then AllNamed(SplitOn(c, " and "), sel)
    else false
  }

  /** The or-loop: true at the first part whose selection matches. */
  predicate AnyNamed(parts: seq<string>, sel: string -> bool) {
    parts != [] && (sel(Strip(parts[0])) || AnyNamed(parts[1..], sel))
  }

  /** The and-loop: false at the first part whose selection fails. */
  predicate AllNamed(parts: seq<string>, sel: string -> bool) {
    parts == [] || (sel(Strip(parts[0])) && AllNamed(parts[1..], sel))
  }

  /** Over names that are their own strip(), the or-loop is "some name
      matches". */
  lemma {:induction false} AnyNamedIff(names: seq<string>, sel: string -> bool)
    requires forall k :: 0 <= k < |names| ==> Strip(names[k]) == names[k]
    ensures AnyNamed(names, sel) <==> exists k :: 0 <= k < |names| && sel(names[k])
  {
    if names != [] {
      AnyNamedIff(names[1..], sel);
      if exists k :: 0 <= k < |names| && sel(names[k]) {
        var k :| 0 <= k < |names| && sel(names[k]);
        if k > 0 {
          assert names[1..][k - 1] == names[k];
        }
      }
      if exists k :: 0 <= k < |names[1..]| && sel(names[1..][k]) {
        var k :| 0 <= k < |names[1..]| && sel(names[1..][k]);
        assert names[k + 1] == names[1..][k];
      }
    }
  }

  /** Over names that are their own strip(), the and-loop is "every name
      matches". */
  lemma {:induction false} AllNamedIff(names: seq<string>, sel: string -> bool)
    requires forall k :: 0 <= k < |names| ==> Strip(names[k]) == names[k]
    ensures AllNamed(names, sel) <==> forall k :: 0 <= k < |names| ==> sel(names[k])
  {
    if names != [] {
      AllNamedIff(names[1..], sel);
      if AllNamed(names, sel) {
        forall k | 0 <= k < |names|
          ensures sel(names[k])
        {
          if k > 0 {
            assert names[1..][k - 1] == names[k];
          }
        }
      }
      if forall k :: 0 <= k < |names| ==> sel(names[k]) {
        forall k | 0 <= k < |names[1..]|
          ensures sel(names[1..][k])
        {
          assert names[1..][k] == names[k + 1];
        }
      }
    }
  }

  /** A name without whitespace is its own strip(). */
  lemma StripName(n: string)
    requires n != [] && NoSpace(n)
    ensures Strip(n) == n
  {
  }

  /** `a and not b` holds exactly when a matches and b does not. */
  lemma AndNotCondition(a: string, b: string, sel: string -> bool)
    requires a != [] && b != [] && NoSpace(a) && NoSpace(b)
    ensures EvaluateCondition(a + " and not " + b, sel) == (sel(a) && !sel(b))
  {
    var c := a + " and not " + b;
    assert c == (a + " ") + "and not" + (" " + b);
    AtConcat(a + " ", "and not", " " + b);
    ContainsAt(c, "and not", |a| + 1);
    assert |c| > |"selection"|;
    assert Join([a, b], " and not ") == c by {
      assert [a, b][1..] == [b];
    }
    SplitOnJoin([a, b], " and not ");
    StripName(a);
    StripName(b);
  }

  /** A keyword padded with whitespace, between two texts, is found. */
  lemma PaddedKeyword(n: string, kw: string, rest: string)
    requires |kw| >= 2 && IsSpace(kw[0]) && IsSpace(kw[|kw| - 1])
    ensures Contains(n + kw + rest, kw[1..|kw| - 1]) && n + kw + rest != "selection"
  {
    var c := n + kw + rest;
    var w := kw[1..|kw| - 1];
    assert kw == [kw[0]] + w + [kw[|kw| - 1]];
    assert c == (n + [kw[0]]) + w + ([kw[|kw| - 1]] + rest);
    AtConcat(n + [kw[0]], w, [kw[|kw| - 1]] + rest);
    ContainsAt(c, w, |n| + 1);
    NotBare(c, kw, n, rest);
  }

  /** "selection" has no whitespace, so it is no text with a spaced part. */
  lemma NotBare(c: string, kw: string, n: string, rest: string)
    requires kw != [] && IsSpace(kw[0]) && c == n + kw + rest
    ensures c != "selection"
  {
    assert IsSpace(c[|n|]);
    assert NoSpace("selection");
  }

  /** A condition joined from whitespace-free names by a spaced keyword
      holds the keyword, is not the bare name, and splits back into the
      names, each its own strip(). */
  lemma KeywordJoined(names: seq<string>, sep: string, kw: string)
    requires |names| >= 2 && forall k :: 0 <= k < |names| ==> names[k] != [] && NoSpace(names[k])
    requires sep == [' '] + kw + [' ']
    ensures Contains(Join(names, sep), kw) && Join(names, sep) != "selection"
    ensures SplitOn(Join(names, sep), sep) == names
    ensures forall k :: 0 <= k < |names| ==> Strip(names[k]) == names[k]
  {
    assert Join(names, sep) == names[0] + sep + Join(names[1..], sep);
    PaddedKeyword(names[0], sep, Join(names[1..], sep));
    assert sep[1..|sep| - 1] == kw;
    SplitOnJoin(names, sep);
    forall k | 0 <= k < |names|
      ensures Strip(names[k]) == names[k]
    {
      StripName(names[k]);
    }
  }

  lemma PaddedOr()
    ensures " or " == [' '] + "or" + [' ']
  {
  }

  lemma PaddedAnd()
    ensures " and " == [' '] + "and" + [' ']
  {
  }

  /** The facts the or-branch needs about an or-joined condition. */
  lemma OrJoined(names: seq<string>)
    requires |names| >= 2 && forall k :: 0 <= k < |names| ==> names[k] != [] && NoSpace(names[k])
    ensures Contains(Join(names, " or "), "or") && Join(names, " or ") != "selection"
    ensures SplitOn(Join(names, " or "), " or ") == names
    ensures forall k :: 0 <= k < |names| ==> Strip(names[k]) == names[k]
  {
    PaddedOr();
    KeywordJoined(names, " or ", "or");
  }

  /** The facts the and-branch needs about an and-joined condition. */
  lemma AndJoined(names: seq<string>)
    requires |names| >= 2 && forall k :: 0 <= k < |names| ==> names[k] != [] && NoSpace(names[k])
    ensures Contains(Join(names, " and "), "and") && Join(names, " and ") != "selection"
    ensures SplitOn(Join(names, " and "), " and ") == names
    ensures forall k :: 0 <= k < |names| ==> Strip(names[k]) == names[k]
  {
    PaddedAnd();
    KeywordJoined(names, " and ", "and");
  }

  /** The or-branch of a condition, once its tests are settled. */
  lemma OrBranch(c: string, names: seq<string>, sel: string -> bool)
    requires c != "selection" && !Contains(c, "and not") && Contains(c, "or")
    requires SplitOn(c, " or ") == names
    requires forall k :: 0 <= k < |names| ==> Strip(names[k]) == names[k]
    ensures EvaluateCondition(c, sel) <==> exists k :: 0 <= k < |names| && sel(names[k])
  {
    AnyNamedIff(names, sel);
  }

  /** The and-branch of a condition, once its tests are settled. */
  lemma AndBranch(c: string, names: seq<string>, sel: string -> bool)
    requires c != "selection" && !Contains(c, "and not") && !Contains(c, "or") && Contains(c, "and")
    requires SplitOn(c, " and ") == names
    requires forall k :: 0 <= k < |names| ==> Strip(names[k]) == names[k]
    ensures EvaluateCondition(c, sel) <==> forall k :: 0 <= k < |names| ==> sel(names[k])
  {
    AllNamedIff(names, sel);
  }

  /** `n1 or n2 or ...` holds exactly when one named selection matches. */
  lemma OrCondition(names: seq<string>, sel: string -> bool)
    requires |names| >= 2 && forall k :: 0 <= k < |names| ==> names[k] != [] && NoSpace(names[k])
    requires !Contains(Join(names, " or "), "and not")
    ensures EvaluateCondition(Join(names, " or "), sel) <==> exists k :: 0 <= k < |names| && sel(names[k])
  {
    OrJoined(names);
    OrBranch(Join(names, " or "), names, sel);
  }

  /** `n1 and n2 and ...` (without "or" anywhere in it) holds exactly when
      every named selection matches. */
  lemma AndCondition(names: seq<string>, sel: string -> bool)
    requires |names| >= 2 && forall k :: 0 <= k < |names| ==> names[k] != [] && NoSpace(names[k])
    requires !Contains(Join(names, " and "), "and not") && !Contains(Join(names, " and "), "or")
    ensures EvaluateCondition(Join(names, " and "), sel) <==> forall k :: 0 <= k < |names| ==> sel(names[k])
  {
    AndJoined(names);
    AndBranch(Join(names, " and "), names, sel);
  }

  /** A whitespace-free name holds no spaced keyword and is its own or-list. */
  lemma OneName(w: string)
    requires w != [] && NoSpace(w)
    ensures !Contains(w, "and not") && SplitOn(w, " or ") == [w] && Strip(w) == w
  {
    NoSpaceInfix(w, "and not", 3);
    SplitOnJoin([w], " or ");
    StripName(w);
  }

  /** A single name other than "selection" that happens to contain "or"
      (such as "keywords") is read as a one-name or-list: it matches
      exactly when that selection does. */
  lemma OrInsideName(w: string, sel: string -> bool)
    requires w != [] && NoSpace(w) && w != "selection" && Contains(w, "or")
    ensures EvaluateCondition(w, sel) == sel(w)
  {
    OneName(w);
    OrBranch(w, [w], sel);
  }

  /** Any other single name, such as "selection1" or "filter", is false
      whatever its selection holds. */
  lemma BareNameFalse(w: string, sel: string -> bool)
    requires NoSpace(w) && w != "selection" && !Contains(w, "or") && !Contains(w, "and")
    ensures !EvaluateCondition(w, sel)
  {
    NoSpaceInfix(w, "and not", 3);
  }

  /** What each name of the rule's detection map evaluates to on the entry. */
  function Selections(rule: Rule, entry: Record, logType: string, sv: Services): string -> bool {
    name => SelectionMatches(Selection(rule.detection, name), entry, logType, sv)
  }

  /** `k in condition` for a condition that is a YAML sequence or mapping. */
  predicate Holds(cond: Yaml, k: string) {
    match cond
    case Items(xs, _) => Scalar(Str(k)) in xs
    case Fields(m, _) => k in m
    case Scalar(_) => false
  }

  /** _evaluate_rule: None where Python raises.  A string condition (by
      default "selection") is evaluated.  A sequence or mapping condition
      is false unless it holds "and not", "or" or "and", where the split
      that follows raises; a condition of any other type raises at the
      first `in` test. */
  function EvaluateRule(rule: Rule, entry: Record, logType: string, sv: Services): (r: Option<bool>)
    ensures "condition" !in rule.detection ==>
              r == Some(SelectionMatches(Selection(rule.detection, "selection"), entry, logType, sv))
    ensures r.None? <==> "condition" in rule.detection && var c := rule.detection["condition"];
              ((!c.Items? && !c.Fields? && !(c.Scalar? && c.v.Str?)) ||
               Holds(c, "and not") || Holds(c, "or") || Holds(c, "and"))
  {
    var cond := if "condition" in rule.detection then rule.detection["condition"] else Scalar(Str("selection"));
    match cond
    case Scalar(v) =>
      if v.Str? then Some(EvaluateCondition(v.s, Selections(rule, entry, logType, sv))) else None
    case _ =>
      if Holds(cond, "and not") || Holds(cond, "or") || Holds(cond, "and") then None else Some(false)
  }

  // ---------------------------------------------------------------------
  // _create_alert and _extract_matched_fields

  /** The fields an alert copies from the record, when present. */
  const MatchedKeys: set<string> :=
    {"timestamp", "hostname", "program", "message", "event_id", "channel", "method", "path", "status_code"}

  /** _extract_matched_fields. */
  function MatchedFields(entry: Record): (m: Record)
    ensures m.Keys == entry.Keys * MatchedKeys
    ensures forall k :: k in m ==> m[k] == entry[k]
  {
    map k | k in entry && k in MatchedKeys :: entry[k]
  }

  /** The alert dict. */
  datatype Alert = Alert(
    timestamp: string, alertId: string, ruleId: string, ruleTitle: string,
    ruleDescription: string, severity: string, logId: Value, logType: Value,
    hostname: Value, ipAddress: Value, rawLine: string, matchedFields: Record,
    falsePositives: seq<Yaml>, references: seq<Yaml>)

  /** `log_entry.get('raw_line', '')[:500]`: a string's first 500
      characters; None where slicing raises. */
  function RawPrefix(entry: Record): (r: Option<string>)
    ensures "raw_line" !in entry ==> r == Some("")
    ensures r.Some? && "raw_line" in entry ==>
              entry["raw_line"].Str? && r.value <= entry["raw_line"].s &&
              |r.value| == if |entry["raw_line"].s| < 500 then |entry["raw_line"].s| else 500
    ensures r.None? <==> "raw_line" in entry && !entry["raw_line"].Str?
  {
    match GetOr(entry, "raw_line", Str(""))
    case Str(s) => Some(if |s| <= 500 then s else s[..500])
    case _ => None
  }

  /** _create_alert, with datetime.now().isoformat() given as now. */
  function CreateAlert(rule: Rule, entry: Record, now: string): (r: Option<Alert>)
    ensures r.Some? <==> RawPrefix(entry).Some?
    ensures r.Some? ==>
              r.value.alertId == rule.id + "_" + ToStr(GetOr(entry, "id", Str("unknown"))) &&
              r.value.ruleId == rule.id && r.value.severity == rule.level &&
              r.value.logId == Get(entry, "id") && r.value.logType == Get(entry, "log_type") &&
              r.value.rawLine == RawPrefix(entry).value &&
              r.value.matchedFields == MatchedFields(entry)
    ensures r.Some? ==>
              r.value.timestamp == now && r.value.ruleTitle == rule.title &&
              r.value.ruleDescription == rule.description &&
              r.value.hostname == Get(entry, "hostname") && r.value.ipAddress == Get(entry, "ip_address") &&
              r.value.falsePositives == rule.falsePositives && r.value.references == rule.references
  {
    match RawPrefix(entry)
    case None => None
    case Some(raw) =>
      Some(Alert(now, rule.id + "_" + ToStr(GetOr(entry, "id", Str("unknown"))), rule.id,
                 rule.title, rule.description, rule.level, Get(entry, "id"), Get(entry, "log_type"),
                 Get(entry, "hostname"), Get(entry, "ip_address"), raw, MatchedFields(entry),
                 rule.falsePositives, rule.references))
  }

  // ---------------------------------------------------------------------
  // match_log

  /** The loaded rules, by log type. */
  datatype Engine = Engine(linux: seq<Rule>, windows: seq<Rule>, nginx: seq<Rule>)

  /** `self.rules[log_type]`, when log_type is truthy and one of its keys. */
  function RulesFor(e: Engine, logType: Value): (r: Option<seq<Rule>>)
    ensures r.Some? <==> logType in {Str("linux"), Str("windows"), Str("nginx")}
  {
    if logType == Str("linux") then Some(e.linux)
    else if logType == Str("windows") then Some(e.windows)
    else if logType == Str("nginx") then Some(e.nginx)
    else None
  }

  /** The alerts of the rules, in order, given how each rule evaluates
      and how its alert is built; None when either raises. */
  function Alerts(rules: seq<Rule>, eval: Rule -> Option<bool>, make: Rule -> Option<Alert>): Option<seq<Alert>>
    decreases |rules|
  {
    if rules == [] then Some([])
    else
      match eval(rules[0])
      case None => None
      case Some(hit) =>
        var rest := Alerts(rules[1..], eval, make);
        if !hit then rest
        else
          match make(rules[0])
          case None => None
          case Some(a) => if rest.None? then None else Some([a] + rest.value)
  }

  /** The rules that fire, in order. */
  function Fired(rules: seq<Rule>, eval: Rule -> Option<bool>): (fs: seq<Rule>)
    ensures forall k :: 0 <= k < |fs| ==> fs[k] in rules && eval(fs[k]) == Some(true)
    decreases |rules|
  {
    if rules == [] then []
    else (if eval(rules[0]) == Some(true) then [rules[0]] else []) + Fired(rules[1..], eval)
  }

  /** Some rule raises, or fires with an alert that raises. */
  predicate Raises(rules: seq<Rule>, eval: Rule -> Option<bool>, make: Rule -> Option<Alert>) {
    exists i :: 0 <= i < |rules| && (eval(rules[i]).None? || (eval(rules[i]) == Some(true) && make(rules[i]).None?))
  }

  /** The alert list fails exactly when some rule raises, or fires with an
      alert that raises, wherever that rule stands in the list. */
  lemma {:induction false} AlertsRaise(rules: seq<Rule>, eval: Rule -> Option<bool>, make: Rule -> Option<Alert>)
    ensures Alerts(rules, eval, make).None? <==> Raises(rules, eval, make)
    decreases |rules|
  {
    if rules != [] {
      AlertsRaise(rules[1..], eval, make);
      if Raises(rules[1..], eval, make) {
        var i :| 0 <= i < |rules[1..]| && (eval(rules[1..][i]).None? ||
                 (eval(rules[1..][i]) == Some(true) && make(rules[1..][i]).None?));
        assert rules[i + 1] == rules[1..][i];
      }
      if Raises(rules, eval, make) {
        var i :| 0 <= i < |rules| && (eval(rules[i]).None? || (eval(rules[i]) == Some(true) && make(rules[i]).None?));
        if i > 0 {
          assert rules[1..][i - 1] == rules[i];
        }
      }
    }
  }

  /** When nothing raises, there is one alert per rule that fires, in rule
      order, each built from its rule. */
  lemma {:induction false} AlertsFired(rules: seq<Rule>, eval: Rule -> Option<bool>, make: Rule -> Option<Alert>)
    requires !Raises(rules, eval, make)
    ensures Alerts(rules, eval, make).Some?
    ensures |Alerts(rules, eval, make).value| == |Fired(rules, eval)|
    ensures forall k :: 0 <= k < |Fired(rules, eval)| ==>
              make(Fired(rules, eval)[k]) == Some(Alerts(rules, eval, make).value[k])
    decreases |rules|
  {
    if rules != [] {
      NoRaiseSplit(rules, eval, make);
      AlertsFired(rules[1..], eval, make);
      var rest := Alerts(rules[1..], eval, make).value;
      var fs := Fired(rules[1..], eval);
      if eval(rules[0]) == Some(true) {
        var a := make(rules[0]).value;
        assert Alerts(rules, eval, make) == Some([a] + rest);
        assert Fired(rules, eval) == [rules[0]] + fs;
        forall k | 0 < k < |fs| + 1
          ensures make(([rules[0]] + fs)[k]) == Some(([a] + rest)[k])
        {
          assert ([rules[0]] + fs)[k] == fs[k - 1];
          assert ([a] + rest)[k] == rest[k - 1];
        }
      } else {
        assert Alerts(rules, eval, make) == Some(rest);
        assert Fired(rules, eval) == fs;
      }
    }
  }

  /** A list that does not raise starts with a rule that does not raise, and its tail does not raise either. */
  lemma NoRaiseSplit(rules: seq<Rule>, eval: Rule -> Option<bool>, make: Rule -> Option<Alert>)
    requires rules != [] && !Raises(rules, eval, make)
    ensures !Raises(rules[1..], eval, make)
    ensures eval(rules[0]).Some? && (eval(rules[0]) == Some(true) ==> make(rules[0]).Some?)
  {
    forall i | 0 <= i < |rules[1..]|
      ensures !(eval(rules[1..][i]).None? || (eval(rules[1..][i]) == Some(true) && make(rules[1..][i]).None?))
    {
      assert rules[1..][i] == rules[i + 1];
    }
  }

  /** How each rule evaluates on the record. */
  function Verdicts(entry: Record, logType: string, sv: Services): Rule -> Option<bool> {
    rule => EvaluateRule(rule, entry, logType, sv)
  }

  /** How each rule's alert is built for the record. */
  function Maker(entry: Record, now: string): Rule -> Option<Alert> {
    rule => CreateAlert(rule, entry, now)
  }

  /** match_log as a function of the engine and the record. */
  function MatchLogSpec(e: Engine, entry: Record, sv: Services, now: string): Option<seq<Alert>> {
    match RulesFor(e, Get(entry, "log_type"))
    case None => Some([])
    case Some(rules) => Alerts(rules, Verdicts(entry, Get(entry, "log_type").s, sv), Maker(entry, now))
  }

  /** For a record of a ruled type whose raw_line is text, when no rule
      raises: one alert per firing rule, in rule order, each carrying its
      rule's id and the alert id `<rule id>_<log id>`. */
  lemma MatchLogFired(e: Engine, entry: Record, sv: Services, now: string)
    requires RulesFor(e, Get(entry, "log_type")).Some? && RawPrefix(entry).Some?
    requires var rules := RulesFor(e, Get(entry, "log_type")).value;
             forall i :: 0 <= i < |rules| ==> Verdicts(entry, Get(entry, "log_type").s, sv)(rules[i]).Some?
    ensures var rules := RulesFor(e, Get(entry, "log_type")).value;
            var fired := Fired(rules, Verdicts(entry, Get(entry, "log_type").s, sv));
            var r := MatchLogSpec(e, entry, sv, now);
            r.Some? && |r.value| == |fired| &&
            forall k :: 0 <= k < |fired| ==>
              r.value[k].ruleId == fired[k].id &&
              r.value[k].alertId == fired[k].id + "_" + ToStr(GetOr(entry, "id", Str("unknown")))
  {
    var rules := RulesFor(e, Get(entry, "log_type")).value;
    var eval := Verdicts(entry, Get(entry, "log_type").s, sv);
    var make := Maker(entry, now);
    assert !Raises(rules, eval, make);
    AlertsFired(rules, eval, make);
  }

  /** xs before the outcome of the rest. */
  function Prepend(xs: seq<Alert>, rest: Option<seq<Alert>>): Option<seq<Alert>> {
    if rest.None? then None else Some(xs + rest.value)
  }

  /** match_log: the alerts of the rules of the record's log type; none
      for a record of any other type. */
  method MatchLog(e: Engine, entry: Record, sv: Services, now: string) returns (r: Option<seq<Alert>>)
    ensures r == MatchLogSpec(e, entry, sv, now)
    ensures RulesFor(e, Get(entry, "log_type")).None? ==> r == Some([])
  {
    var logType := Get(entry, "log_type");
    var found := RulesFor(e, logType);
    if found.None? {
      return Some([]);
    }
    var rules := found.value;
    ghost var eval := Verdicts(entry, logType.s, sv);
    ghost var make := Maker(entry, now);
    var alerts: seq<Alert> := [];
    assert rules[0..] == rules;
    PrependEmpty(Alerts(rules, eval, make));
    for i := 0 to |rules|
      invariant Alerts(rules, eval, make) == Prepend(alerts, Alerts(rules[i..], eval, make))
    {
      assert rules[i..][0] == rules[i] && rules[i..][1..] == rules[i + 1..];
      var hit := EvaluateRule(rules[i], entry, logType.s, sv);
      if hit.None? {
        return None;
      }
      if hit.value {
        var alert := CreateAlert(rules[i], entry, now);
        if alert.None? {
          return None;
        }
        PrependAssoc(alerts, alert.value, Alerts(rules[i + 1..], eval, make));
        alerts := alerts + [alert.value];
      }
    }
    assert rules[|rules|..] == [];
    assert alerts + [] == alerts;
    return Some(alerts);
  }

  lemma PrependEmpty(rest: Option<seq<Alert>>)
    ensures Prepend([], rest) == rest
  {
    if rest.Some? {
      assert [] + rest.value == rest.value;
    }
  }

  lemma PrependAssoc(xs: seq<Alert>, a: Alert, rest: Option<seq<Alert>>)
    ensures Prepend(xs, if rest.None? then None else Some([a] + rest.value)) == Prepend(xs + [a], rest)
  {
    if rest.Some? {
      assert xs + ([a] + rest.value) == xs + [a] + rest.value;
    }
  }
}

=== FILE: sigma_worker.dfy ===
/*
 * The detection worker (src/workers/sigma_rule_worker.py): it polls the
 * log_entry table for entries above its checkpoint, matches each against
 * the loaded Sigma rules and stores the alerts.  The database is an
 * abstract one: a log_entry table in id order, the servers, the rows of
 * the per-type detail tables, the alert table, and a script of faults for
 * create_alert.  Writes by other processes (the ingestion worker) arrive
 * between polls as a parameter.
 */

module DetectionWorker {
  import opened Wrappers
  import opened Values
  import opened SigmaEngine
  import Ingestion

  // ---------------------------------------------------------------------
  // The database as the worker sees it

  /** The columns of a log_entry row: its server, the receive time as
      isoformat() renders it (None when unset), log_source and content. */
  datatype LogFields = LogFields(serverId: nat, recvTime: Value, logSource: Value, content: Value)

  datatype StoredLog = StoredLog(id: nat, fields: LogFields)

  /** A row of the alert table: the log entry and server it belongs to, the
      rule's id, title, description and level, and the alert itself as
      its metadata. */
  datatype AlertRow = AlertRow(logEntryId: nat, serverId: nat, ruleId: string, title: string,
                               description: string, severity: string, alert: Alert)

  /** The tables: servers (id = position + 1), log entries in ascending id
      order, the rows of the three detail tables (each as its log type and
      the id of the entry it belongs to), the alerts, and the outcome of the coming create_alert calls (a
      `true` raises; past the end of the script every call succeeds). */
  datatype DbState = DbState(servers: seq<Ingestion.ServerKey>, logs: seq<StoredLog>,
                             details: set<(string, nat)>, alerts: seq<AlertRow>, faults: seq<bool>)

  predicate Ascending(logs: seq<StoredLog>) {
    forall i, j :: 0 <= i < j < |logs| ==> logs[i].id < logs[j].id
  }

  function Max(a: int, b: int): int {
    if a < b then b else a
  }

  /** _get_latest_log_id: the largest id in the table, or 0 when it is
      empty. */
  function LatestId(logs: seq<StoredLog>): (n: nat)
    ensures forall i :: 0 <= i < |logs| ==> logs[i].id <= n
    ensures n == 0 || exists i :: 0 <= i < |logs| && logs[i].id == n
    ensures logs == [] ==> n == 0
  {
    if logs == [] then 0
    else Max(LatestId(logs[..|logs| - 1]), logs[|logs| - 1].id)
  }

  /** The entries with id above the checkpoint, in table order. */
  function Pending(logs: seq<StoredLog>, checkpoint: int): (r: seq<StoredLog>)
    ensures forall l :: l in r <==> l in logs && l.id > checkpoint
  {
    if logs == [] then []
    else
      assert forall l :: l in logs <==> l == logs[0] || l in logs[1..];
      if logs[0].id > checkpoint then [logs[0]] + Pending(logs[1..], checkpoint)
      else Pending(logs[1..], checkpoint)
  }

  lemma AscendingSplit(logs: seq<StoredLog>)
    requires logs != [] && Ascending(logs)
    ensures Ascending(logs[1..]) && forall l :: l in logs[1..] ==> logs[0].id < l.id
  {
    var tail := logs[1..];
    forall i, j | 0 <= i < j < |tail|
      ensures tail[i].id < tail[j].id
    {
      assert tail[i] == logs[i + 1] && tail[j] == logs[j + 1];
    }
    forall l | l in tail
      ensures logs[0].id < l.id
    {
      var k :| 0 <= k < |tail| && tail[k] == l;
      assert logs[k + 1] == l;
    }
  }

  lemma AscendingCons(x: StoredLog, rest: seq<StoredLog>)
    requires Ascending(rest) && forall l :: l in rest ==> x.id < l.id
    ensures Ascending([x] + rest)
  {
    var r := [x] + rest;
    forall i, j | 0 <= i < j < |r|
      ensures r[i].id < r[j].id
    {
      assert r[j] == rest[j - 1];
      if i > 0 {
        assert r[i] == rest[i - 1];
      }
    }
  }

  /** Filtering keeps the entries in ascending id order. */
  lemma {:induction false} PendingAscending(logs: seq<StoredLog>, checkpoint: int)
    ensures Ascending(logs) ==> Ascending(Pending(logs, checkpoint))
    decreases |logs|
  {
    if logs != [] && Ascending(logs) {
      AscendingSplit(logs);
      PendingAscending(logs[1..], checkpoint);
      if logs[0].id > checkpoint {
        AscendingCons(logs[0], Pending(logs[1..], checkpoint));
      }
    }
  }

  /** The query of _get_unprocessed_logs: `id > checkpoint`, ascending by
      id, at most limit entries. */
  function Unprocessed(logs: seq<StoredLog>, checkpoint: int, limit: nat): (r: seq<StoredLog>)
    ensures |r| <= limit
    ensures forall l :: l in r ==> l in logs && l.id > checkpoint
    ensures Ascending(logs) ==> Ascending(r)
    ensures r <= Pending(logs, checkpoint)
    ensures |r| < limit ==> r == Pending(logs, checkpoint)
  {
    var p := Pending(logs, checkpoint);
    PendingAscending(logs, checkpoint);
    if |p| <= limit then p else p[..limit]
  }

  /** The server of the outer join, when there is one with that id. */
  function ServerOf(servers: seq<Ingestion.ServerKey>, sid: nat): Option<Ingestion.ServerKey> {
    if 1 <= sid <= |servers| then Some(servers[sid - 1]) else None
  }

  /** The base keys of a polled record. */
  const BaseKeys: set<string> := {"id", "timestamp", "recv_time", "log_type", "raw_line", "hostname", "ip_address"}

  /** The dict _get_unprocessed_logs builds for an entry from the entry and
      its server: exactly the base keys, with the entry's id, receive time,
      type and content, and the server's hostname and address (None without
      a server). */
  function LogDict(l: StoredLog, server: Option<Ingestion.ServerKey>): (r: Record)
    ensures r.Keys == BaseKeys
    ensures r["id"] == Int(l.id) && r["log_type"] == l.fields.logSource && r["raw_line"] == l.fields.content
    ensures r["timestamp"] == l.fields.recvTime && r["recv_time"] == l.fields.recvTime
    ensures server.None? ==> r["hostname"] == Null && r["ip_address"] == Null
    ensures server.Some? ==> r["hostname"] == server.value.hostname && r["ip_address"] == server.value.ip
  {
    map["id" := Int(l.id), "timestamp" := l.fields.recvTime, "recv_time" := l.fields.recvTime,
        "log_type" := l.fields.logSource, "raw_line" := l.fields.content,
        "hostname" := if server.Some? then server.value.hostname else Null,
        "ip_address" := if server.Some? then server.value.ip else Null]
  }

  /** The log types that have a detail table. */
  const DetailTypes: set<string> := {"linux", "windows", "nginx"}

  /** Reading the detail row of an entry raises AttributeError: the columns
      _get_unprocessed_logs reads (facility, channel, method) are not
      columns of LinuxLogDetails, WindowsLogDetails or NginxLogDetails.  So
      an entry of one of the three types that has a row in its type's
      detail table makes the poll raise. */
  predicate DetailRaises(st: DbState, l: StoredLog) {
    l.fields.logSource.Str? && l.fields.logSource.s in DetailTypes && (l.fields.logSource.s, l.id) in st.details
  }

  /** A polled log: its id and its dict. */
  datatype Polled = Polled(id: nat, log: Record)

  function PolledOf(st: DbState, l: StoredLog): Polled {
    Polled(l.id, LogDict(l, ServerOf(st.servers, l.fields.serverId)))
  }

  /** The dicts of the entries, in order; None (the raise) when one of the
      entries has a detail row. */
  function Dicts(st: DbState, ls: seq<StoredLog>): (r: Option<seq<Polled>>)
    ensures r.None? <==> exists k :: 0 <= k < |ls| && DetailRaises(st, ls[k])
    ensures r.Some? ==> |r.value| == |ls| && forall k :: 0 <= k < |ls| ==> r.value[k] == PolledOf(st, ls[k])
    decreases |ls|
  {
    if ls == [] then Some([])
    else
      var init, l := ls[..|ls| - 1], ls[|ls| - 1];
      assert forall k :: 0 <= k < |init| ==> init[k] == ls[k];
      match Dicts(st, init)
      case None => None
      case Some(ps) => if DetailRaises(st, l) then None else Some(ps + [PolledOf(st, l)])
  }

  /** _get_unprocessed_logs over the database st. */
  function Poll(st: DbState, checkpoint: int, limit: nat): Option<seq<Polled>> {
    Dicts(st, Unprocessed(st.logs, checkpoint, limit))
  }

  /** The poll raises exactly when one of the entries the query returns has
      a detail row; otherwise it returns at most limit logs, above the
      checkpoint, in ascending id order, each dict carrying its entry's id. */
  lemma PollShape(st: DbState, checkpoint: int, limit: nat)
    requires Ascending(st.logs)
    ensures Poll(st, checkpoint, limit).None? <==>
              exists l :: l in Unprocessed(st.logs, checkpoint, limit) && DetailRaises(st, l)
    ensures Poll(st, checkpoint, limit).Some? ==>
            var r := Poll(st, checkpoint, limit).value;
            |r| <= limit &&
            (forall k :: 0 <= k < |r| ==> r[k].id > checkpoint && r[k].log["id"] == Int(r[k].id)) &&
            (forall i, j :: 0 <= i < j < |r| ==> r[i].id < r[j].id)
  {
    var u := Unprocessed(st.logs, checkpoint, limit);
    if exists l :: l in u && DetailRaises(st, l) {
      var l :| l in u && DetailRaises(st, l);
      var k :| 0 <= k < |u| && u[k] == l;
    }
    if Poll(st, checkpoint, limit).Some? {
      var r := Poll(st, checkpoint, limit).value;
      forall k | 0 <= k < |r|
        ensures r[k].id > checkpoint && r[k].log["id"] == Int(r[k].id)
      {
        assert u[k] in u;
      }
    }
  }

  /** When the poll returns fewer than limit logs, every entry above the
      checkpoint is among them. */
  lemma PollComplete(st: DbState, checkpoint: int, limit: nat)
    requires Poll(st, checkpoint, limit).Some? && |Poll(st, checkpoint, limit).value| < limit
    ensures forall l :: l in st.logs && l.id > checkpoint ==>
              exists k :: 0 <= k < |Poll(st, checkpoint, limit).value| && Poll(st, checkpoint, limit).value[k].id == l.id
  {
    var u := Unprocessed(st.logs, checkpoint, limit);
    var r := Poll(st, checkpoint, limit).value;
    forall l | l in st.logs && l.id > checkpoint
      ensures exists k :: 0 <= k < |r| && r[k].id == l.id
    {
      var k :| 0 <= k < |u| && u[k] == l;
      assert r[k].id == l.id;
    }
  }

  /** `filter_by(id=log_id).first()`: the entry with that id. */
  function Find(logs: seq<StoredLog>, v: Value): (r: Option<StoredLog>)
    ensures r.Some? ==> r.value in logs && v == Int(r.value.id)
    ensures r.None? ==> forall l :: l in logs ==> v != Int(l.id)
  {
    if logs == [] then None
    else if v == Int(logs[0].id) then Some(logs[0])
    else
      var r := Find(logs[1..], v);
      assert forall l :: l in logs ==> l == logs[0] || l in logs[1..];
      r
  }

  /** The alert row create_alert writes for an alert of the entry l. */
  function RowFor(a: Alert, l: StoredLog): AlertRow {
    AlertRow(l.id, l.fields.serverId, a.ruleId, a.ruleTitle, a.ruleDescription, a.severity, a)
  }

  /** create_alert: appends the row, or raises as the script says. */
  function CreateCall(st: DbState, row: AlertRow): (r: (DbState, bool))
    ensures r.1 ==> r.0.alerts == st.alerts + [row]
    ensures !r.1 ==> r.0.alerts == st.alerts
    ensures r.0.logs == st.logs && r.0.servers == st.servers && r.0.details == st.details
  {
    var s := st.(faults := if st.faults == [] then [] else st.faults[1..]);
    if st.faults != [] && st.faults[0] then (s, false)
    else (s.(alerts := st.alerts + [row]), true)
  }

  /** One alert of _store_alerts: skipped when its log entry is missing,
      otherwise created unless create_alert raises. */
  function StoreOne(st: DbState, a: Alert): DbState {
    match Find(st.logs, a.logId)
    case None => st
    case Some(l) => CreateCall(st, RowFor(a, l)).0
  }

  /** _store_alerts: the alerts in order; a failing one does not stop the
      rest.  Alert rows are only appended, at most one per alert. */
  function StoreAll(st: DbState, alerts: seq<Alert>): (out: DbState)
    ensures st.alerts <= out.alerts && |out.alerts| <= |st.alerts| + |alerts|
    ensures out.logs == st.logs && out.servers == st.servers && out.details == st.details
    decreases |alerts|
  {
    if alerts == [] then st
    else StoreOne(StoreAll(st, alerts[..|alerts| - 1]), alerts[|alerts| - 1])
  }

  /** An alert row filed under the entry whose id its alert carries, for
      one of the given alerts. */
  predicate Filed(logs: seq<StoredLog>, row: AlertRow, alerts: seq<Alert>) {
    row.alert in alerts && Find(logs, row.alert.logId).Some? && row.alert.logId == Int(row.logEntryId)
  }

  /** Every alert row _store_alerts adds is one of the alerts, filed under
      the log entry whose id the alert carries. */
  lemma {:induction false} StoreAllRows(st: DbState, alerts: seq<Alert>)
    ensures forall j :: |st.alerts| <= j < |StoreAll(st, alerts).alerts| ==>
              Filed(st.logs, StoreAll(st, alerts).alerts[j], alerts)
    decreases |alerts|
  {
    if alerts != [] {
      var init := alerts[..|alerts| - 1];
      var a := alerts[|alerts| - 1];
      StoreAllRows(st, init);
      var before := StoreAll(st, init);
      var out := StoreAll(st, alerts);
      assert out == StoreOne(before, a);
      forall j | |st.alerts| <= j < |out.alerts|
        ensures Filed(st.logs, out.alerts[j], alerts)
      {
        if j < |before.alerts| {
          assert out.alerts[j] == before.alerts[j];
          assert Filed(st.logs, before.alerts[j], init);
          var k :| 0 <= k < |init| && init[k] == before.alerts[j].alert;
          assert alerts[k] == init[k];
        } else {
          var l := Find(before.logs, a.logId);
          assert l.Some?;
          assert out.alerts[j] == RowFor(a, l.value);
        }
      }
    }
  }

  /** With a store that never fails and every log entry present, each
      alert becomes one row, in order. */
  lemma {:induction false} StoreAllClean(st: DbState, alerts: seq<Alert>)
    requires st.faults == []
    requires forall k :: 0 <= k < |alerts| ==> Find(st.logs, alerts[k].logId).Some?
    ensures var out := StoreAll(st, alerts);
            out.faults == [] && |out.alerts| == |st.alerts| + |alerts| &&
            forall k :: 0 <= k < |alerts| ==> out.alerts[|st.alerts| + k].alert == alerts[k]
    decreases |alerts|
  {
    if alerts != [] {
      var init := alerts[..|alerts| - 1];
      StoreAllClean(st, init);
      var before := StoreAll(st, init);
      var out := StoreAll(st, alerts);
      forall k | 0 <= k < |alerts|
        ensures out.alerts[|st.alerts| + k].alert == alerts[k]
      {
        if k < |alerts| - 1 {
          assert init[k] == alerts[k];
          assert out.alerts[|st.alerts| + k] == before.alerts[|st.alerts| + k];
        }
      }
    }
  }

  /** Alerts whose log entries are all missing change nothing. */
  lemma {:induction false} StoreAllMissing(st: DbState, alerts: seq<Alert>)
    requires forall k :: 0 <= k < |alerts| ==> Find(st.logs, alerts[k].logId).None?
    ensures StoreAll(st, alerts) == st
    decreases |alerts|
  {
    if alerts != [] {
      StoreAllMissing(st, alerts[..|alerts| - 1]);
    }
  }

  /** Storing two runs of alerts one after the other is storing them
      together. */
  lemma {:induction false} StoreAllAppend(st: DbState, a: seq<Alert>, b: seq<Alert>)
    ensures StoreAll(StoreAll(st, a), b) == StoreAll(st, a + b)
    decreases |b|
  {
    if b == [] {
      assert a + b == a;
    } else {
      var init := b[..|b| - 1];
      StoreAllAppend(st, a, init);
      assert (a + b)[..|a + b| - 1] == a + init;
    }
  }

  /** The number of create_alert calls _store_alerts makes for the alerts:
      one per alert whose log entry exists. */
  function Calls(logs: seq<StoredLog>, alerts: seq<Alert>): nat
    decreases |alerts|
  {
    if alerts == [] then 0
    else Calls(logs, alerts[..|alerts| - 1]) + if Find(logs, alerts[|alerts| - 1].logId).Some? then 1 else 0
  }

  /** Whether create_alert call number n (from 0) of the script raises. */
  predicate CallFails(faults: seq<bool>, n: nat) {
    n < |faults| && faults[n]
  }

  /** After the alerts, the fault script has moved on by one entry per
      create_alert call. */
  lemma {:induction false} StoreAllFaults(st: DbState, alerts: seq<Alert>)
    ensures var n := Calls(st.logs, alerts);
            StoreAll(st, alerts).faults == if n < |st.faults| then st.faults[n..] else []
    decreases |alerts|
  {
    if alerts != [] {
      StoreAllFaults(st, alerts[..|alerts| - 1]);
    }
  }

  /** One more alert after the alerts p: a row when its log entry exists
      and its create_alert call, numbered by the calls of p, does not
      raise. */
  lemma StoreAllStep(st: DbState, p: seq<Alert>, a: Alert)
    ensures var e := Find(st.logs, a.logId);
            var stored := e.Some? && !CallFails(st.faults, Calls(st.logs, p));
            StoreAll(st, p + [a]).alerts == StoreAll(st, p).alerts + (if stored then [RowFor(a, e.value)] else [])
  {
    var q := p + [a];
    assert q[..|q| - 1] == p && q[|q| - 1] == a;
    var before := StoreAll(st, p);
    assert StoreAll(st, q) == StoreOne(before, a);
    StoreAllFaults(st, p);
  }

  /** Whatever the fault script, alert k of _store_alerts adds exactly one
      row, after the rows of the alerts before it, when its log entry
      exists and its own create_alert call does not raise (the call
      numbered by the calls of the alerts before it, whatever they did),
      and no row otherwise; the rows of later alerts come after it. */
  lemma StoreAllAlert(st: DbState, alerts: seq<Alert>, k: nat)
    requires k < |alerts|
    ensures var e := Find(st.logs, alerts[k].logId);
            var stored := e.Some? && !CallFails(st.faults, Calls(st.logs, alerts[..k]));
            StoreAll(st, alerts[..k + 1]).alerts ==
              StoreAll(st, alerts[..k]).alerts + (if stored then [RowFor(alerts[k], e.value)] else [])
    ensures StoreAll(st, alerts[..k + 1]).alerts <= StoreAll(st, alerts).alerts
  {
    assert alerts[..k + 1] == alerts[..k] + [alerts[k]];
    StoreAllStep(st, alerts[..k], alerts[k]);
    StoreAllPrefix(st, alerts, k + 1);
  }

  /** The rows of the first n alerts come first. */
  lemma StoreAllPrefix(st: DbState, alerts: seq<Alert>, n: nat)
    requires n <= |alerts|
    ensures StoreAll(st, alerts[..n]).alerts <= StoreAll(st, alerts).alerts
  {
    var p, q := alerts[..n], alerts[n..];
    assert p + q == alerts;
    StoreAllAppend(st, p, q);
  }

  // ---------------------------------------------------------------------
  // _process_batch as a function of its logs

  /** What _process_batch has done so far: the checkpoint, the logs
      processed and failed, the alerts generated, and the database. */
  datatype Tally = Tally(checkpoint: int, processed: nat, failed: nat, alerts: nat, db: DbState)

  /** match_log of each polled log with the loaded rules. */
  function Judge(e: Engine, sv: Services, now: string): Polled -> Option<seq<Alert>> {
    (p: Polled) => MatchLogSpec(e, p.log, sv, now)
  }

  /** One log of _process_batch, given what match_log did with it (None
      where it raises): a raise counts as a failure and leaves the
      checkpoint; otherwise the alerts are stored, counted, and the
      checkpoint moves up to the log's id. */
  function Settle(t: Tally, id: nat, verdict: Option<seq<Alert>>): (out: Tally)
    ensures verdict.None? ==> out == t.(failed := t.failed + 1)
    ensures verdict.Some? ==> out.processed == t.processed + 1 && out.failed == t.failed &&
                              out.checkpoint == Max(t.checkpoint, id) && out.checkpoint >= id
    ensures verdict.Some? ==> out.alerts == t.alerts + |verdict.value| && out.db == StoreAll(t.db, verdict.value)
    ensures out.checkpoint >= t.checkpoint
  {
    match verdict
    case None => t.(failed := t.failed + 1)
    case Some(alerts) =>
      Tally(Max(t.checkpoint, id), t.processed + 1, t.failed, t.alerts + |alerts|, StoreAll(t.db, alerts))
  }

  /** The alerts match_log raises for the logs that go through, in log
      order. */
  function RaisedAlerts(logs: seq<Polled>, judge: Polled -> Option<seq<Alert>>): seq<Alert>
    decreases |logs|
  {
    if logs == [] then []
    else
      var v := judge(logs[|logs| - 1]);
      RaisedAlerts(logs[..|logs| - 1], judge) + if v.Some? then v.value else []
  }

  /** The loop of _process_batch, with match_log given as judge (None where
      it raises): a log whose matching raises counts as failed and leaves
      the checkpoint; any other has its alerts stored and moves the
      checkpoint up to its id. */
  function Fold(t: Tally, logs: seq<Polled>, judge: Polled -> Option<seq<Alert>>): (out: Tally)
    ensures out.processed + out.failed == t.processed + t.failed + |logs|
    ensures out.processed >= t.processed && out.failed >= t.failed
    ensures out.alerts == t.alerts + |RaisedAlerts(logs, judge)|
    ensures out.checkpoint >= t.checkpoint
    ensures out.db.logs == t.db.logs && out.db.servers == t.db.servers && t.db.alerts <= out.db.alerts
    decreases |logs|
  {
    if logs == [] then t
    else Settle(Fold(t, logs[..|logs| - 1], judge), logs[|logs| - 1].id, judge(logs[|logs| - 1]))
  }

  /** A batch stores the alerts of the logs that go through, in log
      order, as one run of _store_alerts would. */
  lemma {:induction false} FoldStores(t: Tally, logs: seq<Polled>, judge: Polled -> Option<seq<Alert>>)
    ensures Fold(t, logs, judge).db == StoreAll(t.db, RaisedAlerts(logs, judge))
    decreases |logs|
  {
    if logs != [] {
      var init := logs[..|logs| - 1];
      FoldStores(t, init, judge);
      var v := judge(logs[|logs| - 1]);
      StoreAllAppend(t.db, RaisedAlerts(init, judge), if v.Some? then v.value else []);
    }
  }

  /** The checkpoint after a batch is the largest id of a log that went
      through, or the old checkpoint when it is larger or none did. */
  lemma {:induction false} FoldCheckpoint(t: Tally, logs: seq<Polled>, judge: Polled -> Option<seq<Alert>>)
    ensures var out := Fold(t, logs, judge);
            (forall k :: 0 <= k < |logs| && judge(logs[k]).Some? ==> logs[k].id <= out.checkpoint) &&
            (out.checkpoint == t.checkpoint ||
             exists k :: 0 <= k < |logs| && judge(logs[k]).Some? && logs[k].id == out.checkpoint)
    decreases |logs|
  {
    if logs != [] {
      var init := logs[..|logs| - 1];
      FoldCheckpoint(t, init, judge);
      var before := Fold(t, init, judge);
      var out := Fold(t, logs, judge);
      forall k | 0 <= k < |logs| && judge(logs[k]).Some?
        ensures logs[k].id <= out.checkpoint
      {
        if k < |logs| - 1 {
          assert init[k] == logs[k];
        }
      }
      if out.checkpoint != t.checkpoint && out.checkpoint == before.checkpoint {
        var k :| 0 <= k < |init| && judge(init[k]).Some? && init[k].id == before.checkpoint;
        assert logs[k] == init[k];
      }
    }
  }

  /** A batch in which every log raises leaves the checkpoint where it was,
      so the next poll returns the same logs. */
  lemma {:induction false} FoldAllFail(t: Tally, logs: seq<Polled>, judge: Polled -> Option<seq<Alert>>)
    requires forall k :: 0 <= k < |logs| ==> judge(logs[k]).None?
    ensures Fold(t, logs, judge) == t.(failed := t.failed + |logs|)
    decreases |logs|
  {
    if logs != [] {
      var init := logs[..|logs| - 1];
      assert forall k :: 0 <= k < |init| ==> init[k] == logs[k];
      FoldAllFail(t, init, judge);
    }
  }

  /** A log that raises ahead of a later log that goes through falls
      behind the checkpoint: no later poll returns it again. */
  lemma FailedLogSkipped(st: DbState, t: Tally, logs: seq<Polled>, judge: Polled -> Option<seq<Alert>>,
                         i: nat, j: nat, limit: nat)
    requires i < j < |logs| && logs[i].id < logs[j].id
    requires judge(logs[i]).None? && judge(logs[j]).Some?
    ensures var cp := Fold(t, logs, judge).checkpoint;
            logs[i].id < cp && forall l :: l in Unprocessed(st.logs, cp, limit) ==> l.id != logs[i].id
  {
    FoldCheckpoint(t, logs, judge);
  }

  // ---------------------------------------------------------------------
  // The database and the worker

  class Database {
    var servers: seq<Ingestion.ServerKey>
    var logs: seq<StoredLog>
    var details: set<(string, nat)>
    var alerts: seq<AlertRow>
    var faults: seq<bool>

    /** The entries are kept in ascending id order. */
    predicate Valid()
      reads this
    {
      Ascending(logs)
    }

    function State(): DbState
      reads this
    {
      DbState(servers, logs, details, alerts, faults)
    }

    constructor(st: DbState)
      requires Ascending(st.logs)
      ensures State() == st && Valid()
    {
      servers, logs, details, alerts, faults := st.servers, st.logs, st.details, st.alerts, st.faults;
    }

    /** The largest id, or 0. */
    method LatestLogId() returns (id: nat)
      ensures id == LatestId(logs)
    {
      id := 0;
      for i := 0 to |logs|
        invariant id == LatestId(logs[..i])
      {
        assert logs[..i + 1][..i] == logs[..i];
        id := Max(id, logs[i].id);
      }
      assert logs[..|logs|] == logs;
    }

    /** The log_entry rows of the unprocessed-logs query. */
    method Query(checkpoint: int, limit: nat) returns (r: seq<StoredLog>)
      ensures r == Unprocessed(logs, checkpoint, limit)
    {
      r := Unprocessed(logs, checkpoint, limit);
    }

    method FindLog(v: Value) returns (r: Option<StoredLog>)
      ensures r == Find(logs, v)
    {
      r := Find(logs, v);
    }

    method CreateAlert(row: AlertRow) returns (ok: bool)
      modifies this
      ensures (State(), ok) == CreateCall(old(State()), row)
    {
      var out := CreateCall(State(), row);
      alerts, faults := out.0.alerts, out.0.faults;
      ok := out.1;
    }

    /** A log entry written by another process: it gets the next id. */
    method Insert(f: LogFields) returns (id: nat)
      requires Valid()
      modifies this
      ensures Valid() && logs == old(logs) + [StoredLog(id, f)] && id == LatestId(old(logs)) + 1
      ensures servers == old(servers) && details == old(details)
      ensures alerts == old(alerts) && faults == old(faults)
    {
      id := LatestId(logs) + 1;
      logs := logs + [StoredLog(id, f)];
    }
  }

  /** The total number of rules, which load_rules returns. */
  function RuleCount(e: Engine): nat {
    |e.linux| + |e.windows| + |e.nginx|
  }

  /** One turn of run's loop: the entries other processes write before the
      poll, and the clock of the alerts it raises. */
  datatype Round = Round(arrivals: seq<LogFields>, now: string)

  class Worker {
    const batchSize: nat
    const db: Database

    var engine: Engine
    var running: bool
    var lastProcessedId: int
    var logsProcessed: nat
    var alertsGenerated: nat
    var rulesMatched: nat
    var errors: nat

    /** A stopped worker with checkpoint 0, no rules and zeroed counters. */
    constructor(batchSize: nat, db: Database)
      ensures this.batchSize == batchSize && this.db == db
      ensures engine == Engine([], [], []) && !running && lastProcessedId == 0
      ensures logsProcessed == 0 && alertsGenerated == 0 && rulesMatched == 0 && errors == 0
    {
      this.batchSize, this.db := batchSize, db;
      engine := Engine([], [], []);
      running, lastProcessedId := false, 0;
      logsProcessed, alertsGenerated, rulesMatched, errors := 0, 0, 0, 0;
    }

    /** _get_unprocessed_logs: the query, then one dict per entry; None
        when reading an entry's detail row raises. */
    method GetUnprocessedLogs() returns (logs: Option<seq<Polled>>)
      ensures logs == Poll(db.State(), lastProcessedId, batchSize)
    {
      var entries := db.Query(lastProcessedId, batchSize);
      var dicts := [];
      for i := 0 to |entries|
        invariant Dicts(db.State(), entries[..i]) == Some(dicts)
      {
        assert entries[..i + 1][..i] == entries[..i];
        var l := entries[i];
        if DetailRaises(db.State(), l) {
          assert entries[i] == l;
          return None;
        }
        var server := ServerOf(db.servers, l.fields.serverId);
        dicts := dicts + [Polled(l.id, LogDict(l, server))];
      }
      assert entries[..|entries|] == entries;
      logs := Some(dicts);
    }

    /** _store_alerts. */
    method StoreAlerts(alerts: seq<Alert>)
      modifies db
      ensures db.State() == StoreAll(old(db.State()), alerts)
    {
      for i := 0 to |alerts|
        invariant db.State() == StoreAll(old(db.State()), alerts[..i])
      {
        assert alerts[..i + 1][..i] == alerts[..i];
        var entry := db.FindLog(alerts[i].logId);
        if entry.Some? {
          var ok := db.CreateAlert(RowFor(alerts[i], entry.value));
        }
      }
      assert alerts[..|alerts|] == alerts;
    }

    /** One turn of _process_batch's loop: match_log, then the alerts
        stored and counted and the checkpoint moved up, or, when matching
        raises, one more error. */
    method Handle(p: Polled, sv: Services, now: string) returns (ok: bool)
      modifies this`lastProcessedId, this`logsProcessed, this`errors, this`alertsGenerated, this`rulesMatched, db
      ensures Tally(lastProcessedId, logsProcessed, errors, alertsGenerated, db.State()) ==
              Settle(Tally(old(lastProcessedId), old(logsProcessed), old(errors), old(alertsGenerated), old(db.State())),
                     p.id, Judge(engine, sv, now)(p))
      ensures ok == Judge(engine, sv, now)(p).Some?
      ensures rulesMatched - old(rulesMatched) == alertsGenerated - old(alertsGenerated)
    {
      var alerts := MatchLog(engine, p.log, sv, now);
      if alerts.None? {
        errors := errors + 1;
        return false;
      }
      if alerts.value != [] {
        StoreAlerts(alerts.value);
        alertsGenerated := alertsGenerated + |alerts.value|;
        rulesMatched := rulesMatched + |alerts.value|;
      }
      lastProcessedId := Max(lastProcessedId, p.id);
      logsProcessed := logsProcessed + 1;
      return true;
    }

    /** _process_batch: the logs above the checkpoint, each matched in
        turn.  When the poll raises, the exception leaves _process_batch
        (None) with nothing changed.  Otherwise the checkpoint never goes
        down, every polled log is either processed or counted as an
        error, and alerts and matches grow by the alerts raised. */
    method ProcessBatch(sv: Services, now: string) returns (processed: Option<nat>)
      modifies this`lastProcessedId, this`logsProcessed, this`errors, this`alertsGenerated, this`rulesMatched, db
      ensures processed.None? <==> Poll(old(db.State()), old(lastProcessedId), batchSize).None?
      ensures processed.None? ==>
                db.State() == old(db.State()) && lastProcessedId == old(lastProcessedId) &&
                logsProcessed == old(logsProcessed) && errors == old(errors) &&
                alertsGenerated == old(alertsGenerated) && rulesMatched == old(rulesMatched)
      ensures processed.Some? ==>
                var polled := Poll(old(db.State()), old(lastProcessedId), batchSize).value;
                Fold(Tally(old(lastProcessedId), old(logsProcessed), old(errors), old(alertsGenerated), old(db.State())),
                     polled, Judge(engine, sv, now)) ==
                Tally(lastProcessedId, logsProcessed, errors, alertsGenerated, db.State()) &&
                processed.value == logsProcessed - old(logsProcessed) &&
                processed.value + (errors - old(errors)) == |polled|
      ensures rulesMatched - old(rulesMatched) == alertsGenerated - old(alertsGenerated)
      ensures lastProcessedId >= old(lastProcessedId)
    {
      var logs := GetUnprocessedLogs();
      if logs.None? {
        return None;
      }
      if logs.value == [] {
        return Some(0);
      }
      var n := MatchAll(logs.value, sv, now);
      processed := Some(n);
    }

    /** The loop of _process_batch over the polled logs. */
    method MatchAll(logs: seq<Polled>, sv: Services, now: string) returns (processed: nat)
      modifies this`lastProcessedId, this`logsProcessed, this`errors, this`alertsGenerated, this`rulesMatched, db
      ensures Fold(Tally(old(lastProcessedId), old(logsProcessed), old(errors), old(alertsGenerated), old(db.State())),
                   logs, Judge(engine, sv, now)) ==
              Tally(lastProcessedId, logsProcessed, errors, alertsGenerated, db.State())
      ensures processed == logsProcessed - old(logsProcessed)
      ensures rulesMatched - old(rulesMatched) == alertsGenerated - old(alertsGenerated)
    {
      ghost var judge := Judge(engine, sv, now);
      ghost var start := Tally(lastProcessedId, logsProcessed, errors, alertsGenerated, db.State());
      processed := 0;
      for i := 0 to |logs|
        invariant Fold(start, logs[..i], judge) == Tally(lastProcessedId, logsProcessed, errors, alertsGenerated, db.State())
        invariant processed == logsProcessed - old(logsProcessed)
        invariant rulesMatched - old(rulesMatched) == alertsGenerated - old(alertsGenerated)
      {
        assert logs[..i + 1][..i] == logs[..i];
        var ok := Handle(logs[i], sv, now);
        if ok {
          processed := processed + 1;
        }
      }
      assert logs[..|logs|] == logs;
    }

    /** run, for the turns of its loop before stop is called: the
        checkpoint starts at the latest id, so only entries written after
        the start are ever polled; with no rules loaded nothing is
        processed.  A poll that raises ends the loop through run's except
        clause: turns counts the batches completed, and when it falls
        short of the rounds the poll over the final state raises.  The
        worker is stopped at the end either way. */
    method Run(rules: Engine, sv: Services, rounds: seq<Round>) returns (turns: nat)
      requires db.Valid()
      modifies this, db
      ensures !running && engine == rules && db.Valid()
      ensures lastProcessedId >= LatestId(old(db.logs))
      ensures old(db.logs) <= db.logs && old(db.alerts) <= db.alerts
      ensures turns <= |rounds|
      ensures RuleCount(rules) == 0 ==>
                turns == 0 && lastProcessedId == LatestId(old(db.logs)) && db.State() == old(db.State()) &&
                logsProcessed == old(logsProcessed) && errors == old(errors) &&
                alertsGenerated == old(alertsGenerated) && rulesMatched == old(rulesMatched)
      ensures RuleCount(rules) != 0 && turns < |rounds| ==>
                Poll(db.State(), lastProcessedId, batchSize).None?
    {
      var latest := db.LatestLogId();
      lastProcessedId := latest;
      engine := rules;
      turns := 0;
      if RuleCount(engine) == 0 {
        running := false;
        return;
      }
      running := true;
      var halted := false;
      while turns < |rounds| && !halted
        invariant turns <= |rounds|
        invariant db.Valid() && engine == rules && lastProcessedId >= latest
        invariant old(db.logs) <= db.logs && old(db.alerts) <= db.alerts
        invariant halted ==> Poll(db.State(), lastProcessedId, batchSize).None?
        decreases |rounds| - turns, !halted
      {
        Arrive(rounds[turns].arrivals);
        var processed := ProcessBatch(sv, rounds[turns].now);
        if processed.None? {
          halted := true;
        } else {
          turns := turns + 1;
        }
      }
      running := false;
    }

    /** Entries written by other processes between two polls. */
    method Arrive(fs: seq<LogFields>)
      requires db.Valid()
      modifies db
      ensures db.Valid() && old(db.logs) <= db.logs && db.alerts == old(db.alerts)
    {
      for i := 0 to |fs|
        invariant db.Valid() && old(db.logs) <= db.logs && db.alerts == old(db.alerts)
      {
        var id := db.Insert(fs[i]);
      }
    }

    /** stop: run's loop ends after its current turn. */
    method Stop()
      modifies this
      ensures !running && engine == old(engine) && lastProcessedId == old(lastProcessedId)
      ensures logsProcessed == old(logsProcessed) && alertsGenerated == old(alertsGenerated)
      ensures rulesMatched == old(rulesMatched) && errors == old(errors)
    {
      running := false;
    }
  }
}

=== FILE: text.dfy ===
/*
 * Python string behaviour the log pipeline relies on: the whitespace set of
 * str.isspace (also the regex class \s), strip, split, find, lower, int() and
 * str() of integers.  Everything here is a value-level helper; the modules for
 * the parsers, the rule engine and the workers build on it.
 */

module Wrappers {
  datatype Option<T> = None | Some(value: T)
}

module Text {
  import opened Wrappers

  /** The characters Python's str.isspace accepts; the regex class \s on str
      patterns uses the same set. */
  predicate IsSpace(c: char) {
    var n := c as int;
    n == 0x20 || 0x09 <= n <= 0x0D || 0x1C <= n <= 0x1F || n == 0x85 || n == 0xA0 ||
    n == 0x1680 || 0x2000 <= n <= 0x200A || n == 0x2028 || n == 0x2029 ||
    n == 0x202F || n == 0x205F || n == 0x3000
  }

  /** The regex class \d, restricted to ASCII digits. */
  predicate IsDigit(c: char) { '0' <= c <= '9' }

  predicate AllSpace(s: string) { forall k :: 0 <= k < |s| ==> IsSpace(s[k]) }
  predicate NoSpace(s: string) { forall k :: 0 <= k < |s| ==> !IsSpace(s[k]) }
  predicate AllDigits(s: string) { forall k :: 0 <= k < |s| ==> IsDigit(s[k]) }

  /** A whole whitespace-delimited word: non-empty and free of whitespace. */
  predicate IsToken(s: string) { s != [] && NoSpace(s) }

  // ---------------------------------------------------------------------
  // Maximal runs: the greedy quantifiers of the parsers' regexes.

  /** The character classes the parsers' regexes repeat greedily. */
  datatype CharClass =
    | Space      // \s
    | Word       // \S
    | Digit      // \d
    | Line       // .
    | DotDigit   // [\d.] and [.\d]
    | Zone       // [Z+\-:0-9]
    | AppName    // [^:\[\s]
    | Unquoted   // [^"]
    | Unclosed   // what `.*?\]` passes over: neither `]` nor a newline

  predicate InClass(c: char, k: CharClass) {
    match k
    case Space => IsSpace(c)
    case Word => !IsSpace(c)
    case Digit => IsDigit(c)
    case Line => c != '\n'
    case DotDigit => IsDigit(c) || c == '.'
    case Zone => IsDigit(c) || c == 'Z' || c == '+' || c == '-' || c == ':'
    case AppName => c != ':' && c != '[' && !IsSpace(c)
    case Unquoted => c != '"'
    case Unclosed => c != ']' && c != '\n'
  }

  /** End of the longest run of characters of class k that starts at i. */
  function RunEnd(s: string, i: nat, k: CharClass): (j: nat)
    requires i <= |s|
    ensures i <= j <= |s|
    ensures forall m :: i <= m < j ==> InClass(s[m], k)
    ensures j < |s| ==> !InClass(s[j], k)
    decreases |s| - i
  {
    if i < |s| && InClass(s[i], k) then RunEnd(s, i + 1, k) else i
  }

  /** A run is determined by its characters: the end of a maximal run is unique. */
  lemma RunEndIs(s: string, i: nat, k: CharClass, j: nat)
    requires i <= j <= |s|
    requires forall m :: i <= m < j ==> InClass(s[m], k)
    requires j < |s| ==> !InClass(s[j], k)
    ensures RunEnd(s, i, k) == j
  {
  }

  /** The run that starts at i and covers exactly the word t. */
  lemma RunEndOver(s: string, i: nat, t: string, k: CharClass)
    requires i + |t| <= |s| && s[i..i + |t|] == t
    requires forall m :: 0 <= m < |t| ==> InClass(t[m], k)
    requires i + |t| < |s| ==> !InClass(s[i + |t|], k)
    ensures RunEnd(s, i, k) == i + |t|
  {
    forall m | i <= m < i + |t| ensures InClass(s[m], k) {
      assert s[m] == t[m - i];
    }
    RunEndIs(s, i, k, i + |t|);
  }

  /** Every character of t is of class k. */
  predicate AllIn(t: string, k: CharClass) {
    forall m :: 0 <= m < |t| ==> InClass(t[m], k)
  }

  /** The length of the longest run of class k at the start of s. */
  function Run(s: string, k: CharClass): (n: nat)
    ensures n <= |s| && AllIn(s[..n], k)
    ensures n < |s| ==> !InClass(s[n], k)
  {
    var n := RunEnd(s, 0, k);
    assert forall m :: 0 <= m < n ==> s[..n][m] == s[m];
    n
  }

  /** A word of class k followed by a character outside k is read as one run. */
  lemma RunOf(t: string, r: string, k: CharClass)
    requires AllIn(t, k) && (r == [] || !InClass(r[0], k))
    ensures Run(t + r, k) == |t|
    ensures (t + r)[..|t|] == t && (t + r)[|t|..] == r
  {
    var s := t + r;
    assert s[0..|t|] == t;
    RunEndOver(s, 0, t, k);
  }

  /** Splits s after the longest run of class k at its start. */
  function Take(s: string, k: CharClass): (r: (string, string))
    ensures s == r.0 + r.1 && AllIn(r.0, k)
    ensures r.1 == [] || !InClass(r.1[0], k)
  {
    var n := Run(s, k);
    assert s == s[..n] + s[n..];
    (s[..n], s[n..])
  }

  /** The first position from i on at which p holds of the rest of s:
      re.search over a pattern p anchored at each position in turn. */
  function FirstSuffix(s: string, i: nat, p: string -> bool): (r: Option<nat>)
    requires i <= |s|
    ensures r.Some? ==> i <= r.value <= |s| && p(s[r.value..])
    ensures r.Some? ==> forall j :: i <= j < r.value ==> !p(s[j..])
    ensures r.None? ==> forall k :: i <= k <= |s| ==> !p(s[k..])
    decreases |s| - i
  {
    if p(s[i..]) then Some(i)
    else if i == |s| then None
    else FirstSuffix(s, i + 1, p)
  }

  /** A `]` at position m of t after which p holds of the rest of t. */
  predicate ClosedAt(t: string, m: nat, p: string -> bool)
    requires m < |t|
  {
    t[m] == ']' && p(t[m + 1..])
  }

  /** The lazy `.*?\]` followed by a pattern p, from position i of t on:
      the position of the first `]` of the line after which p holds of the
      rest of t.  Each `]` after which p fails is passed over in turn. */
  function LazyClose(t: string, i: nat, p: string -> bool): (r: Option<nat>)
    requires i <= |t|
    ensures r.Some? ==> i <= r.value < |t| && ClosedAt(t, r.value, p)
    ensures r.Some? ==> forall m :: i <= m < r.value ==> t[m] != '\n' && !ClosedAt(t, m, p)
    decreases |t| - i
  {
    var j := RunEnd(t, i, Unclosed);
    if j == |t| || t[j] == '\n' then
      RunEndIs(t, i, Line, j);
      None
    else
      LazyStep(t, i, j, p);
      if p(t[j + 1..]) then Some(j) else LazyClose(t, j + 1, p)
  }

  /** The text LazyClose passes over before a `]`: no `]` and no newline,
      so the line goes on past that `]` as it went on from i. */
  lemma LazyStep(t: string, i: nat, j: nat, p: string -> bool)
    requires i <= j < |t| && j == RunEnd(t, i, Unclosed) && t[j] != '\n'
    ensures t[j] == ']' && forall m :: i <= m < j ==> t[m] != '\n' && !ClosedAt(t, m, p)
    ensures RunEnd(t, i, Line) == RunEnd(t, j + 1, Line)
  {
    RunEndIs(t, i, Line, RunEnd(t, j + 1, Line));
  }

  /** Where LazyClose finds nothing, no `]` of the line closes. */
  lemma {:induction false} LazyCloseNone(t: string, i: nat, p: string -> bool)
    requires i <= |t| && LazyClose(t, i, p).None?
    ensures forall m :: i <= m < RunEnd(t, i, Line) ==> !ClosedAt(t, m, p)
    decreases |t| - i
  {
    var j := RunEnd(t, i, Unclosed);
    if j == |t| || t[j] == '\n' {
      LazyNoneEnd(t, i, j, p);
    } else {
      LazyCloseNone(t, j + 1, p);
      LazyNoneStep(t, i, j, p);
    }
  }

  lemma LazyNoneEnd(t: string, i: nat, j: nat, p: string -> bool)
    requires i <= j <= |t| && j == RunEnd(t, i, Unclosed) && (j == |t| || t[j] == '\n')
    ensures forall m :: i <= m < RunEnd(t, i, Line) ==> !ClosedAt(t, m, p)
  {
    RunEndIs(t, i, Line, j);
  }

  lemma LazyNoneStep(t: string, i: nat, j: nat, p: string -> bool)
    requires i <= j < |t| && j == RunEnd(t, i, Unclosed) && t[j] != '\n' && !p(t[j + 1..])
    requires forall m :: j + 1 <= m < RunEnd(t, j + 1, Line) ==> !ClosedAt(t, m, p)
    ensures forall m :: i <= m < RunEnd(t, i, Line) ==> !ClosedAt(t, m, p)
  {
    LazyStep(t, i, j, p);
  }

  /** After a text free of `]` and newlines, the `]` that follows closes it
      when p holds of what comes after. */
  lemma LazyCloseOf(u: string, y: string, p: string -> bool)
    requires AllIn(u, Unclosed) && p(y)
    ensures LazyClose(u + ("]" + y), 0, p) == Some(|u|)
    ensures (u + ("]" + y))[..|u|] == u && (u + ("]" + y))[|u| + 1..] == y
  {
    var t := u + ("]" + y);
    RunOf(u, "]" + y, Unclosed);
    assert t[|u| + 1..] == y;
  }

  /** What LazyClose passes over from the start of t is on one line. */
  lemma LazyCloseLine(t: string, p: string -> bool)
    requires LazyClose(t, 0, p).Some?
    ensures AllIn(t[..LazyClose(t, 0, p).value], Line)
  {
    var i := LazyClose(t, 0, p).value;
    assert forall n :: 0 <= n < i ==> t[..i][n] == t[n];
  }

  lemma AllInConcat(a: string, b: string, k: CharClass)
    requires AllIn(a, k) && AllIn(b, k)
    ensures AllIn(a + b, k)
  {
    forall m | 0 <= m < |a + b| ensures InClass((a + b)[m], k) {
      if m >= |a| {
        assert (a + b)[m] == b[m - |a|];
      }
    }
  }

  /** Concatenation regroups; stated once so that long chains of splits
      need not rediscover it. */
  lemma ConcatAssoc(x: string, y: string, z: string)
    ensures (x + y) + z == x + (y + z)
  {
  }

  /** A run of class k and what follows it are determined by their
      concatenation. */
  lemma RunSplitUnique(a: string, b: string, c: string, d: string, k: CharClass)
    requires AllIn(a, k) && (b == [] || !InClass(b[0], k))
    requires AllIn(c, k) && (d == [] || !InClass(d[0], k))
    requires a + b == c + d
    ensures a == c && b == d
  {
    TakeOf(a, b, k);
    TakeOf(c, d, k);
  }

  /** Take reads back a run followed by a character outside its class. */
  lemma TakeOf(t: string, r: string, k: CharClass)
    requires AllIn(t, k) && (r == [] || !InClass(r[0], k))
    ensures Take(t + r, k) == (t, r)
  {
    RunOf(t, r, k);
  }

  function SpaceEnd(s: string, i: nat): (j: nat)
    requires i <= |s|
    ensures i <= j <= |s|
  {
    RunEnd(s, i, Space)
  }

  function TokenEnd(s: string, i: nat): (j: nat)
    requires i <= |s|
    ensures i <= j <= |s|
  {
    RunEnd(s, i, Word)
  }

  function DigitEnd(s: string, i: nat): (j: nat)
    requires i <= |s|
    ensures i <= j <= |s|
  {
    RunEnd(s, i, Digit)
  }

  /** Does t occur in s at position i? */
  predicate At(s: string, i: nat, t: string) {
    i <= |s| && t <= s[i..]
  }

  lemma AtConcat(a: string, t: string, b: string)
    ensures At(a + t + b, |a|, t)
  {
    assert (a + t + b)[|a|..] == t + b;
  }

  // ---------------------------------------------------------------------
  // str.strip()

  /** The end of s once trailing whitespace is dropped (never before lo). */
  function TrimEnd(s: string, lo: nat, hi: nat): (j: nat)
    requires lo <= hi <= |s|
    ensures lo <= j <= hi
    ensures forall k :: j <= k < hi ==> IsSpace(s[k])
    ensures j > lo ==> !IsSpace(s[j - 1])
    decreases hi
  {
    if hi > lo && IsSpace(s[hi - 1]) then TrimEnd(s, lo, hi - 1) else hi
  }

  /** Python's str.strip() with no argument. */
  function Strip(s: string): (r: string)
    ensures r != [] ==> !IsSpace(r[0]) && !IsSpace(r[|r| - 1])
    ensures r == [] <==> AllSpace(s)
    ensures s == [] || (!IsSpace(s[0]) && !IsSpace(s[|s| - 1])) ==> r == s
  {
    var lo := SpaceEnd(s, 0);
    var hi := TrimEnd(s, lo, |s|);
    assert s != [] && !IsSpace(s[0]) && !IsSpace(s[|s| - 1]) ==> lo == 0 && hi == |s|;
    assert lo < |s| ==> !IsSpace(s[lo]) && hi > lo;
    s[lo..hi]
  }

  /** strip() removes whitespace from the two ends and nothing else: s is
      its strip with all-whitespace text before and after it. */
  lemma StripParts(s: string)
    ensures exists i :: 0 <= i <= |s| - |Strip(s)| && s[i..i + |Strip(s)|] == Strip(s) &&
                        AllSpace(s[..i]) && AllSpace(s[i + |Strip(s)|..])
  {
    var lo := SpaceEnd(s, 0);
    var hi := TrimEnd(s, lo, |s|);
    assert Strip(s) == s[lo..hi];
    assert AllSpace(s[..lo]);
    assert AllSpace(s[hi..]);
  }

  /** strip() only removes characters. */
  lemma StripWithin(s: string)
    ensures forall c :: c in Strip(s) ==> c in s
  {
    var lo := SpaceEnd(s, 0);
    var hi := TrimEnd(s, lo, |s|);
    assert Strip(s) == s[lo..hi];
    forall c | c in s[lo..hi]
      ensures c in s
    {
      var k :| 0 <= k < hi - lo && s[lo..hi][k] == c;
      assert s[lo + k] == c;
    }
  }

  // ---------------------------------------------------------------------
  // str.split() with no argument: the maximal runs of non-whitespace

  function TokensFrom(s: string, i: nat): (ts: seq<string>)
    requires i <= |s|
    ensures forall k :: 0 <= k < |ts| ==> IsToken(ts[k])
    decreases |s| - i
  {
    var a := SpaceEnd(s, i);
    if a == |s| then []
    else
      var b := TokenEnd(s, a);
      [s[a..b]] + TokensFrom(s, b)
  }

  function Tokens(s: string): (ts: seq<string>)
    ensures forall k :: 0 <= k < |ts| ==> IsToken(ts[k])
  {
    TokensFrom(s, 0)
  }

  /** " t1 t2 ... tn": each word preceded by one space. */
  function Spaced(ts: seq<string>): (r: string)
    ensures r == [] || r[0] == ' '
  {
    if ts == [] then "" else " " + ts[0] + Spaced(ts[1..])
  }

  /** The words joined by single spaces, the shape of a rendered log line. */
  function JoinWords(ts: seq<string>): string {
    if ts == [] then "" else ts[0] + Spaced(ts[1..])
  }

  /** A text that starts with a non-space character starts with its first
      word. */
  lemma FirstToken(s: string)
    requires s != [] && !IsSpace(s[0])
    ensures Tokens(s) != [] && Tokens(s)[0][0] == s[0]
  {
    RunEndIs(s, 0, Space, 0);
    var b := TokenEnd(s, 0);
    assert TokensFrom(s, 0) == [s[..b]] + TokensFrom(s, b);
  }

  /** Spaced words end with the last word's last character. */
  lemma {:induction false} SpacedEnd(ts: seq<string>)
    requires ts != [] && IsToken(ts[|ts| - 1])
    ensures Spaced(ts) != [] && Spaced(ts)[|Spaced(ts)| - 1] == ts[|ts| - 1][|ts[|ts| - 1]| - 1]
    decreases |ts|
  {
    var w := ts[0];
    assert Spaced(ts) == (" " + w) + Spaced(ts[1..]);
    if |ts| > 1 {
      SpacedEnd(ts[1..]);
      assert ts[1..][|ts[1..]| - 1] == ts[|ts| - 1];
    } else {
      assert Spaced(ts) == " " + w;
    }
  }

  /** Joined words neither start nor end with whitespace. */
  lemma JoinWordsEnds(ts: seq<string>)
    requires ts != [] && forall k :: 0 <= k < |ts| ==> IsToken(ts[k])
    ensures JoinWords(ts) != [] && !IsSpace(JoinWords(ts)[0])
    ensures !IsSpace(JoinWords(ts)[|JoinWords(ts)| - 1])
  {
    var s := JoinWords(ts);
    assert s == ts[0] + Spaced(ts[1..]);
    assert s[0] == ts[0][0];
    var w := ts[0];
    assert Spaced(ts) == (" " + w) + Spaced(ts[1..]);
    if |ts| > 1 {
      SpacedEnd(ts[1..]);
      assert ts[1..][|ts[1..]| - 1] == ts[|ts| - 1];
    } else {
      assert Spaced(ts) == " " + w;
    }
  }

  lemma {:induction false} TokensOfSpaced(s: string, i: nat, ts: seq<string>)
    requires i <= |s| && s[i..] == Spaced(ts)
    requires forall k :: 0 <= k < |ts| ==> IsToken(ts[k])
    ensures TokensFrom(s, i) == ts
    decreases ts
  {
    if ts != [] {
      var t, rest := ts[0], Spaced(ts[1..]);
      var e := i + 1 + |t|;
      assert Spaced(ts) == " " + t + rest;
      SpacedSlices(s, i, t, rest);
      SpacedRuns(s, i, t);
      TokensStep(s, i, i + 1, e, t);
      TokensOfSpaced(s, e, ts[1..]);
      assert ts == [t] + ts[1..];
    }
  }

  lemma SpacedSlices(s: string, i: nat, t: string, rest: string)
    requires i <= |s| && s[i..] == " " + t + rest
    requires rest == [] || rest[0] == ' '
    ensures i + 1 + |t| <= |s|
    ensures s[i..i + 1] == " " && s[i + 1..i + 1 + |t|] == t && s[i + 1 + |t|..] == rest
    ensures i + 1 + |t| < |s| ==> s[i + 1 + |t|] == ' '
  {
    var u := s[i..];
    assert u[..1] == " " && u[1..1 + |t|] == t && u[1 + |t|..] == rest;
  }

  /** The space before a word and the word are each one maximal run. */
  lemma SpacedRuns(s: string, i: nat, t: string)
    requires IsToken(t) && i + 1 + |t| <= |s|
    requires s[i..i + 1] == " " && s[i + 1..i + 1 + |t|] == t
    requires i + 1 + |t| < |s| ==> s[i + 1 + |t|] == ' '
    ensures SpaceEnd(s, i) == i + 1 && TokenEnd(s, i + 1) == i + 1 + |t|
  {
    RunEndOver(s, i, " ", Space);
    RunEndOver(s, i + 1, t, Word);
  }

  lemma TokensStep(s: string, i: nat, a: nat, b: nat, t: string)
    requires i <= a < b <= |s| && s[a..b] == t
    requires SpaceEnd(s, i) == a && TokenEnd(s, a) == b
    ensures TokensFrom(s, i) == [t] + TokensFrom(s, b)
  {
  }

  /** str.split() undoes the joining of whitespace-free words. */
  lemma {:induction false} TokensOfJoinWords(ts: seq<string>)
    requires forall k :: 0 <= k < |ts| ==> IsToken(ts[k])
    ensures Tokens(JoinWords(ts)) == ts
  {
    var s := JoinWords(ts);
    if ts != [] {
      var t, rest := ts[0], Spaced(ts[1..]);
      assert s == t + rest;
      assert s[..|t|] == t && s[|t|..] == rest;
      assert rest == [] || rest[0] == ' ';
      RunEndOver(s, 0, "", Space);
      RunEndOver(s, 0, t, Word);
      TokensOfSpaced(s, |t|, ts[1..]);
    }
  }

  /** The words woven between whitespace gaps:
      gaps[0] + ts[0] + gaps[1] + ... + ts[n - 1] + gaps[n]. */
  function Weave(gaps: seq<string>, ts: seq<string>): string
    requires |gaps| == |ts| + 1
    decreases |ts|
  {
    if ts == [] then gaps[0] else gaps[0] + ts[0] + Weave(gaps[1..], ts[1..])
  }

  /** Whitespace gaps around n words; the gaps between two words are not
      empty. */
  predicate Gaps(gaps: seq<string>, n: nat) {
    |gaps| == n + 1 &&
    (forall k :: 0 <= k < |gaps| ==> AllSpace(gaps[k])) &&
    (forall k :: 0 < k < n ==> gaps[k] != [])
  }

  /** str.split() reads the words back out of any whitespace weave. */
  lemma {:induction false} TokensOfWeave(gaps: seq<string>, ts: seq<string>)
    requires Gaps(gaps, |ts|) && forall k :: 0 <= k < |ts| ==> IsToken(ts[k])
    ensures Tokens(Weave(gaps, ts)) == ts
  {
    var s := Weave(gaps, ts);
    TokensOfWeaveFrom(s, 0, gaps, ts);
  }

  lemma {:induction false} TokensOfWeaveFrom(s: string, i: nat, gaps: seq<string>, ts: seq<string>)
    requires i <= |s| && Gaps(gaps, |ts|) && forall k :: 0 <= k < |ts| ==> IsToken(ts[k])
    requires s[i..] == Weave(gaps, ts)
    ensures TokensFrom(s, i) == ts
    decreases |ts|
  {
    if ts == [] {
      WeaveEnd(s, i, gaps[0]);
    } else {
      var b := WeaveFirst(s, i, gaps, ts);
      TokensOfWeaveFrom(s, b, gaps[1..], ts[1..]);
      assert ts == [ts[0]] + ts[1..];
    }
  }

  /** A trailing gap holds no word. */
  lemma WeaveEnd(s: string, i: nat, g: string)
    requires i <= |s| && s[i..] == g && AllSpace(g)
    ensures TokensFrom(s, i) == []
  {
    assert s[i..i + |g|] == g;
    RunEndOver(s, i, g, Space);
  }

  /** The first word of a weave is the first word split() reads; the rest
      is read from the weave of the other words. */
  lemma WeaveFirst(s: string, i: nat, gaps: seq<string>, ts: seq<string>) returns (b: nat)
    requires i <= |s| && ts != [] && Gaps(gaps, |ts|) && forall k :: 0 <= k < |ts| ==> IsToken(ts[k])
    requires s[i..] == Weave(gaps, ts)
    ensures i <= b <= |s| && s[b..] == Weave(gaps[1..], ts[1..])
    ensures Gaps(gaps[1..], |ts[1..]|) && forall k :: 0 <= k < |ts[1..]| ==> IsToken(ts[1..][k])
    ensures TokensFrom(s, i) == [ts[0]] + TokensFrom(s, b)
  {
    var g, t, w := gaps[0], ts[0], Weave(gaps[1..], ts[1..]);
    assert s[i..] == g + t + w;
    b := i + |g| + |t|;
    WeaveTail(gaps, ts);
    WeaveRuns(s, i, g, t, w);
    TokensStep(s, i, i + |g|, b, t);
    assert forall k :: 0 <= k < |ts[1..]| ==> ts[1..][k] == ts[k + 1];
  }

  /** What follows the first word of a weave: whitespace gaps around the
      other words, starting with whitespace unless it is empty. */
  lemma WeaveTail(gaps: seq<string>, ts: seq<string>)
    requires ts != [] && Gaps(gaps, |ts|)
    ensures Gaps(gaps[1..], |ts[1..]|)
    ensures var w := Weave(gaps[1..], ts[1..]); w == [] || IsSpace(w[0])
  {
    forall k | 0 < k < |ts| - 1 ensures gaps[1..][k] != [] {
      assert gaps[1..][k] == gaps[k + 1];
    }
    if |ts| > 1 {
      assert gaps[1..][0] == gaps[1] && gaps[1] != [] && AllSpace(gaps[1]);
    }
  }

  /** A gap then a word, then whitespace or the end: two maximal runs. */
  lemma WeaveRuns(s: string, i: nat, g: string, t: string, w: string)
    requires i <= |s| && s[i..] == g + t + w
    requires AllSpace(g) && IsToken(t) && (w == [] || IsSpace(w[0]))
    ensures i + |g| + |t| <= |s| && s[i + |g|..i + |g| + |t|] == t && s[i + |g| + |t|..] == w
    ensures SpaceEnd(s, i) == i + |g| && TokenEnd(s, i + |g|) == i + |g| + |t|
  {
    var a, b := i + |g|, i + |g| + |t|;
    WeaveSlices(s, i, g, t, w);
    assert s[a] == t[0];
    RunEndOver(s, i, g, Space);
    RunEndOver(s, a, t, Word);
  }

  lemma WeaveSlices(s: string, i: nat, g: string, t: string, w: string)
    requires i <= |s| && s[i..] == g + t + w
    ensures i + |g| + |t| <= |s|
    ensures s[i..i + |g|] == g && s[i + |g|..i + |g| + |t|] == t && s[i + |g| + |t|..] == w
  {
    var u := s[i..];
    assert u[..|g|] == g && u[|g|..|g| + |t|] == t && u[|g| + |t|..] == w;
  }

  /** Every text is its str.split() words woven between whitespace gaps:
      the words are exactly the maximal non-whitespace runs, in order. */
  lemma TokensWoven(s: string)
    ensures exists gaps :: Gaps(gaps, |Tokens(s)|) && Weave(gaps, Tokens(s)) == s
  {
    var gaps := WovenFrom(s, 0);
    assert s[0..] == s;
    assert Gaps(gaps, |Tokens(s)|) && Weave(gaps, Tokens(s)) == s;
  }

  lemma {:induction false} WovenFrom(s: string, i: nat) returns (gaps: seq<string>)
    requires i <= |s|
    ensures Gaps(gaps, |TokensFrom(s, i)|) && Weave(gaps, TokensFrom(s, i)) == s[i..]
    ensures gaps[0] == s[i..SpaceEnd(s, i)]
    decreases |s| - i
  {
    var a := SpaceEnd(s, i);
    SpaceGap(s, i);
    if a == |s| {
      gaps := [s[i..]];
    } else {
      var b := TokenEnd(s, a);
      var ts := TokensFrom(s, b);
      var rest := WovenFrom(s, b);
      assert TokensFrom(s, i) == [s[a..b]] + ts;
      GapAfterWord(s, a);
      gaps := [s[i..a]] + rest;
      GapsCons(s[i..a], rest, |ts|);
      WeaveCons(s[i..a], s[a..b], rest, ts);
      SliceJoin(s, i, a, b);
    }
  }

  lemma SpaceGap(s: string, i: nat)
    requires i <= |s|
    ensures AllSpace(s[i..SpaceEnd(s, i)])
  {
    var a := SpaceEnd(s, i);
    forall k | 0 <= k < a - i ensures IsSpace(s[i..a][k]) {
      assert s[i..a][k] == s[i + k];
    }
  }

  /** After a word the whitespace run is not empty, unless the text ends. */
  lemma GapAfterWord(s: string, a: nat)
    requires a <= |s|
    ensures var b := TokenEnd(s, a); SpaceEnd(s, b) < |s| ==> SpaceEnd(s, b) > b
  {
    var b := TokenEnd(s, a);
    if SpaceEnd(s, b) < |s| && b < |s| {
      assert !InClass(s[b], Word);
    }
  }

  lemma SliceJoin(s: string, i: nat, a: nat, b: nat)
    requires i <= a <= b <= |s|
    ensures s[i..] == s[i..a] + s[a..b] + s[b..]
  {
  }

  lemma GapsCons(g: string, rest: seq<string>, n: nat)
    requires AllSpace(g) && Gaps(rest, n) && (n > 0 ==> rest[0] != [])
    ensures Gaps([g] + rest, n + 1)
  {
    var gaps := [g] + rest;
    forall k | 0 < k < n + 1 ensures gaps[k] != [] {
      assert gaps[k] == rest[k - 1];
    }
  }

  lemma WeaveCons(g: string, t: string, rest: seq<string>, ts: seq<string>)
    requires |rest| == |ts| + 1
    ensures Weave([g] + rest, [t] + ts) == g + t + Weave(rest, ts)
  {
    var gaps, ws := [g] + rest, [t] + ts;
    assert gaps[0] == g && gaps[1..] == rest && ws[0] == t && ws[1..] == ts;
  }

  // ---------------------------------------------------------------------
  // str.find / `in` / str.split(sep)

  /** The first position at or after i where t occurs in s. */
  function Find(s: string, t: string, i: nat): (r: Option<nat>)
    requires i <= |s|
    ensures r.Some? ==> i <= r.value <= |s| && At(s, r.value, t)
    ensures r.Some? ==> forall k :: i <= k < r.value ==> !At(s, k, t)
    ensures r.None? ==> forall k :: i <= k <= |s| ==> !At(s, k, t)
    decreases |s| - i
  {
    if t <= s[i..] then Some(i)
    else if i == |s| then None
    else Find(s, t, i + 1)
  }

  /** Python's `t in s` for strings. */
  predicate Contains(s: string, t: string) {
    Find(s, t, 0).Some?
  }

  /** `t in s` holds exactly when t occurs at some position of s. */
  lemma ContainsIff(s: string, t: string)
    ensures Contains(s, t) <==> exists i :: 0 <= i <= |s| && At(s, i, t)
  {
    if Contains(s, t) {
      assert At(s, Find(s, t, 0).value, t);
    }
  }

  lemma ContainsAt(s: string, t: string, i: nat)
    requires At(s, i, t)
    ensures Contains(s, t)
  {
  }

  function Join(parts: seq<string>, sep: string): string {
    if |parts| <= 1 then (if parts == [] then "" else parts[0])
    else parts[0] + sep + Join(parts[1..], sep)
  }

  /** Python's str.split(sep) for a non-empty separator: cut at each
      occurrence found scanning left to right. */
  function SplitOn(s: string, sep: string): (parts: seq<string>)
    requires sep != []
    ensures |parts| >= 1
    ensures Join(parts, sep) == s
    ensures forall k :: 0 <= k < |parts| ==> !Contains(parts[k], sep)
    ensures forall k :: 0 <= k < |parts| - 1 ==> Find(parts[k] + sep, sep, 0) == Some(|parts[k]|)
    decreases |s|
  {
    match Find(s, sep, 0)
    case None => [s]
    case Some(i) =>
      var head := s[..i];
      var rest := SplitOn(s[i + |sep|..], sep);
      SplitCut(s, sep, i);
      [head] + rest
  }

  /** The cut split makes at the first occurrence of sep, at i: the text
      before it holds no sep, and i is the first occurrence in that text
      followed by sep. */
  lemma SplitCut(s: string, sep: string, i: nat)
    requires sep != [] && Find(s, sep, 0) == Some(i)
    ensures i + |sep| <= |s| && s == s[..i] + sep + s[i + |sep|..]
    ensures !Contains(s[..i], sep)
    ensures Find(s[..i] + sep, sep, 0) == Some(i)
  {
    assert At(s, i, sep);
    var head, tail := s[..i], s[i + |sep|..];
    assert s[i..i + |sep|] == sep;
    assert s == head + sep + tail;
    NoneBefore(s, sep, i);
    FindPrefix(s, sep, i);
    assert s[..i + |sep|] == head + sep;
  }

  /** No occurrence of t lies wholly before its first occurrence. */
  lemma NoneBefore(s: string, t: string, i: nat)
    requires t != [] && Find(s, t, 0) == Some(i)
    ensures !Contains(s[..i], t)
  {
    var head := s[..i];
    forall k | 0 <= k <= |head|
      ensures !At(head, k, t)
    {
      if At(head, k, t) {
        assert head[k..][..|t|] == t;
        assert s[k..][..|t|] == head[k..][..|t|];
        assert At(s, k, t);
      }
    }
  }

  /** The first occurrence of t in s is also the first in the prefix of s
      that ends with it. */
  lemma FindPrefix(s: string, t: string, i: nat)
    requires Find(s, t, 0) == Some(i)
    ensures Find(s[..i + |t|], t, 0) == Some(i)
  {
    assert At(s, i, t);
    var u := s[..i + |t|];
    assert u[i..] == t;
    assert At(u, i, t);
    forall k | 0 <= k < i
      ensures !At(u, k, t)
    {
      if At(u, k, t) {
        assert s[k..k + |t|] == u[k..k + |t|];
        assert At(s, k, t);
      }
    }
    FindFirst(u, t, i);
  }

  /** Find reports an occurrence with none before it. */
  lemma FindFirst(s: string, t: string, i: nat)
    requires At(s, i, t)
    requires forall k :: 0 <= k < i ==> !At(s, k, t)
    ensures Find(s, t, 0) == Some(i)
  {
  }

  /** A first occurrence right after a is still the first once more text
      follows. */
  lemma FindExtend(a: string, t: string, b: string)
    requires Find(a + t, t, 0) == Some(|a|)
    ensures Find(a + t + b, t, 0) == Some(|a|)
  {
    var u := a + t + b;
    AtConcat(a, t, b);
    forall k | 0 <= k < |a|
      ensures !At(u, k, t)
    {
      if At(u, k, t) {
        assert u[k..k + |t|] == (a + t)[k..k + |t|];
        assert At(a + t, k, t);
      }
    }
    FindFirst(u, t, |a|);
  }

  /** split(sep) is the only way to cut s at occurrences of sep, each the
      first one after the previous cut, leaving none in the last part. */
  lemma {:induction false} SplitOnUnique(s: string, sep: string, parts: seq<string>)
    requires sep != [] && |parts| >= 1 && Join(parts, sep) == s
    requires !Contains(parts[|parts| - 1], sep)
    requires forall k :: 0 <= k < |parts| - 1 ==> Find(parts[k] + sep, sep, 0) == Some(|parts[k]|)
    ensures SplitOn(s, sep) == parts
    decreases |parts|
  {
    if |parts| > 1 {
      var a, tail := parts[0], Join(parts[1..], sep);
      assert s == a + sep + tail;
      FindExtend(a, sep, tail);
      assert s[..|a|] == a;
      assert s[|a| + |sep|..] == tail;
      SplitOnUnique(tail, sep, parts[1..]);
      assert parts == [a] + parts[1..];
    }
  }

  /** A text without whitespace holds no text that has some. */
  lemma NoSpaceInfix(s: string, t: string, j: nat)
    requires NoSpace(s) && j < |t| && IsSpace(t[j])
    ensures !Contains(s, t)
  {
    forall i | 0 <= i <= |s|
      ensures !At(s, i, t)
    {
      if i + |t| <= |s| {
        assert s[i..][j] == s[i + j];
      }
    }
  }

  /** In a name without whitespace followed by a separator that starts with
      whitespace, the separator is first found right after the name. */
  lemma FindSeparator(n: string, sep: string, rest: string)
    requires NoSpace(n) && sep != [] && IsSpace(sep[0])
    ensures Find(n + sep + rest, sep, 0) == Some(|n|)
  {
    var s := n + sep + rest;
    forall k | 0 <= k < |n|
      ensures !At(s, k, sep)
    {
      assert s[k] == n[k];
      if k + |sep| <= |s| {
        assert s[k..][0] == s[k];
      }
    }
    AtConcat(n, sep, rest);
  }

  /** Splitting names without whitespace, joined by a separator that starts
      with whitespace, gives the names back. */
  lemma {:induction false} SplitOnJoin(names: seq<string>, sep: string)
    requires names != [] && sep != [] && IsSpace(sep[0])
    requires forall k :: 0 <= k < |names| ==> NoSpace(names[k])
    ensures SplitOn(Join(names, sep), sep) == names
    decreases |names|
  {
    var n := names[0];
    if |names| == 1 {
      NoSpaceInfix(n, sep, 0);
    } else {
      var rest := Join(names[1..], sep);
      var s := n + sep + rest;
      assert Join(names, sep) == s;
      FindSeparator(n, sep, rest);
      assert s[..|n|] == n;
      assert s[|n| + |sep|..] == rest;
      SplitOnJoin(names[1..], sep);
      assert names == [n] + names[1..];
    }
  }

  /** Everything after the last occurrence of the one-character separator, as
      Python's `x.split(sep)[-1]`. */
  function AfterLast(s: string, sep: char): (r: string)
    ensures |r| <= |s| && r == s[|s| - |r|..]
    ensures sep !in r
    ensures |r| < |s| ==> s[|s| - |r| - 1] == sep
    decreases |s|
  {
    if s == [] then []
    else if s[|s| - 1] == sep then []
    else
      var r := AfterLast(s[..|s| - 1], sep);
      AfterLastStep(s, r);
      r + [s[|s| - 1]]
  }

  /** A text without the separator is its own last segment. */
  lemma {:induction false} AfterLastAbsent(s: string, sep: char)
    requires sep !in s
    ensures AfterLast(s, sep) == s
    decreases |s|
  {
    if s != [] {
      assert sep !in s[..|s| - 1];
      AfterLastAbsent(s[..|s| - 1], sep);
      assert s[..|s| - 1] + [s[|s| - 1]] == s;
    }
  }

  /** A suffix of all but the last character of s, extended by that character. */
  lemma AfterLastStep(s: string, r: string)
    requires s != [] && |r| <= |s| - 1 && r == s[..|s| - 1][|s| - 1 - |r|..]
    ensures r + [s[|s| - 1]] == s[|s| - 1 - |r|..]
    ensures |r| < |s| - 1 ==> s[..|s| - 1][|s| - 1 - |r| - 1] == s[|s| - |r| - 2]
  {
  }

  // ---------------------------------------------------------------------
  // Character-wise rewriting: str.lower() and str.replace of one character

  /** ASCII lower case (str.lower() on ASCII text). */
  function LowerChar(c: char): char {
    if 'A' <= c <= 'Z' then (c as int + 32) as char else c
  }

  function Lower(s: string): (r: string)
    ensures |r| == |s|
    ensures forall k :: 0 <= k < |s| ==> r[k] == LowerChar(s[k])
  {
    seq(|s|, k requires 0 <= k < |s| => LowerChar(s[k]))
  }

  /** Lower-casing twice is lower-casing once. */
  lemma LowerIdempotent(s: string)
    ensures Lower(Lower(s)) == Lower(s)
  {
  }

  /** Python's str.endswith. */
  predicate IsSuffix(t: string, s: string) {
    |t| <= |s| && s[|s| - |t|..] == t
  }

  /** s.replace(c, d) for single characters. */
  function ReplaceChar(s: string, c: char, d: char): (r: string)
    ensures |r| == |s|
    ensures forall k :: 0 <= k < |s| ==> r[k] == (if s[k] == c then d else s[k])
  {
    seq(|s|, k requires 0 <= k < |s| => if s[k] == c then d else s[k])
  }

  /** s.replace(c, "") for a single character. */
  function RemoveChar(s: string, c: char): (r: string)
    ensures c !in r
    ensures forall d :: d in r <==> d in s && d != c
    ensures multiset(r) == multiset(s)[c := 0]
    decreases |s|
  {
    if s == [] then []
    else
      var rest := RemoveChar(s[1..], c);
      assert forall d :: d in s <==> d == s[0] || d in s[1..];
      assert s == [s[0]] + s[1..];
      if s[0] == c then rest else [s[0]] + rest
  }

  /** Removing c keeps the other characters in their order: it works piece
      by piece. */
  lemma {:induction false} RemoveCharConcat(a: string, b: string, c: char)
    ensures RemoveChar(a + b, c) == RemoveChar(a, c) + RemoveChar(b, c)
    decreases |a|
  {
    if a == [] {
      assert a + b == b;
    } else {
      assert (a + b)[1..] == a[1..] + b;
      RemoveCharConcat(a[1..], b, c);
    }
  }

  // ---------------------------------------------------------------------
  // Decimal numerals

  function DigitValue(c: char): nat {
    if IsDigit(c) then c as int - '0' as int else 0
  }

  /** The value of a string of ASCII digits. */
  function DigitsValue(s: string): nat {
    if s == [] then 0 else DigitsValue(s[..|s| - 1]) * 10 + DigitValue(s[|s| - 1])
  }

  function DigitChar(d: nat): char
    requires d < 10
  {
    ('0' as int + d) as char
  }

  /** str() of a natural number: no leading zeros. */
  function NatToString(n: nat): (r: string)
    ensures r != [] && AllDigits(r)
    ensures DigitsValue(r) == n
    ensures |r| > 1 ==> r[0] != '0'
  {
    if n < 10 then [DigitChar(n)]
    else
      var r := NatToString(n / 10) + [DigitChar(n % 10)];
      assert r[..|r| - 1] == NatToString(n / 10);
      r
  }

  /** str() of an integer. */
  function IntToString(i: int): (r: string)
    ensures r != [] && NoSpace(r)
  {
    if i < 0 then "-" + NatToString(-i) else NatToString(i)
  }

  function Zeros(n: nat): (r: string)
    ensures |r| == n && AllDigits(r) && DigitsValue(r) == 0
  {
    if n == 0 then "" else
      var r := Zeros(n - 1) + "0";
      assert r[..|r| - 1] == Zeros(n - 1);
      r
  }

  function Pow10(k: nat): nat {
    if k == 0 then 1 else 10 * Pow10(k - 1)
  }

  lemma {:induction false} NatToStringFits(n: nat, k: nat)
    requires k >= 1 && n < Pow10(k)
    ensures |NatToString(n)| <= k
  {
    if n >= 10 {
      assert Pow10(1) == 10;
      assert n / 10 < Pow10(k - 1);
      NatToStringFits(n / 10, k - 1);
    }
  }

  /** Zero-padded to at least `width` digits, as strftime's %Y, %m, %d, %H,
      %M and %S print their fields. */
  function Padded(n: nat, width: nat): (r: string)
    ensures AllDigits(r) && |r| >= width
    ensures DigitsValue(r) == n
    ensures width >= 1 && n < Pow10(width) ==> |r| == width
  {
    var d := NatToString(n);
    assert width >= 1 && n < Pow10(width) ==> |d| <= width by {
      if width >= 1 && n < Pow10(width) { NatToStringFits(n, width); }
    }
    if |d| >= width then d
    else
      var r := Zeros(width - |d|) + d;
      DigitsValueConcat(Zeros(width - |d|), d);
      r
  }

  lemma {:induction false} DigitsValueConcat(a: string, b: string)
    requires AllDigits(a) && DigitsValue(a) == 0
    ensures DigitsValue(a + b) == DigitsValue(b)
    decreases |b|
  {
    if b == [] {
      assert a + b == a;
    } else {
      var b' := b[..|b| - 1];
      assert (a + b)[..|a + b| - 1] == a + b';
      DigitsValueConcat(a, b');
    }
  }

  /** Digit groups separated by single underscores, as int() accepts. */
  predicate IsNumeral(t: string) {
    t != [] && IsDigit(t[0]) && IsDigit(t[|t| - 1]) &&
    (forall k :: 0 <= k < |t| ==> IsDigit(t[k]) || t[k] == '_') &&
    (forall k :: 0 <= k < |t| - 1 ==> !(t[k] == '_' && t[k + 1] == '_'))
  }

  /** What int() accepts once the whitespace is stripped: a numeral, with
      an optional sign in front. */
  predicate IsIntLiteral(t: string) {
    IsNumeral(t) || (t != [] && (t[0] == '+' || t[0] == '-') && IsNumeral(t[1..]))
  }

  /** Python's int() of a string: surrounding whitespace, an optional sign,
      then a numeral; None where int() raises ValueError. */
  function PyInt(s: string): (r: Option<int>)
    ensures r.None? <==> !IsIntLiteral(Strip(s))
    ensures AllDigits(s) && s != [] ==> r == Some(DigitsValue(s))
  {
    var t := Strip(s);
    assert AllDigits(s) && s != [] ==> t == s && RemoveChar(t, '_') == t by {
      if AllDigits(s) && s != [] {
        assert !IsSpace(s[0]) && !IsSpace(s[|s| - 1]);
        RemoveAbsent(t, '_');
      }
    }

    if t != [] && (t[0] == '+' || t[0] == '-') then
      var body := t[1..];
      if IsNumeral(body) then
        var v: int := DigitsValue(RemoveChar(body, '_'));
        var n: int := if t[0] == '-' then -v else v;
        Some(n)
      else None
    else if IsNumeral(t) then Some(DigitsValue(RemoveChar(t, '_')))
    else None
  }

  /** int() reads back what str() writes for every integer. */
  lemma PyIntOfString(i: int)
    ensures PyInt(IntToString(i)) == Some(i)
  {
    if i < 0 {
      var d := NatToString(-i);
      var s := "-" + d;
      assert s[0] == '-' && s[1..] == d && s[|s| - 1] == d[|d| - 1];
      assert Strip(s) == s;
      assert '_' !in d && IsNumeral(d) by {
        assert forall k :: 0 <= k < |d| ==> IsDigit(d[k]);
      }
      RemoveAbsent(d, '_');
      assert PyInt(s) == Some(-(DigitsValue(d) as int));
    }
  }

  lemma {:induction false} RemoveAbsent(s: string, c: char)
    requires c !in s
    ensures RemoveChar(s, c) == s
    decreases |s|
  {
    if s != [] {
      RemoveAbsent(s[1..], c);
      assert s == [s[0]] + s[1..];
    }
  }

  // ---------------------------------------------------------------------
  // Pieces of the parsers' regular expressions

  /** The literal w at the start of s, then a non-empty whitespace run: the
      run and the text after it, or None. */
  function Literal(s: string, w: string): (r: Option<(string, string)>)
    ensures r.Some? ==> s == w + (r.value.0 + r.value.1)
    ensures r.Some? ==> r.value.0 != [] && AllIn(r.value.0, Space)
    ensures r.Some? ==> r.value.1 == [] || !IsSpace(r.value.1[0])
    ensures r.None? ==> !(w <= s) || s[|w|..] == [] || !IsSpace(s[|w|])
  {
    if w <= s then
      var (gap, rest) := Take(s[|w|..], Space);
      assert s == w + s[|w|..];
      if gap == [] then None else Some((gap, rest))
    else None
  }

  /** A word is not read where the text starts with another character. */
  lemma LiteralAbsent(s: string, w: string)
    requires w != [] && s != [] && s[0] != w[0]
    ensures Literal(s, w).None?
  {
  }

  lemma LiteralOf(w: string, gap: string, rest: string)
    requires gap != [] && AllIn(gap, Space)
    requires rest == [] || !IsSpace(rest[0])
    ensures Literal(w + (gap + rest), w) == Some((gap, rest))
  {
    var s := w + (gap + rest);
    assert w <= s;
    assert s[|w|..] == gap + rest;
    TakeOf(gap, rest, Space);
  }

  /** One to three digits, a dot, ... four groups: the length they cover.
      Each group is the maximal digit run, since a shorter one would leave
      a digit where a dot or whitespace is needed. */
  function QuadEnd(s: string): (r: Option<nat>)
    ensures r.Some? ==> 7 <= r.value <= |s| && IsDigit(s[0])
  {
    var a := Run(s, Digit);
    if a == 0 || a > 3 || a == |s| || s[a] != '.' then None
    else
      var b := a + 1 + Run(s[a + 1..], Digit);
      if b == a + 1 || b > a + 4 || b == |s| || s[b] != '.' then None
      else
        var c := b + 1 + Run(s[b + 1..], Digit);
        if c == b + 1 || c > b + 4 || c == |s| || s[c] != '.' then None
        else
          var d := c + 1 + Run(s[c + 1..], Digit);
          if d == c + 1 || d > c + 4 then None
          else
            assert s[..a][0] == s[0];
            Some(d)
  }
}

=== FILE: values.dfy ===
/*
 * The dynamically typed values held in the pipeline's parsed records, and the
 * few Python operations the components apply to them: truthiness, str(),
 * dict.get with a default, `a or b`, and int() with its errors caught.
 */

module Values {
  import opened Wrappers
  import opened Text

  /** A Python value found in a parsed record.  Floats, lists and nested
      objects are observed only through str() and truthiness, so they share
      the constructor Other. */
  datatype Value =
    | Str(s: string)
    | Int(i: int)
    | Bool(b: bool)
    | Null
    | Other(repr: string, truthy: bool)

  /** A parsed record: a Python dict with string keys. */
  type Record = map<string, Value>

  predicate Truthy(v: Value) {
    match v
    case Str(s) => s != []
    case Int(i) => i != 0
    case Bool(b) => b
    case Null => false
    case Other(_, t) => t
  }

  /** Python's str() of a value. */
  function ToStr(v: Value): (r: string)
    ensures v.Str? ==> r == v.s
    ensures v.Int? ==> r == IntToString(v.i) && NoSpace(r) && r != []
    ensures v == Bool(true) ==> r == "True"
    ensures v == Bool(false) ==> r == "False"
    ensures v == Null ==> r == "None"
    ensures v.Other? ==> r == v.repr
  {
    match v
    case Str(s) => s
    case Int(i) => IntToString(i)
    case Bool(b) => if b then "True" else "False"
    case Null => "None"
    case Other(repr, _) => repr
  }

  /** dict.get(k): the value, or None when the key is absent. */
  function Get(r: Record, k: string): (v: Value)
    ensures k !in r ==> v == Null
    ensures k in r ==> v == r[k]
  {
    if k in r then r[k] else Null
  }

  /** dict.get(k, d). */
  function GetOr(r: Record, k: string, d: Value): (v: Value)
    ensures k !in r ==> v == d
    ensures k in r ==> v == r[k]
  {
    if k in r then r[k] else d
  }

  /** Python's `a or b`. */
  function Or(a: Value, b: Value): (v: Value)
    ensures Truthy(a) ==> v == a
    ensures !Truthy(a) ==> v == b
  {
    if Truthy(a) then a else b
  }

  /** int(v), with None where int() raises ValueError or TypeError. */
  function IntOrNull(v: Value): (r: Value)
    ensures r.Int? || r == Null
    ensures v.Str? ==> (r == Null <==> !IsIntLiteral(Strip(v.s)))
    ensures v.Str? && r.Int? ==> PyInt(v.s) == Some(r.i)
    ensures v.Str? && AllDigits(v.s) && v.s != [] ==> r == Int(DigitsValue(v.s))
    ensures v.Int? ==> r == v
    ensures v.Bool? ==> r == Int(if v.b then 1 else 0)
    ensures v.Null? || v.Other? ==> r == Null
  {
    match v
    case Str(s) => (match PyInt(s) case Some(n) => Int(n) case None => Null)
    case Int(i) => v
    case Bool(b) => Int(if b then 1 else 0)
    case Null => Null
    case Other(_, _) => Null
  }

  /** int(str(i)) == i: the string form of an integer converts back to it. */
  lemma IntOfStr(i: int)
    ensures IntOrNull(Str(ToStr(Int(i)))) == Int(i)
  {
    PyIntOfString(i);
  }
}

=== FILE: windows_parser.dfy ===
/*
 * The Windows event parser: a JSON object per line, its multi-line
 * `message` flattened into section-qualified keys, and the column renaming
 * and basename rules that batch normalisation applies to a table of parsed
 * events.  JSON decoding is a parameter: `decode` stands for json.loads on
 * a line that holds an object, None where it raises JSONDecodeError.
 */

module WindowsParser {
  import opened Wrappers
  import opened Text
  import opened Values
  import opened BaseParser

  // ---------------------------------------------------------------------
  // can_parse / parse / enrich

  /** can_parse: the stripped line starts with `{` and is valid JSON. */
  predicate CanParse(line: string, decode: string -> Option<Record>) {
    var s := Strip(line);
    s != [] && s[0] == '{' && decode(s).Some?
  }

  /** The fields flattened out of a string `message`, or none. */
  function MessageOf(p: Record): map<string, string> {
    if "message" in p && p["message"].Str? then MessageFields(p["message"].s) else map[]
  }

  /** The order parse merges its sources in: the decoded object, then the
      metadata, then the message fields, each overwriting the keys it
      shares with the ones before. */
  predicate Merged(q: Record, p: Record, meta: Metadata) {
    var msg := MessageOf(p);
    q.Keys == p.Keys + {"recv_time", "src_ip"} + msg.Keys &&
    forall k :: k in q ==>
      q[k] == (if k in msg then Str(msg[k])
               else if k == "recv_time" then meta.recvTime
               else if k == "src_ip" then meta.srcIp
               else p[k])
  }

  /** The flattened message fields as record values. */
  function AsRecord(m: map<string, string>): (r: Record)
    ensures r.Keys == m.Keys
    ensures forall k :: k in m ==> r[k] == Str(m[k])
  {
    map k | k in m :: Str(m[k])
  }

  /** parse: None where decoding fails; otherwise the decoded object with the
      metadata and then the message fields merged in, passed through enrich.
      The metadata dict the registry builds always has two keys, so the
      `if metadata` test always holds. */
  function Parse(line: string, meta: Metadata, decode: string -> Option<Record>): (r: Option<Record>)
    ensures r.None? <==> decode(Strip(line)).None?
    ensures r.Some? ==> Merged(r.value, decode(Strip(line)).value, meta)
  {
    var p := decode(Strip(line));
    if p.None? then None
    else
      var r1 := WithMetadata(p.value, meta);
      assert "message" in r1 <==> "message" in p.value;
      assert "message" in r1 ==> r1["message"] == p.value["message"];
      var r2 := if "message" in r1 && r1["message"].Str? then r1 + AsRecord(MessageFields(r1["message"].s)) else r1;
      Some(Enrich(r2))
  }

  /** enrich is a pass-through. */
  function Enrich(r: Record): (q: Record)
    ensures q == r
  {
    r
  }

  /** A line can_parse accepts is parsed, into a record that is never empty
      (it holds the metadata), so the registry stops at this parser. */
  lemma CanParseParses(line: string, meta: Metadata, decode: string -> Option<Record>)
    requires CanParse(line, decode)
    ensures Parse(line, meta, decode).Some?
    ensures "recv_time" in Parse(line, meta, decode).value
  {
  }

  /** Only lines whose stripped form starts with `{` are accepted. */
  lemma CanParseBrace(line: string, decode: string -> Option<Record>)
    requires CanParse(line, decode)
    ensures Strip(line) != [] && Strip(line)[0] == '{'
  {
  }

  // ---------------------------------------------------------------------
  // _parse_message_field

  /** What one line of the message contributes: nothing, a new current
      section, or a key and a value. */
  datatype Entry = Skip | Header(section: string) | Field(key: string, value: string)

  /** One line: stripped, skipped when blank or without a colon, otherwise
      split at its first colon into a stripped key and value.  An empty value
      makes the key, without its spaces, the current section; otherwise the
      key with spaces turned into underscores names the value. */
  function Classify(raw: string): (e: Entry)
    ensures e.Skip? <==> Strip(raw) == [] || !Contains(Strip(raw), ":")
    ensures e.Header? ==> ' ' !in e.section && ':' !in e.section
    ensures e.Field? ==> ' ' !in e.key && ':' !in e.key
    ensures e.Field? ==> Trimmed(e.value)
    ensures var line := Strip(raw); var f := Find(line, ":", 0);
            !e.Skip? ==>
              f.Some? && f.value < |line| &&
              var key, value := Strip(line[..f.value]), Strip(line[f.value + 1..]);
              (e.Header? <==> value == []) &&
              (e.Header? ==> e.section == RemoveChar(key, ' ')) &&
              (e.Field? ==> e.key == ReplaceChar(key, ' ', '_') && e.value == value)
  {
    var line := Strip(raw);
    if line == [] then Skip
    else
      match Find(line, ":", 0)
      case None => Skip
      case Some(i) =>
        ColonFree(line, i);
        var key := Strip(line[..i]);
        var value := Strip(line[i + 1..]);
        StripWithin(line[..i]);
        if value == [] then Header(RemoveChar(key, ' '))
        else Field(ReplaceChar(key, ' ', '_'), value)
  }

  /** The text before the first colon holds none. */
  lemma ColonFree(line: string, i: nat)
    requires i <= |line| && Find(line, ":", 0) == Some(i)
    ensures i < |line| && ':' !in line[..i]
  {
    forall c | c in line[..i]
      ensures c != ':'
    {
      var k :| 0 <= k < i && line[..i][k] == c;
      assert !At(line, k, ":");
    }
  }

  /** A non-empty text with no whitespace at either end. */
  predicate Trimmed(v: string) {
    v != [] && !IsSpace(v[0]) && !IsSpace(v[|v| - 1])
  }

  /** `<section>_<key>`, or the key alone when no section is current. */
  function Qualified(section: string, key: string): (k: string)
    ensures section != [] ==> k == section + "_" + key
    ensures section == [] ==> k == key
    ensures ' ' !in section && ' ' !in key ==> ' ' !in k
  {
    if section != [] then section + "_" + key else key
  }

  /** The current section after the given lines: the last header's. */
  function Section(lines: seq<string>): (s: string)
    ensures ' ' !in s
  {
    if lines == [] then ""
    else
      var e := Classify(lines[|lines| - 1]);
      if e.Header? then e.section else Section(lines[..|lines| - 1])
  }

  /** With no header line the current section is "". */
  lemma {:induction false} SectionNone(lines: seq<string>)
    requires forall j :: 0 <= j < |lines| ==> !Classify(lines[j]).Header?
    ensures Section(lines) == ""
    decreases |lines|
  {
    if lines != [] {
      var init, last := lines[..|lines| - 1], lines[|lines| - 1];
      assert !Classify(last).Header?;
      assert forall j :: 0 <= j < |init| ==> init[j] == lines[j];
      SectionNone(init);
    }
  }

  /** The current section is the one of the last header line. */
  lemma {:induction false} SectionLast(lines: seq<string>, j: nat)
    requires j < |lines| && Classify(lines[j]).Header?
    requires forall m :: j < m < |lines| ==> !Classify(lines[m]).Header?
    ensures Section(lines) == Classify(lines[j]).section
    decreases |lines|
  {
    var init, last := lines[..|lines| - 1], lines[|lines| - 1];
    if j < |lines| - 1 {
      assert !Classify(last).Header?;
      assert Section(lines) == Section(init);
      assert init[j] == lines[j];
      assert forall m :: j < m < |init| ==> init[m] == lines[m];
      SectionLast(init, j);
    }
  }

  /** A line that is a bare colon is a header with an empty name: it ends
      the current section, so the keys after it go unprefixed. */
  lemma BareColonResets(lines: seq<string>)
    ensures Section(lines + [":"]) == ""
  {
    var l := lines + [":"];
    assert l[..|l| - 1] == lines && l[|l| - 1] == ":";
    var c := ":";
    assert Strip(c) == c;
    assert At(c, 0, ":");
    assert Find(c, ":", 0) == Some(0);
    assert Strip(c[..0]) == [] && Strip(c[1..]) == [];
  }

  /** The assignments the loop makes, in order. */
  function Pairs(lines: seq<string>): (ps: seq<(string, string)>) {
    if lines == [] then []
    else
      var init := lines[..|lines| - 1];
      match Classify(lines[|lines| - 1])
      case Field(key, value) => Pairs(init) + [(Qualified(Section(init), key), value)]
      case _ => Pairs(init)
  }

  /** Every key the loop assigns is free of spaces, and every value is
      non-empty with no whitespace at either end. */
  lemma {:induction false} PairsClean(lines: seq<string>)
    ensures forall k :: 0 <= k < |Pairs(lines)| ==> ' ' !in Pairs(lines)[k].0 && Trimmed(Pairs(lines)[k].1)
  {
    if lines != [] {
      var n := |lines| - 1;
      PairsClean(lines[..n]);
      PairsStep(lines, n);
      assert lines[..n + 1] == lines;
    }
  }

  /** A dict filled by the assignments in order. */
  function Assign(ps: seq<(string, string)>): (m: map<string, string>)
    ensures forall key :: key in m ==> (key, m[key]) in ps
    ensures forall k :: 0 <= k < |ps| ==> ps[k].0 in m
  {
    if ps == [] then map[]
    else
      var last := ps[|ps| - 1];
      var m := Assign(ps[..|ps| - 1]);
      assert forall k :: 0 <= k < |ps| - 1 ==> ps[..|ps| - 1][k] == ps[k];
      m[last.0 := last.1]
  }

  /** One more assignment overwrites or adds its key. */
  lemma AssignStep(ps: seq<(string, string)>, k: string, v: string)
    ensures Assign(ps + [(k, v)]) == Assign(ps)[k := v]
  {
    assert (ps + [(k, v)])[..|ps|] == ps;
  }

  /** The message split into lines, with carriage returns removed. */
  function MessageLines(message: string): seq<string> {
    SplitOn(RemoveChar(message, '\r'), "\n")
  }

  /** The flattened message: every key free of spaces, every value non-empty
      and without surrounding whitespace. */
  function MessageFields(message: string): (m: map<string, string>)
    ensures forall k :: k in m ==> ' ' !in k && Trimmed(m[k])
  {
    if message == [] then map[]
    else
      PairsClean(MessageLines(message));
      Assign(Pairs(MessageLines(message)))
  }

  /** _parse_message_field: nothing for an empty message, otherwise its
      lines flattened. */
  method ParseMessageField(message: string) returns (data: map<string, string>)
    ensures data == MessageFields(message)
  {
    if message == [] {
      return map[];
    }
    var lines := SplitOn(RemoveChar(message, '\r'), "\n");
    data := FlattenLines(lines);
  }

  /** The loop of _parse_message_field, threading the current section. */
  method FlattenLines(lines: seq<string>) returns (data: map<string, string>)
    ensures data == Assign(Pairs(lines))
  {
    data := map[];
    var section := "";
    ghost var ps: seq<(string, string)> := [];
    var i := 0;
    while i < |lines|
      invariant 0 <= i <= |lines|
      invariant section == Section(lines[..i])
      invariant ps == Pairs(lines[..i]) && data == Assign(ps)
    {
      PairsStep(lines, i);
      var e := Classify(lines[i]);
      if e.Header? {
        section := e.section;
      } else if e.Field? {
        var finalKey := if section != [] then section + "_" + e.key else e.key;
        AssignStep(ps, finalKey, e.value);
        ps := ps + [(finalKey, e.value)];
        data := data[finalKey := e.value];
      }
      i := i + 1;
    }
    assert lines[..|lines|] == lines;
  }

  /** One more line: what it contributes is added to the state before it. */
  lemma PairsStep(lines: seq<string>, i: nat)
    requires i < |lines|
    ensures var e := Classify(lines[i]);
      Section(lines[..i + 1]) == (if e.Header? then e.section else Section(lines[..i])) &&
      Pairs(lines[..i + 1]) == Pairs(lines[..i]) +
        (if e.Field? then [(Qualified(Section(lines[..i]), e.key), e.value)] else [])
  {
    assert lines[..i + 1][..i] == lines[..i];
    assert lines[..i + 1][i] == lines[i];
  }

  /** Each key keeps the value of its last assignment. */
  lemma {:induction false} LastWins(ps: seq<(string, string)>, k: nat)
    requires k < |ps|
    requires forall j :: k < j < |ps| ==> ps[j].0 != ps[k].0
    ensures ps[k].0 in Assign(ps) && Assign(ps)[ps[k].0] == ps[k].1
    decreases |ps|
  {
    if k < |ps| - 1 {
      var init := ps[..|ps| - 1];
      assert forall j :: k < j < |init| ==> init[j] == ps[j];
      LastWins(init, k);
    }
  }

  /** The assignments of a prefix of the lines are a prefix of the
      assignments of all of them. */
  lemma {:induction false} PairsPrefix(lines: seq<string>, n: nat)
    requires n <= |lines|
    ensures Pairs(lines[..n]) <= Pairs(lines)
    decreases |lines|
  {
    if n < |lines| {
      var init := lines[..|lines| - 1];
      assert init[..n] == lines[..n];
      PairsPrefix(init, n);
    } else {
      assert lines[..n] == lines;
    }
  }

  /** A header line followed by a key/value line gives the key qualified by
      the header's section.  In the event at tests/test_parser.py:153 the
      line `Subject:` followed by `Security ID: S-1-5-21-...` gives
      `Subject_Security_ID`, and `Group:` followed by `Security ID:
      S-1-5-32-544` gives `Group_Security_ID`. */
  lemma HeaderThenField(lines: seq<string>, n: nat, section: string, key: string, value: string)
    requires n + 1 < |lines|
    requires Classify(lines[n]) == Header(section) && section != []
    requires Classify(lines[n + 1]) == Field(key, value)
    ensures (section + "_" + key, value) in Pairs(lines)
  {
    PairsStep(lines, n);
    PairsStep(lines, n + 1);
    PairsPrefix(lines, n + 2);
    var ps := Pairs(lines[..n + 2]);
    assert ps[|ps| - 1] == (section + "_" + key, value);
    assert Pairs(lines)[|ps| - 1] == ps[|ps| - 1];
  }

  // ---------------------------------------------------------------------
  // normalize: vendor column names to canonical names, then basenames

  /** A table of parsed events, column by column. */
  type Frame = map<string, seq<Value>>

  /** sigma_field_mapping: the canonical name of a vendor column. */
  function CanonicalName(vendor: string): Option<string> {
    if vendor == "CommandLine" then Some("cmdline")
    else if vendor == "ParentProcessName" then Some("parent")
    else if vendor == "NewProcessName" then Some("name")
    else if vendor == "Image" then Some("image")
    else if vendor == "TargetUserName" then Some("user")
    else if vendor == "TargetFilename" then Some("target_file")
    else if vendor == "LogName" then Some("channel")
    else if vendor == "CallerProcessName" then Some("process_name")
    else if vendor == "SubjectUserName" then Some("subject_user")
    else None
  }

  /** The vendor column a canonical name is taken from. */
  function VendorName(canonical: string): Option<string> {
    if canonical == "cmdline" then Some("CommandLine")
    else if canonical == "parent" then Some("ParentProcessName")
    else if canonical == "name" then Some("NewProcessName")
    else if canonical == "image" then Some("Image")
    else if canonical == "user" then Some("TargetUserName")
    else if canonical == "target_file" then Some("TargetFilename")
    else if canonical == "channel" then Some("LogName")
    else if canonical == "process_name" then Some("CallerProcessName")
    else if canonical == "subject_user" then Some("SubjectUserName")
    else None
  }

  /** The mapping is one-to-one: each name maps back. */
  lemma CanonicalToVendor(vendor: string, canonical: string)
    requires CanonicalName(vendor) == Some(canonical)
    ensures VendorName(canonical) == Some(vendor)
  {
    if vendor == "CommandLine" {}
    else if vendor == "ParentProcessName" {}
    else if vendor == "NewProcessName" {}
    else if vendor == "Image" {}
    else if vendor == "TargetUserName" {}
    else if vendor == "TargetFilename" {}
    else if vendor == "LogName" {}
    else if vendor == "CallerProcessName" {}
    else {}
  }

  lemma VendorToCanonical(vendor: string, canonical: string)
    requires VendorName(canonical) == Some(vendor)
    ensures CanonicalName(vendor) == Some(canonical)
  {
    if canonical == "cmdline" {}
    else if canonical == "parent" {}
    else if canonical == "name" {}
    else if canonical == "image" {}
    else if canonical == "user" {}
    else if canonical == "target_file" {}
    else if canonical == "channel" {}
    else if canonical == "process_name" {}
    else {}
  }

  /** No vendor name is also a canonical name. */
  lemma VendorNotCanonical(vendor: string)
    requires CanonicalName(vendor).Some?
    ensures VendorName(vendor).None?
  {
    if vendor == "CommandLine" {}
    else if vendor == "ParentProcessName" {}
    else if vendor == "NewProcessName" {}
    else if vendor == "Image" {}
    else if vendor == "TargetUserName" {}
    else if vendor == "TargetFilename" {}
    else if vendor == "LogName" {}
    else if vendor == "CallerProcessName" {}
    else {}
  }

  /** valid_renames: the vendor column exists and its canonical column does
      not, both judged on the columns before any rename. */
  predicate Renames(cols: set<string>, vendor: string) {
    vendor in cols && CanonicalName(vendor).Some? && CanonicalName(vendor).value !in cols
  }

  /** The name a column has after df.rename(valid_renames). */
  function NewName(cols: set<string>, c: string): string {
    if Renames(cols, c) then CanonicalName(c).value else c
  }

  /** The column a column of the renamed table takes its values from. */
  function OldName(cols: set<string>, n: string): string {
    if VendorName(n).Some? && Renames(cols, VendorName(n).value) then VendorName(n).value else n
  }

  /** Each column keeps its values under its new name. */
  lemma OldNameOf(cols: set<string>, c: string)
    requires c in cols
    ensures OldName(cols, NewName(cols, c)) == c
  {
    if Renames(cols, c) {
      CanonicalToVendor(c, NewName(cols, c));
    } else if VendorName(c).Some? {
      VendorToCanonical(VendorName(c).value, c);
    }
  }

  /** The columns after the renaming step, all renamed at once. */
  function Renamed(f: Frame): (g: Frame)
    ensures g.Keys == set c | c in f :: NewName(f.Keys, c)
  {
    var cols := set c | c in f :: NewName(f.Keys, c);
    OldNamesIn(f.Keys);
    map n | n in cols :: f[OldName(f.Keys, n)]
  }

  lemma OldNamesIn(cols: set<string>)
    ensures forall n :: n in (set c | c in cols :: NewName(cols, c)) ==> OldName(cols, n) in cols
  {
    forall n | n in (set c | c in cols :: NewName(cols, c))
      ensures OldName(cols, n) in cols
    {
      var c :| c in cols && NewName(cols, c) == n;
      OldNameOf(cols, c);
    }
  }

  /** A vendor column whose canonical column is absent is renamed to it. */
  lemma RenameVendor(f: Frame, vendor: string, canonical: string)
    requires CanonicalName(vendor) == Some(canonical)
    requires vendor in f && canonical !in f
    ensures canonical in Renamed(f) && Renamed(f)[canonical] == f[vendor]
    ensures vendor !in Renamed(f)
  {
    assert NewName(f.Keys, vendor) == canonical;
    OldNameOf(f.Keys, vendor);
    VendorNotCanonical(vendor);
    NotRenamedTo(f.Keys, vendor);
  }

  /** No column is renamed to a vendor name. */
  lemma NotRenamedTo(cols: set<string>, vendor: string)
    requires Renames(cols, vendor) && VendorName(vendor).None?
    ensures forall a :: a in cols ==> NewName(cols, a) != vendor
  {
    forall a | a in cols && Renames(cols, a)
      ensures CanonicalName(a).value != vendor
    {
      CanonicalToVendor(a, CanonicalName(a).value);
    }
  }

  /** An existing canonical column is never overwritten. */
  lemma RenameKeepsCanonical(f: Frame, vendor: string, canonical: string)
    requires CanonicalName(vendor) == Some(canonical)
    requires canonical in f
    ensures canonical in Renamed(f) && Renamed(f)[canonical] == f[canonical]
  {
    CanonicalToVendor(vendor, canonical);
    if CanonicalName(canonical).Some? {
      VendorNotCanonical(canonical);
    }
    assert NewName(f.Keys, canonical) == canonical;
    OldNameOf(f.Keys, canonical);
  }

  /** A column the mapping does not name is unchanged. */
  lemma RenameKeepsOther(f: Frame, c: string)
    requires c in f && CanonicalName(c).None? && VendorName(c).None?
    ensures c in Renamed(f) && Renamed(f)[c] == f[c]
  {
    assert NewName(f.Keys, c) == c;
  }

  /** `.str.split("\\").list.last()` on one cell. */
  function Basename(x: Value): (y: Value)
    ensures x.Str? ==> y.Str? && '\\' !in y.s && |y.s| <= |x.s| && y.s == x.s[|x.s| - |y.s|..]
    ensures !x.Str? ==> y == x
  {
    if x.Str? then Str(AfterLast(x.s, '\\')) else x
  }

  /** A cell without a backslash is its own basename, so taking a basename
      twice is the same as taking it once. */
  lemma BasenameFixed(x: Value)
    ensures x.Str? && '\\' !in x.s ==> Basename(x) == x
    ensures Basename(Basename(x)) == Basename(x)
  {
    if x.Str? {
      if '\\' !in x.s {
        AfterLastAbsent(x.s, '\\');
      }
      AfterLastAbsent(Basename(x).s, '\\');
    }
  }

  function BaseColumn(c: seq<Value>): (d: seq<Value>)
    ensures |d| == |c| && forall i :: 0 <= i < |c| ==> d[i] == Basename(c[i])
  {
    seq(|c|, i requires 0 <= i < |c| => Basename(c[i]))
  }

  /** normalize: the renaming, then parent_name from parent, process_name
      replaced by the basename of name when name exists, and
      process_basename from the resulting process_name. */
  function Normalize(f: Frame): (g: Frame) {
    var f1 := Renamed(f);
    var f2 := if "parent" in f1 then f1["parent_name" := BaseColumn(f1["parent"])] else f1;
    var f3 := if "name" in f2 then f2["process_name" := BaseColumn(f2["name"])] else f2;
    // The source's second test, "process_name" != "name", always holds.
    if "process_name" in f3 then f3["process_basename" := BaseColumn(f3["process_name"])] else f3
  }

  /** The basename columns: parent_name from parent; when name exists,
      process_name is the basename of name and process_basename the same;
      otherwise process_basename is the basename of an existing
      process_name, which itself is kept.  Every other column is left as
      the renaming left it. */
  lemma NormalizeRules(f: Frame)
    ensures var f1, g := Renamed(f), Normalize(f);
      ("parent" in f1 ==> "parent_name" in g && g["parent_name"] == BaseColumn(f1["parent"])) &&
      ("name" in f1 ==> "process_name" in g && g["process_name"] == BaseColumn(f1["name"]) &&
                        "process_basename" in g && g["process_basename"] == g["process_name"]) &&
      ("name" !in f1 && "process_name" in f1 ==>
         g["process_name"] == f1["process_name"] &&
         "process_basename" in g && g["process_basename"] == BaseColumn(f1["process_name"])) &&
      (forall c :: c in f1 && c != "parent_name" && c != "process_name" && c != "process_basename" ==>
         c in g && g[c] == f1[c])
  {
    var f1 := Renamed(f);
    if "name" in f1 {
      var c := BaseColumn(f1["name"]);
      forall i | 0 <= i < |c|
        ensures Basename(c[i]) == c[i]
      {
        BasenameFixed(f1["name"][i]);
      }
      assert BaseColumn(c) == c;
    }
  }
}

=== FILE: zeek_parser.dfy ===
/*
 * The Zeek conn.log parser: a data line of conn.log (nineteen columns, an
 * optional twentieth) becomes a record with one entry per column, the
 * counters as integers, the byte counts as integers or null, the epoch
 * turned into a UTC timestamp, the metadata, and the originating host as
 * "hostname".
 */

module ZeekConnParser {
  import opened Wrappers
  import opened Text
  import opened Values
  import opened BaseParser

  // ---------------------------------------------------------------------
  // The conn pattern

  /** `\d+\.\d+`: digits, one dot, digits. */
  predicate IsEpoch(t: string) {
    var i := Run(t, Digit);
    0 < i < |t| - 1 && t[i] == '.' && AllDigits(t[i + 1..])
  }

  /** `\d+`: one or more decimal digits. */
  predicate Decimal(t: string) {
    t != [] && AllDigits(t)
  }

  /** The columns the pattern reads with `\d+`: orig_p, resp_p,
      missed_bytes, orig_pkts, orig_ip_bytes, resp_pkts, resp_ip_bytes. */
  predicate Counters(fs: seq<string>)
    requires |fs| >= 19
  {
    Decimal(fs[3]) && Decimal(fs[5]) && Decimal(fs[13]) && Decimal(fs[15]) &&
    Decimal(fs[16]) && Decimal(fs[17]) && Decimal(fs[18])
  }

  /** A conn.log data row as whitespace-separated words: the nineteen
      columns and possibly one trailing word. */
  predicate Row(fs: seq<string>) {
    (|fs| == 19 || |fs| == 20) &&
    (forall k :: 0 <= k < |fs| ==> IsToken(fs[k])) &&
    IsEpoch(fs[0]) && Counters(fs)
  }

  /** conn_pattern.match(s): every `\S+` and `\d+` group must reach the next
      whitespace run, and the optional tail plus `$` admit at most one more
      word and no trailing whitespace, so a match is a Row of the words of
      s with nothing before the first word. The nineteen captured columns,
      or None. */
  function Match(s: string): (r: Option<seq<string>>)
    ensures r.Some? ==> s != [] && !IsSpace(s[0]) && !IsSpace(s[|s| - 1])
    ensures r.Some? ==> Row(Tokens(s)) && r.value == Tokens(s)[..19]
    ensures s != [] && !IsSpace(s[0]) && !IsSpace(s[|s| - 1]) && Row(Tokens(s)) ==> r.Some?
  {
    var ts := Tokens(s);
    if s != [] && !IsSpace(s[0]) && !IsSpace(s[|s| - 1]) && Row(ts) then Some(ts[..19])
    else None
  }

  /** A row written out with single spaces is matched, and its columns are
      captured as they were written. */
  lemma MatchOfRow(fs: seq<string>)
    requires Row(fs)
    ensures Strip(JoinWords(fs)) == JoinWords(fs)
    ensures Match(JoinWords(fs)) == Some(fs[..19])
  {
    TokensOfJoinWords(fs);
    JoinWordsEnds(fs);
  }

  /** can_parse: the stripped line is non-empty, does not start with '#',
      and matches. A '#' header line never matches anyway, since the first
      column must start with a digit. */
  function CanParse(line: string): (b: bool)
    ensures b <==> Match(Strip(line)).Some?
  {
    var s := Strip(line);
    if s == [] || s[0] == '#' then
      assert Match(s).None? by {
        if s != [] {
          FirstToken(s);
          NotEpoch(Tokens(s)[0]);
        }
      }
      false
    else Match(s).Some?
  }

  lemma NotEpoch(t: string)
    requires t != [] && !IsDigit(t[0])
    ensures !IsEpoch(t)
  {
    DigitRunHead(t);
  }

  /** A non-empty run of digits at the start of t starts with t's first character. */
  lemma DigitRunHead(t: string)
    ensures Run(t, Digit) > 0 ==> IsDigit(t[0])
  {
    var i := Run(t, Digit);
    if 0 < i {
      assert AllIn(t[..i], Digit);
      assert t[..i][0] == t[0];
    }
  }

  // ---------------------------------------------------------------------
  // Numeric fields

  /** The two conversions parse applies to the captured strings. */
  datatype Conversion =
    | Count  // int(d[k]), None when that raises
    | Size   // None for "-", else int(v), None when that raises

  function Convert(c: Conversion, v: Value): (r: Value)
    ensures r.Int? || r == Null
    ensures c.Size? && v == Str("-") ==> r == Null
    ensures v.Str? ==> (r == Null <==> (c.Size? && v.s == "-") || !IsIntLiteral(Strip(v.s)))
    ensures v.Str? && r.Int? ==> PyInt(v.s) == Some(r.i)
    ensures v.Str? && AllDigits(v.s) && v.s != [] ==> r == Int(DigitsValue(v.s))
    ensures v.Null? ==> r == Null
  {
    match c
    case Count => IntOrNull(v)
    case Size => if v == Str("-") then Null else IntOrNull(v)
  }

  /** Converting twice is converting once. */
  lemma ConvertIdempotent(c: Conversion, v: Value)
    ensures Convert(c, Convert(c, v)) == Convert(c, v)
  {
  }

  /** The loop `for k in keys: d[k] = convert(d.get(k))`. */
  function ConvertAll(d: Record, keys: seq<string>, c: Conversion): (r: Record)
    decreases |keys|
  {
    if keys == [] then d
    else ConvertAll(d[keys[0] := Convert(c, Get(d, keys[0]))], keys[1..], c)
  }

  /** Every listed key is converted once, even when listed twice; the other
      keys keep their values. */
  lemma {:induction false} ConvertAllGet(d: Record, keys: seq<string>, c: Conversion, k: string)
    ensures k in keys ==> Get(ConvertAll(d, keys, c), k) == Convert(c, Get(d, k))
    ensures k !in keys ==> Get(ConvertAll(d, keys, c), k) == Get(d, k)
    decreases |keys|
  {
    if keys != [] {
      var d' := d[keys[0] := Convert(c, Get(d, keys[0]))];
      ConvertAllGet(d', keys[1..], c, k);
      if k == keys[0] {
        ConvertIdempotent(c, Get(d, k));
      }
    }
  }

  const CountKeys: seq<string> :=
    ["orig_p", "resp_p", "missed_bytes", "orig_pkts", "orig_ip_bytes", "resp_pkts", "resp_ip_bytes"]

  const SizeKeys: seq<string> := ["orig_bytes", "resp_bytes"]

  /** The counter and byte-count columns as sets of keys. */
  const CountSet: set<string> :=
    {"orig_p", "resp_p", "missed_bytes", "orig_pkts", "orig_ip_bytes", "resp_pkts", "resp_ip_bytes"}

  const SizeSet: set<string> := {"orig_bytes", "resp_bytes"}

  lemma KeySets()
    ensures CountSet == set k | k in CountKeys
    ensures SizeSet == set k | k in SizeKeys
  {
  }

  /** The value a byte-count column gets. */
  function SizeOf(t: string): (v: Value)
    ensures t == "-" ==> v == Null
    ensures v == Null <==> t == "-" || !IsIntLiteral(Strip(t))
    ensures v.Int? ==> PyInt(t) == Some(v.i)
    ensures AllDigits(t) && t != [] ==> v == Int(DigitsValue(t))
    ensures v.Int? || v == Null
  {
    Convert(Size, Str(t))
  }

  // ---------------------------------------------------------------------
  // parse

  /** m.groupdict(): each named group as a string. */
  function Groups(fs: seq<string>): (d: Record)
    requires |fs| == 19
  {
    map[
      "ts" := Str(fs[0]), "uid" := Str(fs[1]), "orig_h" := Str(fs[2]),
      "orig_p" := Str(fs[3]), "resp_h" := Str(fs[4]), "resp_p" := Str(fs[5]),
      "proto" := Str(fs[6]), "service" := Str(fs[7]), "duration" := Str(fs[8]),
      "orig_bytes" := Str(fs[9]), "resp_bytes" := Str(fs[10]),
      "conn_state" := Str(fs[11]), "local_orig" := Str(fs[12]),
      "missed_bytes" := Str(fs[13]), "history" := Str(fs[14]),
      "orig_pkts" := Str(fs[15]), "orig_ip_bytes" := Str(fs[16]),
      "resp_pkts" := Str(fs[17]), "resp_ip_bytes" := Str(fs[18])]
  }

  /** The keys parse adds to the groups. */
  const AddedKeys: set<string> := {"ts_epoch", "timestamp", "recv_time", "src_ip", "hostname"}

  /** The epoch column converted: float(ts) and, where the conversion to a
      UTC datetime succeeds, its "%Y-%m-%d %H:%M:%S" rendering. */
  type Epoch = string -> (Value, Option<string>)

  function Timestamp(stamp: Option<string>): (v: Value)
    ensures stamp.Some? ==> v == Str(stamp.value)
    ensures stamp.None? ==> v == Null
  {
    match stamp
    case Some(t) => Str(t)
    case None => Null
  }

  /** The statements parse runs on the group dict, one at a time. */
  datatype Step =
    | Assign(key: string, value: Value)              // d[key] = value
    | ConvertEach(keys: seq<string>, c: Conversion)  // for k in keys: d[k] = convert(d.get(k))
    | Update(m: Record)                              // d.update(m)
    | CopyTo(source: string, target: string)         // d[target] = d.get(source)

  function Exec(d: Record, s: Step): Record {
    match s
    case Assign(k, v) => d[k := v]
    case ConvertEach(keys, c) => ConvertAll(d, keys, c)
    case Update(m) => d + m
    case CopyTo(a, b) => d[b := Get(d, a)]
  }

  function Perform(d: Record, steps: seq<Step>): Record
    decreases |steps|
  {
    if steps == [] then d else Perform(Exec(d, steps[0]), steps[1..])
  }

  /** Whether a statement may change the entry under k. */
  predicate Writes(s: Step, k: string) {
    match s
    case Assign(key, _) => k == key
    case ConvertEach(keys, _) => k in keys
    case Update(m) => k in m
    case CopyTo(_, target) => k == target
  }

  /** The value a statement stores under k regardless of the dict, if any. */
  function Sets(s: Step, k: string): Option<Value> {
    match s
    case Assign(key, v) => if k == key then Some(v) else None
    case Update(m) => if k in m then Some(m[k]) else None
    case _ => None
  }

  lemma ExecKeeps(d: Record, s: Step, k: string)
    requires !Writes(s, k)
    ensures Get(Exec(d, s), k) == Get(d, k)
  {
    if s.ConvertEach? {
      ConvertAllGet(d, s.keys, s.c, k);
    }
  }

  /** Statements that do not write k leave its entry alone. */
  lemma {:induction false} PerformKeeps(d: Record, steps: seq<Step>, k: string)
    requires forall i :: 0 <= i < |steps| ==> !Writes(steps[i], k)
    ensures Get(Perform(d, steps), k) == Get(d, k)
    decreases |steps|
  {
    if steps != [] {
      ExecKeeps(d, steps[0], k);
      PerformKeeps(Exec(d, steps[0]), steps[1..], k);
    }
  }

  /** A key written only by an assignment or an update ends up with the
      value that statement stores. */
  lemma {:induction false} PerformSets(d: Record, steps: seq<Step>, j: nat, k: string)
    requires j < |steps| && Sets(steps[j], k).Some?
    requires forall i :: j < i < |steps| ==> !Writes(steps[i], k)
    ensures Get(Perform(d, steps), k) == Sets(steps[j], k).value
    decreases j
  {
    if j == 0 {
      PerformKeeps(Exec(d, steps[0]), steps[1..], k);
    } else {
      PerformSets(Exec(d, steps[0]), steps[1..], j - 1, k);
    }
  }

  /** A key written only by one conversion ends up converted once. */
  lemma {:induction false} PerformConverts(d: Record, steps: seq<Step>, j: nat, k: string)
    requires j < |steps| && steps[j].ConvertEach? && k in steps[j].keys
    requires forall i :: 0 <= i < |steps| && i != j ==> !Writes(steps[i], k)
    ensures Get(Perform(d, steps), k) == Convert(steps[j].c, Get(d, k))
    decreases j
  {
    if j == 0 {
      ConvertAllGet(d, steps[0].keys, steps[0].c, k);
      PerformKeeps(Exec(d, steps[0]), steps[1..], k);
    } else {
      ExecKeeps(d, steps[0], k);
      PerformConverts(Exec(d, steps[0]), steps[1..], j - 1, k);
    }
  }

  /** A key written only by a copy ends up with the source's entry, when
      nothing before the copy wrote the source. */
  lemma {:induction false} PerformCopies(d: Record, steps: seq<Step>, j: nat, a: string, k: string)
    requires j < |steps| && steps[j] == CopyTo(a, k)
    requires forall i :: j < i < |steps| ==> !Writes(steps[i], k)
    requires forall i :: 0 <= i < j ==> !Writes(steps[i], a)
    ensures Get(Perform(d, steps), k) == Get(d, a)
    decreases j
  {
    if j == 0 {
      PerformKeeps(Exec(d, steps[0]), steps[1..], k);
    } else {
      ExecKeeps(d, steps[0], a);
      PerformCopies(Exec(d, steps[0]), steps[1..], j - 1, a, k);
    }
  }

  /** What parse does after the match, in its order. */
  function ParseSteps(e: Value, t: Value, meta: Metadata): seq<Step> {
    [Assign("ts_epoch", e), Assign("timestamp", t),
     ConvertEach(CountKeys, Count), ConvertEach(SizeKeys, Size),
     Update(MetaRecord(meta)), CopyTo("orig_h", "hostname")]
  }

  function Build(fs: seq<string>, meta: Metadata, epoch: Epoch): (q: Record)
    requires |fs| == 19
  {
    Perform(Groups(fs), ParseSteps(epoch(fs[0]).0, Timestamp(epoch(fs[0]).1), meta))
  }

  /** A key parse neither converts nor adds. */
  predicate Untouched(k: string) {
    k !in CountSet && k !in SizeSet && k !in AddedKeys
  }

  /** A key parse neither converts nor adds keeps its group. */
  lemma TextCarried(d: Record, e: Value, t: Value, meta: Metadata, k: string)
    requires Untouched(k)
    ensures Get(Perform(d, ParseSteps(e, t, meta)), k) == Get(d, k)
  {
    KeySets();
    PerformKeeps(d, ParseSteps(e, t, meta), k);
  }

  /** A counter column is converted once. */
  lemma CountCarried(d: Record, e: Value, t: Value, meta: Metadata, k: string)
    requires k in CountSet && k !in SizeSet && k !in AddedKeys
    ensures Get(Perform(d, ParseSteps(e, t, meta)), k) == Convert(Count, Get(d, k))
  {
    KeySets();
    PerformConverts(d, ParseSteps(e, t, meta), 2, k);
  }

  /** A byte-count column is converted once. */
  lemma SizeCarried(d: Record, e: Value, t: Value, meta: Metadata, k: string)
    requires k in SizeSet && k !in CountSet && k !in AddedKeys
    ensures Get(Perform(d, ParseSteps(e, t, meta)), k) == Convert(Size, Get(d, k))
  {
    KeySets();
    PerformConverts(d, ParseSteps(e, t, meta), 3, k);
  }

  /** The epoch entries parse adds. */
  lemma EpochCarried(d: Record, e: Value, t: Value, meta: Metadata)
    ensures var q := Perform(d, ParseSteps(e, t, meta));
      Get(q, "ts_epoch") == e && Get(q, "timestamp") == t
  {
    AddedNotConverted();
    PerformSets(d, ParseSteps(e, t, meta), 0, "ts_epoch");
    PerformSets(d, ParseSteps(e, t, meta), 1, "timestamp");
  }

  /** The metadata entries and the hostname parse adds. */
  lemma MetaCarried(d: Record, e: Value, t: Value, meta: Metadata)
    ensures var q := Perform(d, ParseSteps(e, t, meta));
      Get(q, "recv_time") == meta.recvTime && Get(q, "src_ip") == meta.srcIp &&
      Get(q, "hostname") == Get(d, "orig_h")
  {
    AddedNotConverted();
    PerformSets(d, ParseSteps(e, t, meta), 4, "recv_time");
    PerformSets(d, ParseSteps(e, t, meta), 4, "src_ip");
    PerformCopies(d, ParseSteps(e, t, meta), 5, "orig_h", "hostname");
  }

  lemma AddedNotConverted()
    ensures "ts_epoch" !in CountKeys && "ts_epoch" !in SizeKeys
    ensures "timestamp" !in CountKeys && "timestamp" !in SizeKeys
    ensures "hostname" !in CountKeys && "hostname" !in SizeKeys
    ensures "orig_h" !in CountKeys && "orig_h" !in SizeKeys
  {
  }

  lemma KeysClassified()
    ensures Untouched("ts") && Untouched("uid") && Untouched("orig_h") && Untouched("resp_h")
    ensures Untouched("proto") && Untouched("service") && Untouched("duration")
    ensures Untouched("conn_state") && Untouched("local_orig") && Untouched("history")
    ensures forall k :: k in CountSet ==> k !in SizeSet && k !in AddedKeys
    ensures forall k :: k in SizeSet ==> k !in CountSet && k !in AddedKeys
  {
  }

  /** The columns parse keeps as strings, under their own names. */
  predicate TextKept(q: Record, fs: seq<string>)
    requires |fs| == 19
  {
    Get(q, "ts") == Str(fs[0]) && Get(q, "uid") == Str(fs[1]) && Get(q, "orig_h") == Str(fs[2]) &&
    Get(q, "resp_h") == Str(fs[4]) && Get(q, "proto") == Str(fs[6]) &&
    Get(q, "service") == Str(fs[7]) && Get(q, "duration") == Str(fs[8]) &&
    Get(q, "conn_state") == Str(fs[11]) && Get(q, "local_orig") == Str(fs[12]) &&
    Get(q, "history") == Str(fs[14])
  }

  /** The counters as their decimal values, the byte counts as SizeOf gives
      them. */
  predicate NumbersRead(q: Record, fs: seq<string>)
    requires |fs| == 19
  {
    Get(q, "orig_p") == Int(DigitsValue(fs[3])) && Get(q, "resp_p") == Int(DigitsValue(fs[5])) &&
    Get(q, "missed_bytes") == Int(DigitsValue(fs[13])) &&
    Get(q, "orig_pkts") == Int(DigitsValue(fs[15])) &&
    Get(q, "orig_ip_bytes") == Int(DigitsValue(fs[16])) &&
    Get(q, "resp_pkts") == Int(DigitsValue(fs[17])) &&
    Get(q, "resp_ip_bytes") == Int(DigitsValue(fs[18])) &&
    Get(q, "orig_bytes") == SizeOf(fs[9]) && Get(q, "resp_bytes") == SizeOf(fs[10])
  }

  /** The epoch conversion, the metadata, and the originating host repeated
      as "hostname". */
  predicate Added(q: Record, fs: seq<string>, meta: Metadata, epoch: Epoch)
    requires |fs| == 19
  {
    Get(q, "ts_epoch") == epoch(fs[0]).0 && Get(q, "timestamp") == Timestamp(epoch(fs[0]).1) &&
    Get(q, "recv_time") == meta.recvTime && Get(q, "src_ip") == meta.srcIp &&
    Get(q, "hostname") == Str(fs[2])
  }

  /** What parse promises about the record of a matched row. */
  predicate Parsed(q: Record, fs: seq<string>, meta: Metadata, epoch: Epoch)
    requires |fs| == 19
  {
    TextKept(q, fs) && NumbersRead(q, fs) && Added(q, fs, meta, epoch)
  }

  /** parse(raw_log, metadata): None exactly when the stripped line does not
      match; otherwise the record ParseParsed describes. */
  function Parse(line: string, meta: Metadata, epoch: Epoch): (r: Option<Record>)
    ensures r.None? <==> Match(Strip(line)).None?
  {
    match Match(Strip(line))
    case None => None
    case Some(fs) => Some(Build(fs, meta, epoch))
  }

  /** A parsed line's record holds the matched columns as Parsed states. */
  lemma ParseParsed(line: string, meta: Metadata, epoch: Epoch)
    requires Parse(line, meta, epoch).Some?
    ensures Parsed(Parse(line, meta, epoch).value, Match(Strip(line)).value, meta, epoch)
  {
    BuildParsed(Match(Strip(line)).value, meta, epoch);
  }

  /** A line can_parse accepts is parsed, into a non-empty record. */
  lemma AcceptedNonEmpty(line: string, meta: Metadata, epoch: Epoch)
    requires CanParse(line)
    ensures Parse(line, meta, epoch).Some? && Parse(line, meta, epoch).value != map[]
  {
    ParseParsed(line, meta, epoch);
    assert "uid" in Parse(line, meta, epoch).value;
  }

  lemma BuildParsed(fs: seq<string>, meta: Metadata, epoch: Epoch)
    requires |fs| == 19 && Counters(fs)
    ensures Parsed(Build(fs, meta, epoch), fs, meta, epoch)
  {
    var d := Groups(fs);
    var e, t := epoch(fs[0]).0, Timestamp(epoch(fs[0]).1);
    GroupsText(fs);
    GroupsNumbers(fs);
    BuildText(d, e, t, meta, fs);
    BuildNumbers(d, e, t, meta, fs);
    EpochCarried(d, e, t, meta);
    MetaCarried(d, e, t, meta);
  }

  /** The ten string columns reach the record unchanged. */
  lemma BuildText(d: Record, e: Value, t: Value, meta: Metadata, fs: seq<string>)
    requires |fs| == 19 && TextKept(d, fs)
    ensures TextKept(Perform(d, ParseSteps(e, t, meta)), fs)
  {
    KeysClassified();
    TextCarried(d, e, t, meta, "ts");
    TextCarried(d, e, t, meta, "uid");
    TextCarried(d, e, t, meta, "orig_h");
    TextCarried(d, e, t, meta, "resp_h");
    TextCarried(d, e, t, meta, "proto");
    TextCarried(d, e, t, meta, "service");
    TextCarried(d, e, t, meta, "duration");
    TextCarried(d, e, t, meta, "conn_state");
    TextCarried(d, e, t, meta, "local_orig");
    TextCarried(d, e, t, meta, "history");
  }

  /** The nine numeric columns reach the record converted. */
  lemma BuildNumbers(d: Record, e: Value, t: Value, meta: Metadata, fs: seq<string>)
    requires |fs| == 19 && NumbersKept(d, fs) && Counters(fs)
    ensures NumbersRead(Perform(d, ParseSteps(e, t, meta)), fs)
  {
    KeysClassified();
    CountCarried(d, e, t, meta, "orig_p");
    CountCarried(d, e, t, meta, "resp_p");
    CountCarried(d, e, t, meta, "missed_bytes");
    CountCarried(d, e, t, meta, "orig_pkts");
    CountCarried(d, e, t, meta, "orig_ip_bytes");
    CountCarried(d, e, t, meta, "resp_pkts");
    CountCarried(d, e, t, meta, "resp_ip_bytes");
    SizeCarried(d, e, t, meta, "orig_bytes");
    SizeCarried(d, e, t, meta, "resp_bytes");
  }

  /** The numeric columns as groupdict gives them. */
  predicate NumbersKept(d: Record, fs: seq<string>)
    requires |fs| == 19
  {
    Get(d, "orig_p") == Str(fs[3]) && Get(d, "resp_p") == Str(fs[5]) &&
    Get(d, "missed_bytes") == Str(fs[13]) && Get(d, "orig_pkts") == Str(fs[15]) &&
    Get(d, "orig_ip_bytes") == Str(fs[16]) && Get(d, "resp_pkts") == Str(fs[17]) &&
    Get(d, "resp_ip_bytes") == Str(fs[18]) &&
    Get(d, "orig_bytes") == Str(fs[9]) && Get(d, "resp_bytes") == Str(fs[10])
  }

  lemma GroupsText(fs: seq<string>)
    requires |fs| == 19
    ensures TextKept(Groups(fs), fs)
  {
    GroupsTextHead(fs);
    GroupsTextTail(fs);
  }

  lemma GroupsTextHead(fs: seq<string>)
    requires |fs| == 19
    ensures var d := Groups(fs);
      Get(d, "ts") == Str(fs[0]) && Get(d, "uid") == Str(fs[1]) && Get(d, "orig_h") == Str(fs[2]) &&
      Get(d, "resp_h") == Str(fs[4]) && Get(d, "proto") == Str(fs[6])
  {
    GroupsIds(fs);
    GroupsHosts(fs);
  }

  lemma GroupsIds(fs: seq<string>)
    requires |fs| == 19
    ensures var d := Groups(fs);
      Get(d, "ts") == Str(fs[0]) && Get(d, "uid") == Str(fs[1])
  {
  }

  lemma GroupsHosts(fs: seq<string>)
    requires |fs| == 19
    ensures var d := Groups(fs);
      Get(d, "orig_h") == Str(fs[2]) && Get(d, "resp_h") == Str(fs[4]) && Get(d, "proto") == Str(fs[6])
  {
  }

  lemma GroupsTextTail(fs: seq<string>)
    requires |fs| == 19
    ensures var d := Groups(fs);
      Get(d, "service") == Str(fs[7]) && Get(d, "duration") == Str(fs[8]) &&
      Get(d, "conn_state") == Str(fs[11]) && Get(d, "local_orig") == Str(fs[12]) &&
      Get(d, "history") == Str(fs[14])
  {
  }

  lemma GroupsNumbers(fs: seq<string>)
    requires |fs| == 19
    ensures NumbersKept(Groups(fs), fs)
  {
    GroupsCounts(fs);
    GroupsSizes(fs);
  }

  lemma GroupsCounts(fs: seq<string>)
    requires |fs| == 19
    ensures var d := Groups(fs);
      Get(d, "orig_p") == Str(fs[3]) && Get(d, "resp_p") == Str(fs[5]) &&
      Get(d, "missed_bytes") == Str(fs[13]) && Get(d, "orig_pkts") == Str(fs[15])
  {
  }

  lemma GroupsSizes(fs: seq<string>)
    requires |fs| == 19
    ensures var d := Groups(fs);
      Get(d, "orig_ip_bytes") == Str(fs[16]) && Get(d, "resp_pkts") == Str(fs[17]) &&
      Get(d, "resp_ip_bytes") == Str(fs[18]) &&
      Get(d, "orig_bytes") == Str(fs[9]) && Get(d, "resp_bytes") == Str(fs[10])
  {
  }

  /** A conn.log row written out with single spaces parses to its columns. */
  lemma RowParsed(fs: seq<string>, meta: Metadata, epoch: Epoch)
    requires Row(fs)
    ensures CanParse(JoinWords(fs))
    ensures Parse(JoinWords(fs), meta, epoch).Some?
    ensures Parsed(Parse(JoinWords(fs), meta, epoch).value, fs[..19], meta, epoch)
  {
    MatchOfRow(fs);
    ParseParsed(JoinWords(fs), meta, epoch);
  }
}
